=== FILE: README.md ===
# DICOM ingestion core, modelled in Dafny

This project models three pieces of sequential logic from a Django system
that ingests DICOM files, and proves properties of each.

- **Clinical ingestion** (`app/utilities/process_dicom.py`). A tag accessor with
  defaults, the date and sex normalisers, and the path-component sanitiser.
  Each file goes through a per-file reconcile inside one all-or-nothing block:
  - upserts of Patient, Study, Series and Instance, keyed by UID;
  - then the modality payload: image information for CT/MR/PT/PET, or the
    structure set and its ROI rows for RTSTRUCT.

  The model also covers the path of the processed copy, the single-file
  driver, and the batch driver with its tally.
- **Training-data linkage** (`trainer/dicom_processor/training_data_preparation.py`).
  - Classification of each file's metadata by modality.
  - Bucketing: image records grouped by series UID, the other kinds in lists.
  - The organised copy layout: `archive_<id>/<series>/…`.
  - The three save stages: image series, structure sets linked to a series,
    and plan/dose pairs linked to a structure set through the plan.
  - The pipeline that runs these phases in order.
- **Archive flattening** (`app/utilities/extract_dicom_form_zip.py`). Member
  filtering, flattening to basenames, and collision renaming `<stem>_<k><ext>`.

A DICOM dataset is an immutable map from tag name to `Value`. A value is
`Null` (Python `None`), a string, an integer, a multi-valued list, or a
sequence of nested datasets. `Tags.Truthy` is Python truthiness.

Each database is a value: maps keyed by UID (`Reconcile.Store`,
`TrainingStore.TStore`). The atomic block returns `Result<Store>`, and on an
error the caller keeps the store it had.

Reading a file, writing a copy and extracting the archive are outside the
model. Their outcomes are inputs:
- `Ingest.FileInput` carries the read result and the save error.
- `TrainingMeta.FileRead` carries the read result.
- `Archive.Entry` carries each member's failure.

The training code re-reads files to learn their SOP instance UID. The model
instead gives each metadata record a `sop` field that holds that UID. The
check "series directory exists" in the structure-set layout is modelled as
"the referenced series is a key of the image buckets".

The modules, in dependency order:
- `Wrappers`: `Option`, `Result`.
- `Text`: decimal rendering, prefix and suffix tests.
- `PosixPath`: `join`, `basename`, `splitext`.
- `Tags`: values, the accessor, dates, sex.
- `PathSafety`: the sanitiser.
- `Reconcile`: the clinical store and per-file reconcile.
- `Ingest`: the clinical drivers and the processed-copy path.
- `TrainingMeta`: metadata classification and bucketing.
- `Linkage`: the organised layout.
- `TrainingStore`: the save stages and the pipeline.
- `Archive`: archive flattening.

The stored rows follow the `update_or_create` keys that `process_dicom.py`
writes. The field names declared in `app/models.py` differ from those keys
(for example `sop_intance_uid`). The model follows the code.

## Model

| member | source | states |
|---|---|---|
| Tags.Get | app/utilities/process_dicom.py:69-87 | A tag that is absent, `None` or `''` gives the default; any other stored value comes back unchanged. |
| Tags.ListOf | app/utilities/process_dicom.py:277-279 | `list()` of a multi-valued element gives its items and of a text its characters. Any other value raises the `TypeError`. |
| Tags.ParseDicomDate | app/utilities/process_dicom.py:90-106 | An empty value gives no date. A date comes back only for text that spells it as `YYYYMMDD`, and that date is valid. |
| Tags.DateRoundTrip | app/utilities/process_dicom.py:102-103 | Parsing the eight-digit text of any valid date gives that date back. |
| Tags.ParseDateText | trainer/dicom_processor/training_data_preparation.py:174-179 | In the training path only a non-empty string can become a date. Anything else, or text that does not parse, becomes None. |
| Tags.MapPatientSex | app/utilities/process_dicom.py:109-127 | M/m maps to male, F/f to female, O/o to other, each if and only if. An empty value gives None. |
| PathSafety.SanitizePathComponent | app/utilities/process_dicom.py:36-66 | A falsy value gives the default. Any other result is a safe component: non-empty, at most 200 characters, only word characters, `.` and `-`, and not starting with `.` or `_`. An untruncated result does not end in `.` or `_`. |
| PathSafety.SanitizeCases | app/utilities/process_dicom.py:48-66 | The result is the default when the value is falsy or nothing is left after stripping. Otherwise it is a prefix of the cleaned text, cut to 200 characters, and an uncut result is a trimmed component. |
| PathSafety.CleanedShape | app/utilities/process_dicom.py:52-60 | After stripping, replacing and trimming, the text holds only kept characters and has no `.` or `_` at either end. |
| PathSafety.SanitizeIdempotent | app/utilities/process_dicom.py:36-66 | Sanitising an untruncated, non-default result again gives it back. |
| PathSafety.SafeComponentIsFixed | app/utilities/process_dicom.py:52-66 | Every trimmed safe component is a fixed point of the sanitiser. |
| PathSafety.TraversalIsNeutralised | app/utilities/process_dicom.py:52-66 | `../../etc` sanitises to the single name `etc`. |
| PathSafety.DropsKeepInfix | app/utilities/process_dicom.py:53-60 | Dropping leading characters keeps a suffix of the argument, and dropping trailing ones keeps a prefix, so `strip` keeps a contiguous part. |
| PathSafety.Strip | app/utilities/process_dicom.py:53-60 | The result of `strip` neither starts nor ends with a character of the stripped set. |
| PathSafety.ReplaceUnsafe | app/utilities/process_dicom.py:56-57 | The substitution keeps the length and leaves only word characters, `.` and `-`. |
| Reconcile.RequiredKeys | app/utilities/process_dicom.py:139-241 | The keys are Ok if and only if PatientID, StudyInstanceUID, SeriesInstanceUID and SOPInstanceUID are all truthy. Otherwise the first missing key gives its own error message. |
| Reconcile.UpsertHierarchy | app/utilities/process_dicom.py:130-257 | Each of the four levels gains or overwrites exactly the row under its UID, pointing at its parent. Every other row and every payload table is unchanged. |
| Reconcile.UpsertPayload | app/utilities/process_dicom.py:260-391 | The payload fails, with the `TypeError`, if and only if an image geometry value cannot be listed, or a structure set meets a number (or `None`) where it takes a length, loops or indexes, or has contour data that cannot be listed. On success an image modality upserts only the image row of the instance; RTSTRUCT upserts the structure set and writes exactly its declared ROI rows; any other modality changes nothing. |
| Reconcile.ImageRowOf | app/utilities/process_dicom.py:268-293 | The image row fails if and only if a truthy geometry value cannot be listed. The geometry fields are `list(value)`, or None for an empty value; slice location and instance number are read with their defaults. |
| Reconcile.StructureSetRowOf | app/utilities/process_dicom.py:306-328 | The row fails with the `TypeError` if and only if StructureSetROISequence or ReferencedFrameOfReferenceSequence is a non-zero number, which `len()` rejects. Otherwise `number_of_roi` is the number of declared ROIs, the frame of reference is the first ReferencedFrameOfReferenceSequence item's FrameOfReferenceUID or `''` when there is no item, and the prescription template is reset to None. |
| Reconcile.ReconcileFile | app/utilities/process_dicom.py:478-493 | The block fails if and only if a key is missing or the payload fails. A missing key gives that key's message, a payload failure the `TypeError`, and neither changes the store. Otherwise: all four upserts, plus the modality payload with all other rows kept. |
| Reconcile.ReconcileIdempotent | app/utilities/process_dicom.py:149-391 | Reconciling the same dataset a second time changes nothing: one row per UID, holding the last run's values. |
| Reconcile.ReconcileKeepsLinks | app/utilities/process_dicom.py:149-391 | Every study, series, instance, payload and ROI row keeps pointing at a row that exists. |
| Reconcile.OtherRoisKept | app/utilities/process_dicom.py:384-391 | Reconciling one structure set leaves the ROI rows of every other structure set as they were. |
| Reconcile.ContourOf | app/utilities/process_dicom.py:354-371 | A contour fails if and only if its ContourImageSequence is a non-zero number (rejected by `len()`), or its ContourData is truthy and cannot be listed. Without the first failure it is kept if and only if its ContourData is truthy, and its points are then `list(ContourData)`. Its referenced SOP is the first ContourImageSequence item's UID, or `''` when there is no item. |
| Reconcile.ItemContours | app/utilities/process_dicom.py:351-371 | A ContourSequence that is a number fails the loop over it; any other value gives the kept contours of its items. |
| Reconcile.ContoursOf | app/utilities/process_dicom.py:345-373 | A ROIContourSequence that is a number fails the loop over it; any other value gives the contour map of its items. |
| Reconcile.KeptContoursMembers | app/utilities/process_dicom.py:353-371 | The kept contours succeed if and only if every contour succeeds. A contour is among them if and only if it comes from an item with data. |
| Reconcile.KeptContoursAppend | app/utilities/process_dicom.py:353-371 | The kept contours of two runs of contours are those of the first followed by those of the second, and the first failure wins: the loop is an in-order filter. |
| Reconcile.ContourMap | app/utilities/process_dicom.py:348-373 | The contour map fails if and only if some item's contours fail. Otherwise it has a key exactly for each ReferencedROINumber that occurs. |
| Reconcile.ContourMapLastWins | app/utilities/process_dicom.py:373 | A later item with the same ROI number replaces an earlier one. |
| Reconcile.ApplyRoisIsOverwrite | app/utilities/process_dicom.py:376-391 | Saving the ROIs overwrites exactly the keys (structure set, ROI number) of the declared ROIs. |
| Reconcile.RoiRowsFollowContourMap | app/utilities/process_dicom.py:376-391 | Each declared ROI's row has its name and the contours mapped to its number, or `[]` when none are. |
| Reconcile.RoiWrites | app/utilities/process_dicom.py:376-391 | The ROI rows written are keyed exactly by (this structure set, ROI number) for the declared ROIs. |
| Ingest.LevelDir | app/utilities/process_dicom.py:411-418 | Each of the patient, study and series directories is a safe component, or its default (`unknown_patient`, `unknown_study`, `unknown_series`). |
| Ingest.InstanceStem | app/utilities/process_dicom.py:419-432 | The file stem is a safe component, or `unknown_instance`. |
| Ingest.ProcessedPathShape | app/utilities/process_dicom.py:411-433 | The processed copy lies at `<base>/processed_dicom_files/<patient>/<study>/<series>/<sop>.dcm`, each part one safe component or its default. |
| Ingest.ProcessSingleFile | app/utilities/process_dicom.py:445-505 | Success holds if and only if the file reads, has a modality, passes the reconcile and saves; the error is None exactly on success. A read error, a missing modality ("Modality tag not present"), a missing key or a payload failure each gives its own error and changes nothing; the SOP is recorded once the keys are present. The store changes only by the reconcile of the file. The copy is added only on success, at the processed path. A committed reconcile stays even when the later save fails. |
| Ingest.SingleFileKeepsInvariants | app/utilities/process_dicom.py:478-496 | One file keeps the store linked, and keeps every saved copy at the path its own tags give. |
| Ingest.SavedCopyIsAddressed | app/utilities/process_dicom.py:396-433 | Saving the copy of a reconciled dataset keeps every copy at the path its own tags give. |
| Ingest.AsList | app/utilities/process_dicom.py:520-521 | A single path is treated as a one-element list. |
| Ingest.OutcomeOf | app/utilities/process_dicom.py:540-545 | A file counts as successful if and only if it succeeded, and as skipped if and only if it failed with "Modality tag not present". |
| Ingest.TalliesPartition | app/utilities/process_dicom.py:540-545 | successful + skipped + failed is the number of results. |
| Ingest.RunFilesInOrder | app/utilities/process_dicom.py:534-538 | The i-th result belongs to the i-th file. |
| Ingest.RunFilesKeepsInvariants | app/utilities/process_dicom.py:534-538 | A batch keeps the store linked and every copy at the path its own tags give. |
| Ingest.ProcessDicomFiles | app/utilities/process_dicom.py:508-554 | The results are the files processed in order. `total_files` equals the number of inputs and of results. Each counter counts its outcome, and the three add up to the total. |
| Ingest.Tally | app/utilities/process_dicom.py:540-545 | Each counter equals the number of results with its outcome. |
| TrainingMeta.ImageTypeOf | trainer/dicom_processor/training_data_preparation.py:188-195 | CT, MR and PT, each if and only if, are the image modalities of the training path. |
| TrainingMeta.ReadMetadata | trainer/dicom_processor/training_data_preparation.py:70-132 | A record is None if and only if the read failed, Modality is absent, or a reference sequence of its modality (or the declared-ROI sequence of a structure set) holds a number or `None`: that `TypeError` escapes the inner handlers and the outer handler returns None. Otherwise it keeps the path and modality. An image, structure-set, plan or dose record arises exactly for its modality. An image record holds the path, type, series, patient, description, date and SOP; a structure set its series, referenced series, ROI names and SOP; a plan its series, referenced structure set and SOP; a dose its series, referenced plan and SOP when present. |
| TrainingMeta.ItemZero | trainer/dicom_processor/training_data_preparation.py:114-118 | `seq[0]` fails if and only if the attribute is present and is a number or `None`; otherwise it gives the first item of a sequence, and nothing for a missing or empty one. |
| TrainingMeta.FirstItemAttr | trainer/dicom_processor/training_data_preparation.py:114-127 | The reference fails if and only if the sequence attribute is a number or `None`. Otherwise a missing or empty sequence gives None, and a present first item gives its attribute. |
| TrainingMeta.ReferencedSeries | trainer/dicom_processor/training_data_preparation.py:95-101 | The referenced series is read through the first item of each of the three nested sequences. It is None when a level is missing or empty, and fails when a level holds a number or `None`. |
| TrainingMeta.RoiNamesMembers | trainer/dicom_processor/training_data_preparation.py:103-108 | A name is listed if and only if some ROI item has it as its ROIName. |
| TrainingMeta.RoiNamesAppend | trainer/dicom_processor/training_data_preparation.py:103-108 | The names of two runs of ROI items are those of the first followed by those of the second: the loop is an in-order filter. |
| TrainingMeta.OrganizeIsPartition | trainer/dicom_processor/training_data_preparation.py:135-163 | Bucketing equals the reference partition: image records with a series UID grouped by it, and structure sets, plans and doses each in file order. Other records are dropped. |
| TrainingMeta.PlaceExtendsPartition | trainer/dicom_processor/training_data_preparation.py:147-161 | Placing one more record extends exactly its own bucket. |
| TrainingMeta.GroupBySeriesShape | trainer/dicom_processor/training_data_preparation.py:149-152 | Image groups have distinct keys, each a truthy series UID. |
| TrainingMeta.GroupBySeriesContents | trainer/dicom_processor/training_data_preparation.py:149-152 | A series' group holds exactly that series' records, in file order. A group exists if and only if the series has a record. |
| TrainingMeta.AddToGroupLookup | trainer/dicom_processor/training_data_preparation.py:152 | Appending to a group extends that group and no other. |
| TrainingMeta.InterleavingIrrelevant | trainer/dicom_processor/training_data_preparation.py:141-163 | Archives whose records agree kind by kind bucket identically. |
| Linkage.ImageFilesMembers | trainer/dicom_processor/training_data_preparation.py:330-343 | A series' organised paths are exactly `<series dir>/<sop>.dcm` for its images with a SOP UID. |
| Linkage.ImageFilesAppend | trainer/dicom_processor/training_data_preparation.py:337-346 | The copies of two runs of images are those of the first followed by those of the second: the loop is an in-order filter. |
| Linkage.ImageLayout | trainer/dicom_processor/training_data_preparation.py:330-335 | Every image series gets a path list, possibly empty. |
| Linkage.ImageLayoutAt | trainer/dicom_processor/training_data_preparation.py:330-343 | Each series' list holds the copies of that series' images. |
| Linkage.LayoutStructs | trainer/dicom_processor/training_data_preparation.py:354-379 | A structure set is laid out if and only if both its series UIDs are set, its referenced series was organised and it has a SOP UID. |
| Linkage.LayoutStructsLastWins | trainer/dicom_processor/training_data_preparation.py:371-376 | The last structure set laid out with a series UID or SOP UID owns that entry. |
| Linkage.StructUnderSeries | trainer/dicom_processor/training_data_preparation.py:364-372 | A structure-set copy lies at `<ref series>/RTStruct_<sop>/<sop>.dcm`, whenever the UIDs are relative. |
| Linkage.ImageUnderSeries | trainer/dicom_processor/training_data_preparation.py:321-343 | An image copy lies in its series' directory inside the archive root, whenever the UIDs are relative. |
| Linkage.AbsoluteSeriesEscapesRoot | trainer/dicom_processor/training_data_preparation.py:331 | Any series UID that reads as an absolute path replaces the archive root. |
| Linkage.PlansBySop | trainer/dicom_processor/training_data_preparation.py:386-390 | Only plans with a truthy SOP are indexed, each under its own SOP. |
| Linkage.PlansBySopLastWins | trainer/dicom_processor/training_data_preparation.py:386-390 | A later plan with the same SOP wins. |
| Linkage.PlanOf | trainer/dicom_processor/training_data_preparation.py:392-400 | A dose has a plan if and only if its plan reference is truthy and indexed. |
| Linkage.PlanPaths | trainer/dicom_processor/training_data_preparation.py:392-421 | A plan series gets a path if and only if some dose's dose→plan→structure-set chain holds and the plan's series UID is truthy. |
| Linkage.PlanPathsLastWins | trainer/dicom_processor/training_data_preparation.py:419-421 | A plan series' path is the plan copy of the last dose that writes it. |
| Linkage.DosePaths | trainer/dicom_processor/training_data_preparation.py:392-433 | A dose series gets a path if and only if that dose's chain holds and its series UID is truthy. |
| Linkage.DosePathsLastWins | trainer/dicom_processor/training_data_preparation.py:431-433 | A dose series' path is the dose copy of the last dose of that series that writes it. |
| Dicts.ApplyLastWins | trainer/dicom_processor/training_data_preparation.py:419-433 | A dictionary filled by a loop of assignments holds, at each key, the value of the last assignment to it. |
| Linkage.PairFilesShareDir | trainer/dicom_processor/training_data_preparation.py:409-428 | Plan and dose copies share `Plan_<plan sop>`, which lies inside the structure set's directory. |
| Linkage.OrganizeFilesByStructure | trainer/dicom_processor/training_data_preparation.py:330-364 | Laying out raises the `TypeError` of `os.path.join` if and only if an image series key is not text, or a structure set with both series UIDs set names a referenced series that is not text. Otherwise it gives the layout below. |
| Linkage.LayoutOf | trainer/dicom_processor/training_data_preparation.py:314-437 | The root is `<base>/archive_<id>`. The image paths are the image layout of the buckets, the structure-set copies and their SOP index are the structure-set layout, and the plan and dose paths are those of the dose loop over that index. |
| TrainingStore.ImageRowOf | trainer/dicom_processor/training_data_preparation.py:170-210 | The row belongs to the archive being processed. `number_of_images` is the group size. Patient, description, date and type come from the first image. Paths are the organised ones when known, else the original ones. |
| TrainingStore.SaveImages | trainer/dicom_processor/training_data_preparation.py:166-212 | The saved series are exactly the non-empty groups. They are added to the table, and other rows are kept. |
| TrainingStore.SaveImagesRow | trainer/dicom_processor/training_data_preparation.py:197-210 | Each saved series' row is built from its own group. |
| TrainingStore.SaveStructs | trainer/dicom_processor/training_data_preparation.py:215-253 | The saved structure sets are exactly the linkable ones, and the returned map has exactly those keys. Each points at a known image series. Their ROI names are added as a set, so a repeated name is one row. |
| TrainingStore.LinkedSeriesMembers | trainer/dicom_processor/training_data_preparation.py:222-229 | A structure set is saved if and only if both its UIDs are set and its series is among the saved or stored images. |
| TrainingStore.LinkedRoisMembers | trainer/dicom_processor/training_data_preparation.py:247-251 | An ROI row exists if and only if a saved structure set of that series names it. |
| TrainingStore.SaveStructsLastWins | trainer/dicom_processor/training_data_preparation.py:237-243 | A saved structure set's row comes from the last linkable record with its series UID. |
| TrainingStore.Remember | trainer/dicom_processor/training_data_preparation.py:245 | Recording a saved structure set adds its key and keeps keys distinct. |
| TrainingStore.RememberPlaces | trainer/dicom_processor/training_data_preparation.py:245 | A new series UID is appended at the end. A series UID already present keeps its place and takes the new structure set; no other entry changes. |
| TrainingStore.FindStruct | trainer/dicom_processor/training_data_preparation.py:275-283 | A structure set is found if and only if one recorded copy has the referenced SOP. |
| TrainingStore.FindStructIsFirst | trainer/dicom_processor/training_data_preparation.py:275-283 | The first such structure set, in insertion order, is the one found. |
| TrainingStore.ChainOf | trainer/dicom_processor/training_data_preparation.py:263-286 | The chain holds if and only if the dose has a plan, the plan names a structure set, and that set was saved. |
| TrainingStore.WritePairs | trainer/dicom_processor/training_data_preparation.py:256-311 | Pair rows are added exactly for doses whose chain holds, keyed by (dose series, plan series). Every row written points at a saved structure set. |
| TrainingStore.FirstNullKeyed | trainer/dicom_processor/training_data_preparation.py:256-311 | The doses before the position found make no upsert with a `None` key part, and the dose at it does. |
| TrainingStore.WrittenKeysSet | trainer/models.py:98-100 | Doses none of whose upserts has a `None` key part write only keys whose two series UIDs are set. |
| TrainingStore.SavePairs | trainer/dicom_processor/training_data_preparation.py:256-311 | The stage raises the database's NOT NULL error if and only if some dose whose chain holds has a `None` dose or plan series UID. The rows written before that dose stay, and are exactly those the earlier doses write. Every new key has both series UIDs set, and every row written points at a saved structure set. |
| TrainingStore.WritePairsLastWins | trainer/dicom_processor/training_data_preparation.py:303-311 | A pair key holds the row of the last dose whose chain holds and that writes that key. |
| TrainingStore.PairWriteShape | trainer/dicom_processor/training_data_preparation.py:263-311 | A dose attempts a pair upsert if and only if its chain holds. The key is (dose series, plan series), the row points at the found structure set, and each path is the organised one when known, else the original one. The attempt raises exactly when a key part is `None`. |
| TrainingStore.ProcessTrainingDataArchive | trainer/dicom_processor/training_data_preparation.py:440-469 | An extraction error or an empty listing fails with its message and changes nothing. A layout `TypeError` fails before any save and changes nothing. Any other failure is the pair stage's NOT NULL error. A success reports every listed file and the organised root. |
| TrainingStore.ProcessKeepsLinks | trainer/dicom_processor/training_data_preparation.py:459-463 | Every structure-set, ROI and pair row keeps pointing at a row that exists. |
| TrainingStore.RunStagesKeepsLinks | trainer/dicom_processor/training_data_preparation.py:455-463 | The save stages, run in order, keep the store linked. |
| TrainingStore.StructsFollowArchiveImages | trainer/dicom_processor/training_data_preparation.py:459-461 | Images are saved before structure sets. So a structure set whose referenced series is among the archive's images is saved, wherever its file sits, unless the layout raises, which saves nothing. |
| TrainingStore.RunStagesOutcome | trainer/dicom_processor/training_data_preparation.py:453-469 | The stages fail exactly when the layout raises or a dose whose chain holds has a `None` key part. A layout `TypeError` comes first and leaves the store unchanged. Any other failure is the NOT NULL error. Otherwise the report counts the series the image stage saved, the structure sets the structure-set stage saved, and the files listed. |
| TrainingStore.ReportOutcome | trainer/dicom_processor/training_data_preparation.py:440-469 | On a non-empty listing, a layout `TypeError` fails the run with the store unchanged. Otherwise the run fails exactly when a dose whose chain holds has a `None` key part, and then with the NOT NULL error. |
| TrainingStore.ReportCounts | trainer/dicom_processor/training_data_preparation.py:465-466 | On success, `images_count` is the number of distinct series and `rtstructs_count` the number of distinct structure sets saved. |
| TrainingStore.ProcessInterleavingIrrelevant | trainer/dicom_processor/training_data_preparation.py:453-463 | How the kinds are interleaved in the archive changes neither the report nor the store. |
| Archive.Candidate | app/utilities/extract_dicom_form_zip.py:65-66 | A renamed candidate is never empty. |
| Archive.CandidateInjective | app/utilities/extract_dicom_form_zip.py:65-68 | Different counters give different names. |
| Archive.CandidatesBound | app/utilities/extract_dicom_form_zip.py:63-68 | Pigeonhole: if candidates 1..k are all taken, then at least k names are taken. |
| Archive.FreeIndex | app/utilities/extract_dicom_form_zip.py:63-68 | The counter loop ends on the smallest free counter, and every smaller counter is taken. |
| Archive.FreeName | app/utilities/extract_dicom_form_zip.py:59-68 | The name is free. An untaken basename is kept unchanged. Otherwise the name is `<stem>_<k><ext>` for the smallest free k ≥ 1. |
| Archive.FreeNameIsComponent | app/utilities/extract_dicom_form_zip.py:49-68 | A target name never contains `/`. |
| Archive.Flatten | app/utilities/extract_dicom_form_zip.py:43-74 | There is one target per kept entry. |
| Archive.FlattenStep | app/utilities/extract_dicom_form_zip.py:59-68 | Each target is chosen against the targets already written. |
| Archive.AppendEntry | app/utilities/extract_dicom_form_zip.py:44-52 | A directory, hidden or `__MACOSX` entry adds no target. Any other entry adds one, at the end. |
| Archive.FlattenDistinct | app/utilities/extract_dicom_form_zip.py:63-74 | No two kept entries get the same target, and no target is empty. |
| Archive.FlattenComponents | app/utilities/extract_dicom_form_zip.py:49-68 | Every target is one path component. |
| Archive.SameBasenameExample | app/utilities/extract_dicom_form_zip.py:59-68 | `a/x.dcm` and `b/x.dcm` become `x.dcm` and `x_1.dcm`. |
| Archive.FirstFailureNone | app/utilities/extract_dicom_form_zip.py:55-91 | Extraction fails if and only if some kept entry fails. |
| Archive.ExtractDicomFromZip | app/utilities/extract_dicom_form_zip.py:14-91 | An error returns only the error, with no partial state. Success returns the directory and one path per kept entry. |
| Archive.ExtractedPaths | app/utilities/extract_dicom_form_zip.py:60-74 | The returned paths are `<dir>/<target>`, distinct, and in archive order. |
| Text.DecimalInjective | app/utilities/extract_dicom_form_zip.py:66 | `str(k)` is injective on counters. |
| Text.DecimalRoundTrip | app/utilities/extract_dicom_form_zip.py:66 | Reading back `str(k)` gives k. |
| PosixPath.Join | app/utilities/process_dicom.py:422-433 | An absolute second part replaces the first. Otherwise the result starts with the first part and ends with the second. |
| PosixPath.Basename | app/utilities/extract_dicom_form_zip.py:49 | The basename is the `/`-free tail after the last `/`. |
| PosixPath.SplitExt | app/utilities/extract_dicom_form_zip.py:65 | stem + ext is the name. When the last dot has a non-dot character before it, the stem is everything before that dot and the extension the rest; otherwise the extension is empty. |

## Left out

- Reading, writing and extraction. `pydicom.dcmread`, `save_as`, `dcmwrite`, `zipfile` and `os.walk` become inputs. A failed training re-read or copy write is not modelled; those steps always succeed in the model.
- Django ORM, `transaction.atomic`, Celery tasks, views, URLs and admin. The stores are values, and the atomic block is an all-or-nothing `Result`. The progress percentages in the task modules use floating point and are not modelled.
- Prescription-template rule matching. No source shows rule evaluation; the model only resets the template to None.
- Float geometry (PixelSpacing, SliceLocation, ContourData coordinates). These are kept as opaque values.
- `TrainingDataSetArchive` bookkeeping: the `archive_extracted` flag, its timestamp, and the lookup of the archive row.
- `cleanup_temp_directory` and `extract_dicom_from_dicomfile_instance`. The existence check on the archive file is file-system I/O.
- PathSafety.IsWordChar: `\w` is read as ASCII `[A-Za-z0-9_]`. Python's Unicode-aware `\w` also keeps letters and digits of other scripts.
- Tags.ParseDicomDate: `strptime` also accepts some shorter digit strings (for example one-digit months). The model parses exactly eight digits and gives None otherwise.
- Tags.ParseDateText: the training path's `strptime` has the same leniency ("202411" and "2024011" both give 2024-01-01). The model gives None for anything but exactly eight digits.
- Tags.Render: `str()` of a multi-valued or sequence value renders as the empty string. Python's list text is not modelled.
- Ingest.ProcessSingleFile: the text of a read or save exception is an input string, not `str(e)` of a modelled exception.
- Linkage.SeriesDir: any value is rendered into a path. The `TypeError` that `os.path.join` raises for a non-text UID is modelled once, by Linkage.OrganizeFilesByStructure, which runs Linkage.ImageLayout and Linkage.LayoutStructs only when no such UID occurs.
- TrainingStore.RunStages: the layout `TypeError` propagates out of `process_training_data_archive` in Python. The model returns it as `Err` with the fixed `TypeError` text and the store unchanged.
- TrainingStore.SavePairs: the `Err` stands for a raised `IntegrityError`, which propagates out of `process_training_data_archive` rather than being returned as `(False, message)`. It carries one fixed text. The real text depends on the database backend and names the column, for example `trainer_trainingrtplananddosefile.rtdose_series_instance_uid`.
- Linkage.LayoutStructs: "the referenced series directory exists" is modelled as "the series is a key of this run's image buckets". A directory left on disk by an earlier run is not modelled.
- TrainingStore.ProcessInterleavingIrrelevant: independence is proved for interleavings of the four kinds. Reordering files within one kind is not covered, because that changes which record wins a shared UID.
- The default bases (`settings.BASE_DIR`, `MEDIA_ROOT/training_data_organized`, `/tmp/training_data`) become parameters of the model.
- Values that Python cannot hash, used as dictionary keys, are treated like any other value.
- Tags.SeqItems: a text or multi-valued element read as a sequence gives no items, where Python iterates its characters or elements. In the clinical path this drops the `roi_contour_map[None] = []` entries such items would add and counts `number_of_roi` as zero rather than the value's length. pydicom decodes the SQ keywords the code iterates (ROIContourSequence, ContourSequence, StructureSetROISequence) only as sequences, so such values do not arise from a read file. A number or `None` in those places is modelled: it raises.
- Tags.ListOf: every `TypeError` the model raises (from `list()`, `len()`, a loop or `[0]`) carries one fixed text, "unsupported operation for this value type", not Python's message naming the type. A nested sequence value is treated as not listable. A later JSON-serialisation failure of the stored lists is not modelled.

=== FILE: archive.dfy ===
/** `extract_dicom_from_zip`: the archive's entries are filtered, each kept
    entry is flattened to its basename, and a basename already written gets
    the first free numeric suffix, so no kept entry overwrites another. The
    temporary directory starts empty; the names written so far are the
    only files in it. */
module Archive {
  import opened Wrappers
  import opened Text
  import opened PosixPath

  /** An archive member: its name inside the archive, and the error reading
      or writing its content raises, if any. */
  datatype Entry = Entry(name: string, failure: Option<string>)

  /** `ZipInfo.is_dir()`: the member name ends in `/`. */
  predicate IsDirEntry(e: Entry) {
    EndsWith(e.name, "/")
  }

  /** Hidden files (basename starting with `.`) and anything under a
      `__MACOSX` folder. */
  predicate IsSystemEntry(e: Entry) {
    StartsWith(Basename(e.name), ".") || Contains(e.name, "__MACOSX")
  }

  /** The entries that are extracted. */
  predicate Kept(e: Entry) {
    !IsDirEntry(e) && !IsSystemEntry(e)
  }

  // ------------------------------------------------------------ collision names

  /** `os.path.exists(os.path.join(temp_dir, name))` in a directory holding
      exactly `used`: the empty name denotes the directory itself. */
  predicate Taken(name: string, used: set<string>) {
    name == "" || name in used
  }

  /** `f"{stem}_{k}{ext}"` with `stem, ext = os.path.splitext(name)`. */
  function Candidate(name: string, k: nat): (r: string)
    ensures r != ""
  {
    SplitExt(name).0 + "_" + Decimal(k) + SplitExt(name).1
  }

  /** Different counters give different candidates. */
  lemma CandidateInjective(name: string, a: nat, b: nat)
    requires Candidate(name, a) == Candidate(name, b)
    ensures a == b
  {
    var stem, ext := SplitExt(name).0, SplitExt(name).1;
    var ca, cb := Candidate(name, a), Candidate(name, b);
    assert |Decimal(a)| == |Decimal(b)|;
    assert Decimal(a) == ca[|stem| + 1..|ca| - |ext|];
    assert Decimal(b) == cb[|stem| + 1..|cb| - |ext|];
    DecimalInjective(a, b);
  }

  /** The first `k` candidates. */
  function CandidatesUpTo(name: string, k: nat): set<string> {
    if k == 0 then {} else CandidatesUpTo(name, k - 1) + {Candidate(name, k)}
  }

  lemma {:induction false} CandidatesUpToMembers(name: string, k: nat, j: nat)
    ensures 1 <= j <= k ==> Candidate(name, j) in CandidatesUpTo(name, k)
    ensures forall c :: c in CandidatesUpTo(name, k) ==> exists i :: 1 <= i <= k && c == Candidate(name, i)
  {
    if k > 0 {
      CandidatesUpToMembers(name, k - 1, j);
    }
  }

  /** The first `k` candidates are `k` different names. */
  lemma {:induction false} CandidatesUpToSize(name: string, k: nat)
    ensures |CandidatesUpTo(name, k)| == k
  {
    if k > 0 {
      CandidatesUpToSize(name, k - 1);
      CandidatesUpToMembers(name, k - 1, k);
      if Candidate(name, k) in CandidatesUpTo(name, k - 1) {
        var i :| 1 <= i <= k - 1 && Candidate(name, k) == Candidate(name, i);
        CandidateInjective(name, k, i);
      }
    }
  }

  /** Pigeonhole: when candidates 1 .. k are all used, `used` has at least
      `k` names. */
  lemma CandidatesBound(name: string, used: set<string>, k: nat)
    requires forall j :: 1 <= j <= k ==> Candidate(name, j) in used
    ensures k <= |used|
  {
    forall c | c in CandidatesUpTo(name, k) ensures c in used {
      CandidatesUpToMembers(name, k, 0);
    }
    CandidatesUpToSize(name, k);
    assert CandidatesUpTo(name, k) <= used;
    SubsetSize(CandidatesUpTo(name, k), used);
  }

  lemma SubsetSize(a: set<string>, b: set<string>)
    requires a <= b
    ensures |a| <= |b|
  {
    assert b == a + (b - a);
  }

  /** The counter loop: the first counter from `k` on whose candidate is
      free, given that candidates 1 .. k-1 are taken. It ends because at
      most `|used|` candidates can be taken. */
  function FreeIndex(name: string, used: set<string>, k: nat): (r: nat)
    requires 1 <= k
    requires forall j :: 1 <= j < k ==> Candidate(name, j) in used
    ensures k <= r && Candidate(name, r) !in used
    ensures forall j :: 1 <= j < r ==> Candidate(name, j) in used
    decreases |used| + 1 - k
  {
    if Candidate(name, k) !in used then k
    else
      CandidatesBound(name, used, k);
      FreeIndex(name, used, k + 1)
  }

  /** The name an entry with basename `name` is written under. */
  function FreeName(name: string, used: set<string>): (r: string)
    ensures !Taken(r, used)
    ensures !Taken(name, used) ==> r == name
    ensures Taken(name, used) ==>
      exists k: nat :: (1 <= k && r == Candidate(name, k) && forall j :: 1 <= j < k ==> Candidate(name, j) in used)
  {
    if !Taken(name, used) then name else Candidate(name, FreeIndex(name, used, 1))
  }

  /** A flattened name is one path component: neither the basename nor any
      candidate built from it contains a `/`. */
  lemma FreeNameIsComponent(name: string, used: set<string>)
    requires Excludes(name, '/')
    ensures Excludes(FreeName(name, used), '/')
  {
    if Taken(name, used) {
      var k := FreeIndex(name, used, 1);
      var stem, ext := SplitExt(name).0, SplitExt(name).1;
      var c := Candidate(name, k);
      assert c == stem + "_" + Decimal(k) + ext;
      forall i | 0 <= i < |c| ensures c[i] != '/' {
        if i < |stem| {
          assert c[i] == name[i];
        } else if i == |stem| {
        } else if i < |stem| + 1 + |Decimal(k)| {
          assert c[i] == Decimal(k)[i - |stem| - 1];
        } else {
          assert c[i] == name[i - 1 - |Decimal(k)|];
        }
      }
    }
  }

  // ------------------------------------------------------------ flattening

  /** The basenames of the kept entries, in archive order. */
  function KeptNames(es: seq<Entry>): (r: seq<string>)
    ensures |r| <= |es|
  {
    if es == [] then []
    else
      var e := es[|es| - 1];
      KeptNames(es[..|es| - 1]) + (if Kept(e) then [Basename(e.name)] else [])
  }

  function Names(s: seq<string>): set<string> {
    set x | x in s
  }

  /** The target name of every kept entry, in archive order. */
  function Flatten(es: seq<Entry>): (r: seq<string>)
    ensures |r| == |KeptNames(es)|
  {
    if es == [] then []
    else
      var e := es[|es| - 1];
      var prev := Flatten(es[..|es| - 1]);
      prev + (if Kept(e) then [FreeName(Basename(e.name), Names(prev))] else [])
  }

  /** Each target is the basename, or its first free suffixed form, against
      the targets written before it. */
  lemma {:induction false} FlattenStep(es: seq<Entry>, i: nat)
    requires i < |Flatten(es)|
    ensures Flatten(es)[i] == FreeName(KeptNames(es)[i], Names(Flatten(es)[..i]))
  {
    var init := es[..|es| - 1];
    var e := es[|es| - 1];
    if i < |Flatten(init)| {
      FlattenStep(init, i);
      assert Flatten(es)[..i] == Flatten(init)[..i];
    } else {
      assert Flatten(es)[..i] == Flatten(init);
    }
  }

  /** A directory, hidden or `__MACOSX` entry adds no target; any other
      entry adds exactly one, at the end. */
  lemma AppendEntry(es: seq<Entry>, e: Entry)
    ensures !Kept(e) ==> Flatten(es + [e]) == Flatten(es)
    ensures Kept(e) ==> Flatten(es + [e]) == Flatten(es) + [FreeName(Basename(e.name), Names(Flatten(es)))]
  {
    assert (es + [e])[..|es|] == es;
  }

  /** Two members with the same basename in different folders: the second
      gets the suffix `_1` before its extension. */
  lemma SameBasenameExample()
    ensures Flatten([Entry("a/x.dcm", None), Entry("b/x.dcm", None)]) == ["x.dcm", "x_1.dcm"]
  {
    ExampleKept();
    TwoEntries(Entry("a/x.dcm", None), Entry("b/x.dcm", None));
    assert FreeName("x.dcm", {}) == "x.dcm";
    ExampleSecond();
  }

  /** Two kept entries: the first is written against an empty directory,
      the second against the first. */
  lemma TwoEntries(e1: Entry, e2: Entry)
    requires Kept(e1) && Kept(e2)
    ensures var n1 := FreeName(Basename(e1.name), {});
      Flatten([e1, e2]) == [n1, FreeName(Basename(e2.name), {n1})]
  {
    var n1 := FreeName(Basename(e1.name), {});
    var n2 := FreeName(Basename(e2.name), {n1});
    OneEntry(e1);
    NamesSingleton(n1);
    AppendEntry([e1], e2);
    PairDisplay(e1, e2);
    PairDisplay(n1, n2);
  }

  lemma PairDisplay<T>(a: T, b: T)
    ensures [a] + [b] == [a, b]
  {
  }

  lemma NamesSingleton(n: string)
    ensures Names([]) == {} && Names([n]) == {n}
  {
  }

  lemma OneEntry(e1: Entry)
    requires Kept(e1)
    ensures Flatten([e1]) == [FreeName(Basename(e1.name), {})]
  {
    var none: seq<Entry> := [];
    AppendEntry(none, e1);
    assert none + [e1] == [e1];
    NamesSingleton(Basename(e1.name));
  }


  lemma ExampleSecond()
    ensures FreeName("x.dcm", {"x.dcm"}) == "x_1.dcm"
  {
    ExampleCandidate();
    assert FreeIndex("x.dcm", {"x.dcm"}, 1) == 1;
  }

  lemma ExampleKept()
    ensures Kept(Entry("a/x.dcm", None)) && Basename("a/x.dcm") == "x.dcm"
    ensures Kept(Entry("b/x.dcm", None)) && Basename("b/x.dcm") == "x.dcm"
  {
    BasenameAfterSlash("a/", "x.dcm");
    BasenameAfterSlash("b/", "x.dcm");
    assert "a/" + "x.dcm" == "a/x.dcm" && "b/" + "x.dcm" == "b/x.dcm";
    NoMacFolder("a/x.dcm");
    NoMacFolder("b/x.dcm");
    assert "x.dcm"[..1][0] == 'x';
    assert "a/x.dcm"[6..] != "/" && "b/x.dcm"[6..] != "/";
  }

  lemma ExampleCandidate()
    ensures Candidate("x.dcm", 1) == "x_1.dcm"
  {
    assert SplitExt("x.dcm") == ("x", ".dcm") by {
      assert LastDot("x.dcm") == 1 by {
        assert "x.dcm"[..4] == "x.dc" && "x.dc"[..3] == "x.d" && "x.d"[..2] == "x.";
      }
      assert HasNonDotBefore("x.dcm", 1) by { assert "x.dcm"[0] != '.'; }
      assert "x.dcm"[..1] == "x" && "x.dcm"[1..] == ".dcm";
    }
    assert Decimal(1) == "1";
  }

  /** The basename of a member in a folder is the part after the folder. */
  lemma {:induction false} BasenameAfterSlash(dir: string, file: string)
    requires dir != "" && dir[|dir| - 1] == '/'
    requires Excludes(file, '/')
    ensures Basename(dir + file) == file
    ensures TailStart(dir + file) == |dir|
  {
    if file == [] {
      assert dir + file == dir;
    } else {
      var init := file[..|file| - 1];
      BasenameAfterSlash(dir, init);
      assert (dir + file)[..|dir + file| - 1] == dir + init;
    }
  }

  /** A name shorter than `__MACOSX` cannot contain it. */
  lemma {:induction false} NoMacFolder(s: string)
    requires |s| < 8
    ensures !Contains(s, "__MACOSX")
  {
    if s != [] {
      NoMacFolder(s[1..]);
    }
  }

  /** No two kept entries get the same target, and none gets the empty name
      (which would be the directory itself). */
  lemma {:induction false} FlattenDistinct(es: seq<Entry>)
    ensures forall i, j :: 0 <= i < j < |Flatten(es)| ==> Flatten(es)[i] != Flatten(es)[j]
    ensures forall i :: 0 <= i < |Flatten(es)| ==> Flatten(es)[i] != ""
  {
    if es != [] {
      var init := es[..|es| - 1];
      FlattenDistinct(init);
      var prev := Flatten(init);
      var r := Flatten(es);
      forall i, j | 0 <= i < j < |r| ensures r[i] != r[j] {
        if j >= |prev| {
          assert r[i] == prev[i];
          assert prev[i] in Names(prev);
        } else {
          assert r[i] == prev[i] && r[j] == prev[j];
        }
      }
      forall i | 0 <= i < |r| ensures r[i] != "" {
        if i < |prev| {
          assert r[i] == prev[i];
        }
      }
    }
  }

  /** Every target is a single path component. */
  lemma {:induction false} FlattenComponents(es: seq<Entry>, i: nat)
    requires i < |Flatten(es)|
    ensures Excludes(Flatten(es)[i], '/')
  {
    FlattenStep(es, i);
    KeptNamesComponents(es, i);
    FreeNameIsComponent(KeptNames(es)[i], Names(Flatten(es)[..i]));
  }

  lemma {:induction false} KeptNamesComponents(es: seq<Entry>, i: nat)
    requires i < |KeptNames(es)|
    ensures Excludes(KeptNames(es)[i], '/')
  {
    var init := es[..|es| - 1];
    var e := es[|es| - 1];
    assert KeptNames(es) == KeptNames(init) + (if Kept(e) then [Basename(e.name)] else []);
    if i < |KeptNames(init)| {
      assert KeptNames(es)[i] == KeptNames(init)[i];
      KeptNamesComponents(init, i);
    } else {
      assert KeptNames(es)[i] == Basename(e.name);
    }
  }

  // ------------------------------------------------------------ extraction

  /** A kept entry whose extraction raises. */
  predicate Fails(e: Entry) {
    Kept(e) && e.failure.Some?
  }

  /** What extracting each entry raises: a kept entry's failure, and
      nothing for a skipped one. */
  function Failures(es: seq<Entry>): (r: seq<Option<string>>)
    ensures |r| == |es|
    ensures forall i :: 0 <= i < |es| ==> (r[i].Some? <==> Fails(es[i]))
    ensures forall i :: 0 <= i < |es| && r[i].Some? ==> r[i] == es[i].failure
  {
    seq(|es|, i requires 0 <= i < |es| => if Kept(es[i]) then es[i].failure else None)
  }

  /** The first raised error of a run of steps. */
  function FirstSome(xs: seq<Option<string>>): (r: Option<string>)
    ensures r.Some? ==> exists i :: 0 <= i < |xs| && xs[i] == r
  {
    if xs == [] then None
    else if xs[0].Some? then xs[0]
    else FirstSome(xs[1..])
  }

  /** The failure of the first failing entry, in archive order. */
  function FirstFailure(es: seq<Entry>): (r: Option<string>)
    ensures r.Some? ==> exists i :: 0 <= i < |es| && Fails(es[i]) && r == es[i].failure
  {
    FirstSome(Failures(es))
  }

  /** Extraction succeeds exactly when no kept entry fails. */
  lemma FirstFailureNone(es: seq<Entry>)
    ensures FirstFailure(es).None? <==> forall i :: 0 <= i < |es| ==> !Fails(es[i])
  {
    if FirstFailure(es).None? {
      var xs := Failures(es);
      forall i | 0 <= i < |es| ensures !Fails(es[i]) {
        NoneBefore(xs, i);
      }
    }
  }

  /** When no step raised, no step raised anything. */
  lemma {:induction false} NoneBefore(xs: seq<Option<string>>, i: nat)
    requires FirstSome(xs).None? && i < |xs|
    ensures xs[i].None?
  {
    if i > 0 {
      assert xs[1..][i - 1] == xs[i];
      NoneBefore(xs[1..], i - 1);
    }
  }

  /** `extract_dicom_from_zip(zip)` into the fresh directory `dir`: the error
      when the archive cannot be opened or a kept entry fails (the directory
      is removed, so nothing is returned), else the directory and one path
      per kept entry. */
  function ExtractDicomFromZip(dir: string, archive: Result<seq<Entry>>): (r: Result<(string, seq<string>)>)
    ensures archive.Err? ==> r == Err(archive.msg)
    ensures archive.Ok? && FirstFailure(archive.value).Some? ==> r == Err(FirstFailure(archive.value).value)
    ensures r.Ok? ==> archive.Ok? && FirstFailure(archive.value).None?
    ensures r.Ok? ==> r.value.0 == dir && |r.value.1| == |KeptNames(archive.value)|
  {
    match archive
    case Err(e) => Err(e)
    case Ok(es) =>
      match FirstFailure(es)
      case Some(e) => Err(e)
      case None =>
        var names := Flatten(es);
        Ok((dir, seq(|names|, i requires 0 <= i < |names| => Join(dir, names[i]))))
  }

  /** The paths returned are distinct files directly inside the directory,
      one per kept entry, in archive order. */
  lemma ExtractedPaths(dir: string, es: seq<Entry>)
    requires dir != "" && dir[|dir| - 1] != '/'
    requires FirstFailure(es).None?
    ensures var r := ExtractDicomFromZip(dir, Ok(es));
      && r.Ok?
      && (forall i :: 0 <= i < |r.value.1| ==> r.value.1[i] == dir + "/" + Flatten(es)[i])
      && (forall i, j :: 0 <= i < j < |r.value.1| ==> r.value.1[i] != r.value.1[j])
  {
    var names := Flatten(es);
    var paths := ExtractDicomFromZip(dir, Ok(es)).value.1;
    FlattenDistinct(es);
    forall i | 0 <= i < |paths| ensures paths[i] == dir + "/" + names[i] {
      FlattenComponents(es, i);
      JoinAppends(dir, names[i]);
    }
  }
}

=== FILE: dicts.dfy ===
/** Python dictionaries filled by a loop of assignments `d[key] = value`,
    some iterations of which skip the assignment. */
module Dicts {
  import opened Wrappers

  /** `d[k] = v` for each write present in `ws`, in order, starting from
      `m`. */
  function Apply<K(!new), V(==)>(m: map<K, V>, ws: seq<Option<(K, V)>>): (r: map<K, V>)
    ensures forall k :: k in r <==> k in m || exists i :: 0 <= i < |ws| && ws[i].Some? && ws[i].value.0 == k
    ensures forall k :: k in r ==> (k in m && r[k] == m[k]) || exists i :: 0 <= i < |ws| && ws[i] == Some((k, r[k]))
  {
    if ws == [] then m
    else
      var init := ws[..|ws| - 1];
      assert forall i :: 0 <= i < |init| ==> init[i] == ws[i];
      match ws[|ws| - 1]
      case Some(w) => Apply(m, init)[w.0 := w.1]
      case None => Apply(m, init)
  }

  /** A key holds the value of the LAST write to it. */
  lemma {:induction false} ApplyLastWins<K(!new), V>(m: map<K, V>, ws: seq<Option<(K, V)>>, i: nat)
    requires i < |ws| && ws[i].Some?
    requires forall j :: i < j < |ws| && ws[j].Some? ==> ws[j].value.0 != ws[i].value.0
    ensures ws[i].value.0 in Apply(m, ws)
    ensures Apply(m, ws)[ws[i].value.0] == ws[i].value.1
  {
    if i < |ws| - 1 {
      var init := ws[..|ws| - 1];
      assert init[i] == ws[i];
      forall j | i < j < |init| && init[j].Some? ensures init[j].value.0 != init[i].value.0 {
        assert init[j] == ws[j];
      }
      ApplyLastWins(m, init, i);
    }
  }

  /** A key no write touches keeps its value. */
  lemma {:induction false} ApplyUntouched<K(!new), V>(m: map<K, V>, ws: seq<Option<(K, V)>>, k: K)
    requires k in m
    requires forall j :: 0 <= j < |ws| && ws[j].Some? ==> ws[j].value.0 != k
    ensures Apply(m, ws)[k] == m[k]
  {
    if ws != [] {
      var init := ws[..|ws| - 1];
      forall j | 0 <= j < |init| && init[j].Some? ensures init[j].value.0 != k {
        assert init[j] == ws[j];
      }
      ApplyUntouched(m, init, k);
    }
  }
}

=== FILE: ingest.dfy ===
/** The clinical ingestion driver: one file through read, modality check,
    the atomic reconcile block and the save of the processed copy; then a
    batch of files in order with its tally. Reading a file and writing the
    processed copy are outside the model: their outcomes are inputs. */
module Ingest {
  import opened Wrappers
  import opened Text
  import opened PosixPath
  import opened Tags
  import opened PathSafety
  import opened Reconcile

  // ------------------------------------------------------------ location

  /** The processed-copy directory under the project base directory. */
  function ProcessedRoot(base: string): string {
    Join(base, "processed_dicom_files")
  }

  /** A path component as the saver names it: a safe name, or its default. */
  predicate IsComponentOr(c: string, default: string) {
    c == default || IsSafeComponent(c)
  }

  /** The directory of one level of the hierarchy: the record's `tag`,
      sanitised, with `default` both when the tag is missing or empty and
      when nothing safe is left of it. */
  function LevelDir(ds: Dataset, tag: string, default: string): (c: string)
    ensures IsComponentOr(c, default)
  {
    SanitizePathComponent(Get(ds, tag, Str(default)), default)
  }

  function PatientDir(ds: Dataset): string {
    LevelDir(ds, "PatientID", "unknown_patient")
  }

  function StudyDir(ds: Dataset): string {
    LevelDir(ds, "StudyInstanceUID", "unknown_study")
  }

  function SeriesDir(ds: Dataset): string {
    LevelDir(ds, "SeriesInstanceUID", "unknown_series")
  }

  /** The stem of the file name: the stored instance UID, sanitised. */
  function InstanceStem(sop: Value): (c: string)
    ensures IsComponentOr(c, "unknown_instance")
  {
    SanitizePathComponent(sop, "unknown_instance")
  }

  /** The file name `<stem>.dcm`. */
  function InstanceFile(sop: Value): string {
    InstanceStem(sop) + ".dcm"
  }

  /** `save_processed_dicom_file`'s output path for a record whose stored
      SOP instance UID is `sop`. */
  function ProcessedPath(base: string, ds: Dataset, sop: Value): string {
    Join(Join(Join(Join(ProcessedRoot(base), PatientDir(ds)), StudyDir(ds)), SeriesDir(ds)), InstanceFile(sop))
  }

  /** A non-empty name that neither begins nor ends with a separator. */
  predicate Relative(c: string) {
    c != "" && c[0] != '/' && c[|c| - 1] != '/'
  }

  /** Neither a safe component nor one of the defaults begins or ends with
      a separator. */
  lemma ComponentIsRelative(c: string, default: string)
    requires IsComponentOr(c, default)
    requires default != "" && default[0] != '/' && default[|default| - 1] != '/'
    ensures Relative(c)
  {
    if c != default {
      assert IsKeptChar(c[|c| - 1]);
    }
  }

  /** One more level below a directory that does not end in `/`. */
  lemma JoinComponent(a: string, c: string)
    requires a != "" && a[|a| - 1] != '/'
    requires Relative(c)
    ensures Join(a, c) == a + "/" + c
    ensures var r := a + "/" + c; r[|r| - 1] != '/'
  {
    JoinAppends(a, c);
    var r := a + "/" + c;
    assert r[|r| - 1] == c[|c| - 1];
  }

  /** The processed copy lands four levels below the processed root, one
      sanitised component per level, so no tag value can move it elsewhere. */
  lemma ProcessedPathShape(base: string, ds: Dataset, sop: Value)
    ensures ProcessedPath(base, ds, sop)
      == ProcessedRoot(base) + "/" + PatientDir(ds) + "/" + StudyDir(ds) + "/" + SeriesDir(ds) + "/" + InstanceFile(sop)
    ensures IsComponentOr(PatientDir(ds), "unknown_patient")
    ensures IsComponentOr(StudyDir(ds), "unknown_study")
    ensures IsComponentOr(SeriesDir(ds), "unknown_series")
    ensures IsComponentOr(InstanceStem(sop), "unknown_instance")
  {
    LevelsShape(ProcessedRoot(base), PatientDir(ds), StudyDir(ds), SeriesDir(ds), InstanceStem(sop));
  }

  /** The same shape for any four components the saver can produce. */
  lemma LevelsShape(root: string, p: string, st: string, se: string, n: string)
    requires EndsWith(root, "processed_dicom_files")
    requires IsComponentOr(p, "unknown_patient") && IsComponentOr(st, "unknown_study")
    requires IsComponentOr(se, "unknown_series") && IsComponentOr(n, "unknown_instance")
    ensures Join(Join(Join(Join(root, p), st), se), n + ".dcm")
      == root + "/" + p + "/" + st + "/" + se + "/" + (n + ".dcm")
  {
    assert root != "" && root[|root| - 1] == 's';
    ComponentIsRelative(p, "unknown_patient");
    ComponentIsRelative(st, "unknown_study");
    ComponentIsRelative(se, "unknown_series");
    ComponentIsRelative(n, "unknown_instance");
    assert Relative(n + ".dcm") by {
      assert (n + ".dcm")[0] == n[0];
    }
    FourLevels(root, p, st, se, n + ".dcm");
  }

  /** Four relative components joined below a directory. */
  lemma FourLevels(root: string, p: string, s: string, se: string, f: string)
    requires root != "" && root[|root| - 1] != '/'
    requires Relative(p) && Relative(s) && Relative(se) && Relative(f)
    ensures Join(Join(Join(Join(root, p), s), se), f) == root + "/" + p + "/" + s + "/" + se + "/" + f
  {
    JoinComponent(root, p);
    JoinComponent(root + "/" + p, s);
    JoinComponent(root + "/" + p + "/" + s, se);
    JoinComponent(root + "/" + p + "/" + s + "/" + se, f);
  }

  // ------------------------------------------------------------ one file

  /** The outside world one file meets: the path, what reading it gave (the
      record, or the reader's exception text), and whether writing the
      processed copy raised. */
  datatype FileInput = FileInput(path: string, read: Result<Dataset>, saveError: Option<string>)

  /** The per-file result dictionary. `Null` stands for `None`. */
  datatype FileResult = FileResult(path: string, success: bool, error: Option<string>, sop: Value, modality: Value)

  /** The database and the processed copies written so far (path to record). */
  datatype World = World(db: Store, files: map<string, Dataset>)

  const ModalityMissing := "Modality tag not present"

  /** `process_single_dicom_file`. */
  function ProcessSingleFile(base: string, f: FileInput, w: World): (out: (FileResult, World))
    ensures out.0.path == f.path
    ensures out.0.success <==>
      && f.read.Ok?
      && Truthy(Get(f.read.value, "Modality", Null))
      && ReconcileFile(f.read.value, w.db).Ok?
      && f.saveError.None?
    ensures out.0.success <==> out.0.error.None?
    ensures f.read.Err? ==> out == (FileResult(f.path, false, Some(f.read.msg), Null, Null), w)
    ensures f.read.Ok? && !Truthy(Get(f.read.value, "Modality", Null)) ==>
      out == (FileResult(f.path, false, Some(ModalityMissing), Null, Null), w)
    ensures f.read.Ok? && Truthy(Get(f.read.value, "Modality", Null)) ==>
      out.0.modality == Get(f.read.value, "Modality", Null)
    ensures f.read.Ok? && Truthy(Get(f.read.value, "Modality", Null)) && RequiredKeys(f.read.value).Err? ==>
      out.0.error == Some(RequiredKeys(f.read.value).msg) && out.0.sop == Null && out.1 == w
    ensures f.read.Ok? && Truthy(Get(f.read.value, "Modality", Null)) && RequiredKeys(f.read.value).Ok? ==>
      out.0.sop == RequiredKeys(f.read.value).value.sop
    ensures (f.read.Ok? && Truthy(Get(f.read.value, "Modality", Null)) && RequiredKeys(f.read.value).Ok? &&
      PayloadFails(f.read.value)) ==>
      out.0.error == Some(WrongType) && out.1 == w
    ensures f.read.Ok? && Truthy(Get(f.read.value, "Modality", Null)) && ReconcileFile(f.read.value, w.db).Ok? ==>
      && out.1.db == ReconcileFile(f.read.value, w.db).value
      && (f.saveError.Some? ==> out.0.error == f.saveError && out.1.files == w.files)
    ensures out.0.success ==>
      out.1.files == w.files[ProcessedPath(base, f.read.value, out.0.sop) := f.read.value]
    ensures out.1.db == w.db || (f.read.Ok? && ReconcileFile(f.read.value, w.db) == Ok(out.1.db))
    ensures out.1.db != w.db ==> out.0.sop != Null
    ensures out.1.files != w.files ==> out.0.success
  {
    var fail := FileResult(f.path, false, None, Null, Null);
    match f.read
    case Err(e) => (fail.(error := Some(e)), w)
    case Ok(ds) =>
      var modality := Get(ds, "Modality", Null);
      if !Truthy(modality) then (fail.(error := Some(ModalityMissing)), w)
      else
        var attempted := fail.(modality := modality);
        match RequiredKeys(ds)
        case Err(e) => (attempted.(error := Some(e)), w)
        case Ok(k) =>
          var begun := attempted.(sop := k.sop);
          match ReconcileFile(ds, w.db)
          case Err(e) => (begun.(error := Some(e)), w)
          case Ok(db) =>
            match f.saveError
            case Some(e) => (begun.(error := Some(e)), w.(db := db))
            case None =>
              (begun.(success := true), World(db, w.files[ProcessedPath(base, ds, k.sop) := ds]))
  }

  /** Every processed copy sits at the path its own record dictates. */
  ghost predicate ContentAddressed(base: string, files: map<string, Dataset>) {
    forall p :: p in files ==> IsAddressed(base, p, files[p])
  }

  /** `p` is where the record `ds` is saved. */
  ghost predicate IsAddressed(base: string, p: string, ds: Dataset) {
    RequiredKeys(ds).Ok? && p == ProcessedPath(base, ds, RequiredKeys(ds).value.sop)
  }

  /** One file keeps the database linked and the processed copies where
      their records say they belong. */
  lemma SingleFileKeepsInvariants(base: string, f: FileInput, w: World)
    requires Linked(w.db) && ContentAddressed(base, w.files)
    ensures Linked(ProcessSingleFile(base, f, w).1.db)
    ensures ContentAddressed(base, ProcessSingleFile(base, f, w).1.files)
  {
    var out := ProcessSingleFile(base, f, w);
    if out.1.db != w.db {
      ReconcileKeepsLinks(f.read.value, w.db);
    }
    if out.1.files != w.files {
      var ds := f.read.value;
      SavedCopyIsAddressed(base, w.files, ds, RequiredKeys(ds).value.sop);
    }
  }

  /** Saving a record at its own path keeps every copy content-addressed. */
  lemma SavedCopyIsAddressed(base: string, files: map<string, Dataset>, ds: Dataset, sop: Value)
    requires ContentAddressed(base, files)
    requires RequiredKeys(ds).Ok? && sop == RequiredKeys(ds).value.sop
    ensures ContentAddressed(base, files[ProcessedPath(base, ds, sop) := ds])
  {
    var path := ProcessedPath(base, ds, sop);
    var after := files[path := ds];
    forall p | p in after
      ensures IsAddressed(base, p, after[p])
    {
      if p != path {
        assert after[p] == files[p];
        assert IsAddressed(base, p, files[p]);
      }
    }
  }

  // ------------------------------------------------------------ the batch

  /** `process_dicom_files` accepts one path or a list of paths. */
  datatype FilePaths = OnePath(file: FileInput) | PathList(files: seq<FileInput>)

  function AsList(paths: FilePaths): (fs: seq<FileInput>)
    ensures paths.OnePath? ==> fs == [paths.file]
    ensures paths.PathList? ==> fs == paths.files
  {
    match paths
    case OnePath(f) => [f]
    case PathList(fs) => fs
  }

  /** How the batch tallies one file result. */
  datatype Outcome = Succeeded | Skipped | Failed

  function OutcomeOf(r: FileResult): (o: Outcome)
    ensures o == Succeeded <==> r.success
    ensures o == Skipped <==> !r.success && r.error == Some(ModalityMissing)
  {
    if r.success then Succeeded
    else if r.error == Some(ModalityMissing) then Skipped
    else Failed
  }

  /** Number of results tallied as `o`. */
  function CountOf(rs: seq<FileResult>, o: Outcome): (n: nat)
    ensures n <= |rs|
  {
    if rs == [] then 0
    else CountOf(rs[..|rs| - 1], o) + (if OutcomeOf(rs[|rs| - 1]) == o then 1 else 0)
  }

  /** Each result falls in exactly one of the three tallies. */
  lemma {:induction false} TalliesPartition(rs: seq<FileResult>)
    ensures CountOf(rs, Succeeded) + CountOf(rs, Skipped) + CountOf(rs, Failed) == |rs|
  {
    if rs != [] {
      TalliesPartition(rs[..|rs| - 1]);
    }
  }

  /** The files processed in order, each against the world the previous
      ones left behind. */
  function RunFiles(base: string, fs: seq<FileInput>, w: World): (out: (seq<FileResult>, World))
    ensures |out.0| == |fs|
  {
    if fs == [] then ([], w)
    else
      var before := RunFiles(base, fs[..|fs| - 1], w);
      var step := ProcessSingleFile(base, fs[|fs| - 1], before.1);
      (before.0 + [step.0], step.1)
  }

  /** Result `i` is the result of file `i`: the batch keeps input order. */
  lemma {:induction false} RunFilesInOrder(base: string, fs: seq<FileInput>, w: World, i: nat)
    requires i < |fs|
    ensures RunFiles(base, fs, w).0[i].path == fs[i].path
  {
    if i < |fs| - 1 {
      RunFilesInOrder(base, fs[..|fs| - 1], w, i);
    }
  }

  /** The batch keeps the database linked and the copies content-addressed. */
  lemma {:induction false} RunFilesKeepsInvariants(base: string, fs: seq<FileInput>, w: World)
    requires Linked(w.db) && ContentAddressed(base, w.files)
    ensures Linked(RunFiles(base, fs, w).1.db)
    ensures ContentAddressed(base, RunFiles(base, fs, w).1.files)
  {
    if fs != [] {
      RunFilesKeepsInvariants(base, fs[..|fs| - 1], w);
      SingleFileKeepsInvariants(base, fs[|fs| - 1], RunFiles(base, fs[..|fs| - 1], w).1);
    }
  }

  /** The summary dictionary of a batch. */
  datatype Summary = Summary(totalFiles: nat, successful: nat, failed: nat, skipped: nat, fileResults: seq<FileResult>)

  /** `process_dicom_files`: every file in order, one result each, and the
      tally of successes, skips and failures. */
  method ProcessDicomFiles(base: string, paths: FilePaths, w: World) returns (summary: Summary, after: World)
    ensures summary.fileResults == RunFiles(base, AsList(paths), w).0
    ensures after == RunFiles(base, AsList(paths), w).1
    ensures summary.totalFiles == |AsList(paths)| == |summary.fileResults|
    ensures summary.successful == CountOf(summary.fileResults, Succeeded)
    ensures summary.skipped == CountOf(summary.fileResults, Skipped)
    ensures summary.failed == CountOf(summary.fileResults, Failed)
    ensures summary.successful + summary.failed + summary.skipped == summary.totalFiles
  {
    var fs := AsList(paths);
    var results, successful, failed, skipped;
    results, after, successful, failed, skipped := ProcessInOrder(base, fs, w);
    TalliesPartition(results);
    summary := Summary(|fs|, successful, failed, skipped, results);
  }

  /** The loop of `process_dicom_files`: one file at a time, tallying each
      result as it comes. */
  method ProcessInOrder(base: string, fs: seq<FileInput>, w: World)
    returns (results: seq<FileResult>, after: World, successful: nat, failed: nat, skipped: nat)
    ensures results == RunFiles(base, fs, w).0
    ensures after == RunFiles(base, fs, w).1
    ensures successful == CountOf(results, Succeeded)
    ensures skipped == CountOf(results, Skipped)
    ensures failed == CountOf(results, Failed)
  {
    var run := RunFiles(base, fs, w);
    results, after := run.0, run.1;
    successful, failed, skipped := Tally(results);
  }

  /** The per-outcome counters the batch loop keeps while it walks the
      results. */
  method Tally(rs: seq<FileResult>) returns (successful: nat, failed: nat, skipped: nat)
    ensures successful == CountOf(rs, Succeeded)
    ensures skipped == CountOf(rs, Skipped)
    ensures failed == CountOf(rs, Failed)
  {
    successful, failed, skipped := 0, 0, 0;
    var i := 0;
    while i < |rs|
      invariant 0 <= i <= |rs|
      invariant successful == CountOf(rs[..i], Succeeded)
      invariant skipped == CountOf(rs[..i], Skipped)
      invariant failed == CountOf(rs[..i], Failed)
    {
      assert rs[..i + 1] == rs[..i] + [rs[i]];
      CountStep(rs[..i], rs[i], Succeeded);
      CountStep(rs[..i], rs[i], Skipped);
      CountStep(rs[..i], rs[i], Failed);
      match OutcomeOf(rs[i]) {
        case Succeeded => successful := successful + 1;
        case Skipped => skipped := skipped + 1;
        case Failed => failed := failed + 1;
      }
      i := i + 1;
    }
    assert rs[..i] == rs;
  }

  /** One more file extends the run by its result. */
  lemma RunFilesStep(base: string, fs: seq<FileInput>, w: World, i: nat)
    requires i < |fs|
    ensures var before := RunFiles(base, fs[..i], w);
      var step := ProcessSingleFile(base, fs[i], before.1);
      RunFiles(base, fs[..i + 1], w) == (before.0 + [step.0], step.1)
  {
    assert fs[..i + 1][..i] == fs[..i];
  }

  /** One more result moves exactly its own tally. */
  lemma CountStep(rs: seq<FileResult>, r: FileResult, o: Outcome)
    ensures CountOf(rs + [r], o) == CountOf(rs, o) + (if OutcomeOf(r) == o then 1 else 0)
  {
    assert (rs + [r])[..|rs|] == rs;
  }
}

=== FILE: linkage.dfy ===
/** The last phases of training-archive preparation: the organised copy
    layout (image series, then structure sets under their series, then
    plan/dose pairs under their structure set), the three save stages
    (images, structure sets with ROIs, plan/dose pairs) and the pipeline
    that runs them in that order. Copies are not written; only the paths
    they would get are computed. A re-read of a file to learn its SOP
    instance UID sees the `sop` recorded with the file's metadata. */
module Linkage {
  import opened Wrappers
  import opened Text
  import opened PosixPath
  import opened Tags
  import opened TrainingMeta
  import opened Dicts

  // ------------------------------------------------------------ layout: images

  /** `<base>/archive_<id>`. */
  function OrganizedRoot(base: string, archiveId: int): string {
    Join(base, "archive_" + IntText(archiveId))
  }

  /** The directory of one series (or of the series a structure set names). */
  function SeriesDir(root: string, series: Value): string {
    Join(root, Render(series))
  }

  /** The organised copy of one image: `<series dir>/<sop>.dcm`. */
  function ImageFile(dir: string, r: ImageRec): string {
    Join(dir, Render(r.sop) + ".dcm")
  }

  /** The organised path of each image that has a SOP UID, in group order. */
  function ImageFiles(dir: string, rs: seq<ImageRec>): (r: seq<string>)
    ensures |r| <= |rs|
  {
    if rs == [] then []
    else
      var last := rs[|rs| - 1];
      ImageFiles(dir, rs[..|rs| - 1]) + (if Truthy(last.sop) then [ImageFile(dir, last)] else [])
  }

  /** A path is listed exactly when some image of the group with a SOP UID
      is copied to it. */
  lemma {:induction false} ImageFilesMembers(dir: string, rs: seq<ImageRec>, p: string)
    ensures p in ImageFiles(dir, rs) <==>
      exists i :: 0 <= i < |rs| && Truthy(rs[i].sop) && p == ImageFile(dir, rs[i])
  {
    if rs != [] {
      var init := rs[..|rs| - 1];
      var last := rs[|rs| - 1];
      var added := if Truthy(last.sop) then [ImageFile(dir, last)] else [];
      assert ImageFiles(dir, rs) == ImageFiles(dir, init) + added;
      ImageFilesMembers(dir, init, p);
      if p in ImageFiles(dir, rs) {
        if p in ImageFiles(dir, init) {
          var i :| 0 <= i < |init| && Truthy(init[i].sop) && p == ImageFile(dir, init[i]);
          assert rs[i] == init[i];
        } else {
          assert p in added;
        }
      } else {
        forall i | 0 <= i < |rs| && Truthy(rs[i].sop) ensures p != ImageFile(dir, rs[i]) {
          if i < |rs| - 1 {
            assert init[i] == rs[i];
          }
        }
      }
    }
  }

  /** Listing copies is a filter in order: the copies of `a + b` are those
      of `a` followed by those of `b`. */
  lemma {:induction false} ImageFilesAppend(dir: string, a: seq<ImageRec>, b: seq<ImageRec>)
    ensures ImageFiles(dir, a + b) == ImageFiles(dir, a) + ImageFiles(dir, b)
  {
    if b == [] {
      assert a + b == a;
      assert ImageFiles(dir, a) + [] == ImageFiles(dir, a);
    } else {
      var ab := a + b;
      var init := b[..|b| - 1];
      var tail := if Truthy(b[|b| - 1].sop) then [ImageFile(dir, b[|b| - 1])] else [];
      assert ab[..|ab| - 1] == a + init;
      assert ab[|ab| - 1] == b[|b| - 1];
      assert ImageFiles(dir, ab) == ImageFiles(dir, a + init) + tail;
      assert ImageFiles(dir, b) == ImageFiles(dir, init) + tail;
      ImageFilesAppend(dir, a, init);
      PlusAssoc(ImageFiles(dir, a), ImageFiles(dir, init), tail);
    }
  }

  /** One image contributes its copy exactly when it has a SOP UID. */
  lemma ImageFilesSingle(dir: string, r: ImageRec)
    ensures ImageFiles(dir, [r]) == if Truthy(r.sop) then [ImageFile(dir, r)] else []
  {
    assert [r][..0] == [];
  }

  lemma PlusAssoc<T>(x: seq<T>, y: seq<T>, z: seq<T>)
    ensures (x + y) + z == x + (y + z)
  {
  }

  /** `organized_image_paths`: every series gets a list, possibly empty. */
  function ImageLayout(root: string, gs: Groups): (m: map<Value, seq<string>>)
    ensures forall k :: k in m <==> exists i :: 0 <= i < |gs| && gs[i].0 == k
  {
    Apply(map[], ImageWrites(root, gs))
  }

  /** One `organized_image_paths[series] = [...]` per series, in order. */
  function ImageWrites(root: string, gs: Groups): (ws: seq<Option<(Value, seq<string>)>>)
    ensures |ws| == |gs|
    ensures forall i :: 0 <= i < |gs| ==> ws[i] == Some((gs[i].0, ImageFiles(SeriesDir(root, gs[i].0), gs[i].1)))
  {
    seq(|gs|, i requires 0 <= i < |gs| => Some((gs[i].0, ImageFiles(SeriesDir(root, gs[i].0), gs[i].1))))
  }

  /** Each series' list holds the copies of that series' images. */
  lemma ImageLayoutAt(root: string, gs: Groups, i: nat)
    requires i < |gs| && DistinctKeys(gs)
    ensures ImageLayout(root, gs)[gs[i].0] == ImageFiles(SeriesDir(root, gs[i].0), gs[i].1)
  {
    ApplyLastWins(map[], ImageWrites(root, gs), i);
  }

  // ------------------------------------------------------------ layout: structure sets

  /** `RTStruct_<sop>` under the referenced series' directory. */
  function StructDir(root: string, s: StructRec): string {
    Join(SeriesDir(root, s.referencedSeries), "RTStruct_" + Render(s.sop))
  }

  /** The organised copy of a structure set. */
  datatype StructCopy = StructCopy(path: string, sop: Value)

  /** Where a structure-set SOP was organised: its series and directory. */
  datatype StructPlace = StructPlace(series: Value, dir: string)

  datatype StructLayout = StructLayout(copies: map<Value, StructCopy>, bySop: map<Value, StructPlace>)

  /** A structure set is copied when both series UIDs are set, its referenced
      series was organised and it has a SOP UID. */
  predicate Organisable(s: StructRec, imageSeries: set<Value>) {
    Truthy(s.referencedSeries) && Truthy(s.seriesUid) && s.referencedSeries in imageSeries && Truthy(s.sop)
  }

  function StructCopyOf(root: string, s: StructRec): StructCopy {
    StructCopy(Join(StructDir(root, s), Render(s.sop) + ".dcm"), s.sop)
  }

  /** Some organisable record of `ss` has series UID `k`. */
  predicate CopiedSeries(imageSeries: set<Value>, ss: seq<StructRec>, k: Value) {
    exists i :: 0 <= i < |ss| && Organisable(ss[i], imageSeries) && ss[i].seriesUid == k
  }

  /** Some organisable record of `ss` has SOP UID `k`. */
  predicate CopiedSop(imageSeries: set<Value>, ss: seq<StructRec>, k: Value) {
    exists i :: 0 <= i < |ss| && Organisable(ss[i], imageSeries) && ss[i].sop == k
  }

  /** The organisable records of `ss` are those of all but its last record,
      plus the last one when it is organisable. */
  lemma CopiedStep(imageSeries: set<Value>, ss: seq<StructRec>)
    requires ss != []
    ensures var init := ss[..|ss| - 1];
      var s := ss[|ss| - 1];
      forall k ::
        && (CopiedSeries(imageSeries, ss, k) <==>
            CopiedSeries(imageSeries, init, k) || (Organisable(s, imageSeries) && s.seriesUid == k))
        && (CopiedSop(imageSeries, ss, k) <==>
            CopiedSop(imageSeries, init, k) || (Organisable(s, imageSeries) && s.sop == k))
  {
    var init := ss[..|ss| - 1];
    var last := |ss| - 1;
    forall k
      ensures CopiedSeries(imageSeries, ss, k) ==>
        CopiedSeries(imageSeries, init, k) || (Organisable(ss[last], imageSeries) && ss[last].seriesUid == k)
      ensures CopiedSop(imageSeries, ss, k) ==>
        CopiedSop(imageSeries, init, k) || (Organisable(ss[last], imageSeries) && ss[last].sop == k)
    {
      if CopiedSeries(imageSeries, ss, k) {
        var i :| 0 <= i < |ss| && Organisable(ss[i], imageSeries) && ss[i].seriesUid == k;
        if i < last {
          assert init[i] == ss[i];
        }
      }
      if CopiedSop(imageSeries, ss, k) {
        var i :| 0 <= i < |ss| && Organisable(ss[i], imageSeries) && ss[i].sop == k;
        if i < last {
          assert init[i] == ss[i];
        }
      }
    }
    forall k
      ensures CopiedSeries(imageSeries, init, k) ==> CopiedSeries(imageSeries, ss, k)
      ensures CopiedSop(imageSeries, init, k) ==> CopiedSop(imageSeries, ss, k)
    {
      if CopiedSeries(imageSeries, init, k) {
        var i :| 0 <= i < |init| && Organisable(init[i], imageSeries) && init[i].seriesUid == k;
        assert ss[i] == init[i];
      }
      if CopiedSop(imageSeries, init, k) {
        var i :| 0 <= i < |init| && Organisable(init[i], imageSeries) && init[i].sop == k;
        assert ss[i] == init[i];
      }
    }
  }

  /** The structure-set loop of `organize_files_by_structure`. */
  function LayoutStructs(root: string, imageSeries: set<Value>, ss: seq<StructRec>): (l: StructLayout)
    ensures forall k :: k in l.copies <==> CopiedSeries(imageSeries, ss, k)
    ensures forall k :: k in l.bySop <==> CopiedSop(imageSeries, ss, k)
  {
    if ss == [] then StructLayout(map[], map[])
    else
      var s := ss[|ss| - 1];
      var init := ss[..|ss| - 1];
      var l := LayoutStructs(root, imageSeries, init);
      CopiedStep(imageSeries, ss);
      if Organisable(s, imageSeries) then
        StructLayout(
          l.copies[s.seriesUid := StructCopyOf(root, s)],
          l.bySop[s.sop := StructPlace(s.referencedSeries, StructDir(root, s))])
      else l
  }

  /** A copied structure set's entries come from the last organisable
      record with that series UID, and with that SOP UID. */
  lemma {:induction false} LayoutStructsLastWins(root: string, imageSeries: set<Value>, ss: seq<StructRec>, i: nat)
    requires i < |ss| && Organisable(ss[i], imageSeries)
    requires forall j :: i < j < |ss| && Organisable(ss[j], imageSeries) ==>
      ss[j].seriesUid != ss[i].seriesUid && ss[j].sop != ss[i].sop
    ensures LayoutStructs(root, imageSeries, ss).copies[ss[i].seriesUid] == StructCopyOf(root, ss[i])
    ensures LayoutStructs(root, imageSeries, ss).bySop[ss[i].sop] == StructPlace(ss[i].referencedSeries, StructDir(root, ss[i]))
  {
    if i < |ss| - 1 {
      var init := ss[..|ss| - 1];
      assert init[i] == ss[i];
      forall j | i < j < |init| && Organisable(init[j], imageSeries)
        ensures init[j].seriesUid != init[i].seriesUid && init[j].sop != init[i].sop
      {
        assert init[j] == ss[j];
      }
      LayoutStructsLastWins(root, imageSeries, init, i);
    }
  }

  // ------------------------------------------------------------ layout: plans and doses

  /** `rtplan_by_sop`: plans with a SOP UID, a later plan replacing an
      earlier one with the same UID. */
  function PlansBySop(ps: seq<PlanRec>): (m: map<Value, PlanRec>)
    ensures forall k :: k in m ==> Truthy(k) && m[k].sop == k
    ensures forall k :: k in m <==> exists i :: 0 <= i < |ps| && Truthy(ps[i].sop) && ps[i].sop == k
  {
    if ps == [] then map[]
    else
      var p := ps[|ps| - 1];
      var init := ps[..|ps| - 1];
      assert forall i :: 0 <= i < |init| ==> init[i] == ps[i];
      if Truthy(p.sop) then PlansBySop(init)[p.sop := p] else PlansBySop(init)
  }

  /** The plan kept for a SOP UID is the last one carrying it. */
  lemma {:induction false} PlansBySopLastWins(ps: seq<PlanRec>, i: nat)
    requires i < |ps| && Truthy(ps[i].sop)
    requires forall j :: i < j < |ps| ==> ps[j].sop != ps[i].sop
    ensures PlansBySop(ps)[ps[i].sop] == ps[i]
  {
    if i < |ps| - 1 {
      var init := ps[..|ps| - 1];
      assert init[i] == ps[i];
      forall j | i < j < |init| ensures init[j].sop != init[i].sop {
        assert init[j] == ps[j];
      }
      PlansBySopLastWins(init, i);
    }
  }

  /** The plan a dose references, when that link holds. */
  function PlanOf(d: DoseRec, plans: map<Value, PlanRec>): (r: Option<PlanRec>)
    ensures r.Some? <==> Truthy(d.referencedPlan) && d.referencedPlan in plans
  {
    if Truthy(d.referencedPlan) && d.referencedPlan in plans then Some(plans[d.referencedPlan]) else None
  }

  /** The dose → plan → structure-set chain of the layout phase holds. */
  predicate LaidOut(d: DoseRec, plans: map<Value, PlanRec>, bySop: map<Value, StructPlace>) {
    && PlanOf(d, plans).Some?
    && Truthy(PlanOf(d, plans).value.referencedStruct)
    && PlanOf(d, plans).value.referencedStruct in bySop
  }

  /** `Plan_<plan sop>` under the structure set's directory. */
  function PlanDir(d: DoseRec, plans: map<Value, PlanRec>, bySop: map<Value, StructPlace>): string
    requires LaidOut(d, plans, bySop)
  {
    Join(bySop[PlanOf(d, plans).value.referencedStruct].dir, "Plan_" + Render(d.referencedPlan))
  }

  function PlanFile(d: DoseRec, plans: map<Value, PlanRec>, bySop: map<Value, StructPlace>): string
    requires LaidOut(d, plans, bySop)
  {
    Join(PlanDir(d, plans, bySop), "RTPLAN_" + Render(d.referencedPlan) + ".dcm")
  }

  /** `RTDOSE_<dose sop>.dcm`, or `RTDOSE_dose.dcm` for a dose without one. */
  function DoseFile(d: DoseRec, plans: map<Value, PlanRec>, bySop: map<Value, StructPlace>): string
    requires LaidOut(d, plans, bySop)
  {
    Join(PlanDir(d, plans, bySop), "RTDOSE_" + Render(d.sop.GetOr(Str("dose"))) + ".dcm")
  }

  /** The series UID of the plan a dose references, or `None` when the dose
      references no known plan. */
  function PlanSeries(d: DoseRec, plans: map<Value, PlanRec>): Value {
    match PlanOf(d, plans)
    case Some(p) => p.seriesUid
    case None => Null
  }

  /** The plan copy a dose registers: under the plan's series UID, when the
      dose's chain holds and that UID is set. */
  function PlanWrite(plans: map<Value, PlanRec>, bySop: map<Value, StructPlace>, d: DoseRec): Option<(Value, string)> {
    if LaidOut(d, plans, bySop) && Truthy(PlanSeries(d, plans)) then Some((PlanSeries(d, plans), PlanFile(d, plans, bySop)))
    else None
  }

  /** The dose copy a dose registers: under its series UID, when its chain
      holds and that UID is set. */
  function DoseWrite(plans: map<Value, PlanRec>, bySop: map<Value, StructPlace>, d: DoseRec): Option<(Value, string)> {
    if LaidOut(d, plans, bySop) && Truthy(d.seriesUid) then Some((d.seriesUid, DoseFile(d, plans, bySop)))
    else None
  }

  /** `organized_rtplan_paths`, filled by the dose loop. */
  function PlanPaths(plans: map<Value, PlanRec>, bySop: map<Value, StructPlace>, ds: seq<DoseRec>): (m: map<Value, string>)
    ensures forall k :: k in m <==>
      exists i :: 0 <= i < |ds| && LaidOut(ds[i], plans, bySop) && Truthy(PlanSeries(ds[i], plans)) && PlanSeries(ds[i], plans) == k
  {
    var ws := seq(|ds|, i requires 0 <= i < |ds| => PlanWrite(plans, bySop, ds[i]));
    assert forall i :: 0 <= i < |ds| ==> ws[i] == PlanWrite(plans, bySop, ds[i]);
    Apply(map[], ws)
  }

  /** `organized_rtdose_paths`, filled by the dose loop. */
  function DosePaths(plans: map<Value, PlanRec>, bySop: map<Value, StructPlace>, ds: seq<DoseRec>): (m: map<Value, string>)
    ensures forall k :: k in m <==>
      exists i :: 0 <= i < |ds| && LaidOut(ds[i], plans, bySop) && Truthy(ds[i].seriesUid) && ds[i].seriesUid == k
  {
    var ws := seq(|ds|, i requires 0 <= i < |ds| => DoseWrite(plans, bySop, ds[i]));
    assert forall i :: 0 <= i < |ds| ==> ws[i] == DoseWrite(plans, bySop, ds[i]);
    Apply(map[], ws)
  }

  /** A plan series' path is that of the LAST laid-out dose whose plan
      belongs to the series. */
  lemma PlanPathsLastWins(plans: map<Value, PlanRec>, bySop: map<Value, StructPlace>, ds: seq<DoseRec>, i: nat)
    requires i < |ds| && LaidOut(ds[i], plans, bySop) && Truthy(PlanSeries(ds[i], plans))
    requires forall j :: i < j < |ds| && LaidOut(ds[j], plans, bySop) ==> PlanSeries(ds[j], plans) != PlanSeries(ds[i], plans)
    ensures PlanPaths(plans, bySop, ds)[PlanSeries(ds[i], plans)] == PlanFile(ds[i], plans, bySop)
  {
    var ws := seq(|ds|, j requires 0 <= j < |ds| => PlanWrite(plans, bySop, ds[j]));
    assert PlanPaths(plans, bySop, ds) == Apply(map[], ws);
    ApplyLastWins(map[], ws, i);
  }

  /** A dose series' path is that of the LAST laid-out dose of the series. */
  lemma DosePathsLastWins(plans: map<Value, PlanRec>, bySop: map<Value, StructPlace>, ds: seq<DoseRec>, i: nat)
    requires i < |ds| && LaidOut(ds[i], plans, bySop) && Truthy(ds[i].seriesUid)
    requires forall j :: i < j < |ds| && LaidOut(ds[j], plans, bySop) ==> ds[j].seriesUid != ds[i].seriesUid
    ensures DosePaths(plans, bySop, ds)[ds[i].seriesUid] == DoseFile(ds[i], plans, bySop)
  {
    var ws := seq(|ds|, j requires 0 <= j < |ds| => DoseWrite(plans, bySop, ds[j]));
    assert DosePaths(plans, bySop, ds) == Apply(map[], ws);
    ApplyLastWins(map[], ws, i);
  }

  /** The copies of a plan and its dose share the plan directory, which sits
      inside the directory of the structure set the plan references. */
  lemma PairFilesShareDir(d: DoseRec, plans: map<Value, PlanRec>, bySop: map<Value, StructPlace>)
    requires LaidOut(d, plans, bySop)
    ensures var dir := PlanDir(d, plans, bySop);
      && StartsWith(PlanFile(d, plans, bySop), dir)
      && StartsWith(DoseFile(d, plans, bySop), dir)
      && StartsWith(dir, bySop[PlanOf(d, plans).value.referencedStruct].dir)
  {
    assert ("RTPLAN_" + Render(d.referencedPlan) + ".dcm")[0] == 'R';
    assert ("RTDOSE_" + Render(d.sop.GetOr(Str("dose"))) + ".dcm")[0] == 'R';
    assert ("Plan_" + Render(d.referencedPlan))[0] == 'P';
  }

  /** The paths `organize_files_by_structure` returns. */
  datatype Layout = Layout(
    root: string,
    imagePaths: map<Value, seq<string>>,
    structCopies: map<Value, StructCopy>,
    planPaths: map<Value, string>,
    dosePaths: map<Value, string>)

  /** The `os.path.join(organized_path, uid)` calls that open the image loop
      and, for a record with both series UIDs set, the structure-set loop
      sit outside any `try`: a UID there that is not text raises a
      `TypeError` that ends the whole run. */
  predicate LayoutRaises(b: Buckets) {
    || (exists i :: 0 <= i < |b.images| && !b.images[i].0.Str?)
    || (exists i :: 0 <= i < |b.structs| && JoinsReferencedSeries(b.structs[i]) && !b.structs[i].referencedSeries.Str?)
  }

  /** The structure-set loop reaches the join of the referenced series. */
  predicate JoinsReferencedSeries(s: StructRec) {
    Truthy(s.referencedSeries) && Truthy(s.seriesUid)
  }

  /** `organize_files_by_structure`: the `TypeError` of joining a series UID
      that is not text, or the layout. */
  function OrganizeFilesByStructure(base: string, archiveId: int, b: Buckets): (r: Result<Layout>)
    ensures r.Err? <==> LayoutRaises(b)
    ensures r.Err? ==> r.msg == WrongType
    ensures r.Ok? ==> r.value == LayoutOf(base, archiveId, b)
  {
    if LayoutRaises(b) then Err(WrongType) else Ok(LayoutOf(base, archiveId, b))
  }

  /** The paths `organize_files_by_structure` computes when no join raises:
      images, then structure sets under an organised series, then plans and
      doses under an organised structure set. */
  function LayoutOf(base: string, archiveId: int, b: Buckets): (l: Layout)
    ensures l.root == OrganizedRoot(base, archiveId)
    ensures l.imagePaths.Keys == KeysOf(b.images)
    ensures l.imagePaths == ImageLayout(l.root, b.images)
    ensures l.structCopies == LayoutStructs(l.root, KeysOf(b.images), b.structs).copies
    ensures var bySop := LayoutStructs(l.root, KeysOf(b.images), b.structs).bySop;
      && l.planPaths == PlanPaths(PlansBySop(b.plans), bySop, b.doses)
      && l.dosePaths == DosePaths(PlansBySop(b.plans), bySop, b.doses)
    ensures forall k :: k in l.structCopies ==>
      exists i :: 0 <= i < |b.structs| && Organisable(b.structs[i], KeysOf(b.images)) && b.structs[i].seriesUid == k
  {
    var root := OrganizedRoot(base, archiveId);
    var structs := LayoutStructs(root, KeysOf(b.images), b.structs);
    var plans := PlansBySop(b.plans);
    Layout(root, ImageLayout(root, b.images), structs.copies,
      PlanPaths(plans, structs.bySop, b.doses), DosePaths(plans, structs.bySop, b.doses))
  }

  /** A name that `os.path.join` appends rather than substitutes. */
  predicate Relative(name: string) {
    name == "" || name[0] != '/'
  }

  /** An image copy sits in its series' directory, inside the archive's
      root, unless a UID renders as an absolute path. */
  lemma ImageUnderSeries(root: string, series: Value, r: ImageRec)
    requires Relative(Render(series)) && Relative(Render(r.sop))
    ensures StartsWith(ImageFile(SeriesDir(root, series), r), SeriesDir(root, series))
    ensures StartsWith(SeriesDir(root, series), root)
  {
    assert !StartsWith(Render(r.sop) + ".dcm", "/") by {
      if Render(r.sop) == "" {
        assert (Render(r.sop) + ".dcm")[0] == '.';
      } else {
        assert (Render(r.sop) + ".dcm")[0] == Render(r.sop)[0];
      }
    }
  }

  /** A structure-set copy sits in `RTStruct_<sop>` inside the directory of
      the series it references, unless a UID renders as an absolute path. */
  lemma StructUnderSeries(root: string, s: StructRec)
    requires Relative(Render(s.referencedSeries)) && Relative(Render(s.sop))
    ensures StartsWith(StructCopyOf(root, s).path, StructDir(root, s))
    ensures StartsWith(StructDir(root, s), SeriesDir(root, s.referencedSeries))
    ensures StartsWith(StructCopyOf(root, s).path, SeriesDir(root, s.referencedSeries))
  {
    assert ("RTStruct_" + Render(s.sop))[0] == 'R';
    assert !StartsWith(Render(s.sop) + ".dcm", "/") by {
      if Render(s.sop) == "" {
        assert (Render(s.sop) + ".dcm")[0] == '.';
      } else {
        assert (Render(s.sop) + ".dcm")[0] == Render(s.sop)[0];
      }
    }
    StartsWithTrans(StructCopyOf(root, s).path, StructDir(root, s), SeriesDir(root, s.referencedSeries));
  }

  /** The UIDs are joined unsanitised: a series UID that reads as an
      absolute path replaces the archive root altogether. */
  lemma AbsoluteSeriesEscapesRoot(root: string, series: Value)
    requires StartsWith(Render(series), "/")
    ensures SeriesDir(root, series) == Render(series)
  {
  }
}

=== FILE: reconcile.dfy ===
/** The entity reconciler of the clinical ingestion path: per-file upserts
    of Patient, Study, Series and Instance keyed by UID, followed by the
    modality payload (image geometry, or a structure set and its ROIs),
    all inside one all-or-nothing block. The database is a value of type
    `Store`; the atomic block returns the new store or an error, in which
    case the caller keeps the old store. */
module Reconcile {
  import opened Wrappers
  import opened Tags

  // ------------------------------------------------------------ rows

  datatype PatientRow = PatientRow(name: string, birthDate: Option<Date>, sex: Option<Gender>)

  datatype StudyRow = StudyRow(patient: Value, description: Value, date: Option<Date>)

  datatype SeriesRow = SeriesRow(study: Value, frameOfReference: Value, description: Value, date: Option<Date>)

  datatype InstanceRow = InstanceRow(series: Value, modality: Value, pixelSpacing: string)

  /** `ImageInformation`, one per image instance. */
  datatype ImageRow = ImageRow(
    sliceLocation: Value,
    pixelSpacing: Option<seq<Value>>,
    sliceThickness: Value,
    patientPosition: Value,
    imagePosition: Option<seq<Value>>,
    imageOrientation: Option<seq<Value>>,
    instanceNumber: Value)

  /** `RTStructureSetInformation`, one per structure-set instance; the
      prescription template is chosen later, elsewhere. */
  datatype StructureSetRow = StructureSetRow(numberOfRoi: nat, referencedFrameOfReference: Value, template: Option<nat>)

  /** One contour of an ROI: its points and the image it lies on. */
  datatype Contour = Contour(points: seq<Value>, referencedSop: Value)

  datatype RoiRow = RoiRow(name: Value, contours: seq<Contour>)

  /** The persisted entity graph. Each map is keyed by the row's unique key:
      patient id, study/series/SOP instance UID, the instance UID for the
      one-to-one payloads, and (structure set, ROI number) for ROIs. */
  datatype Store = Store(
    patients: map<Value, PatientRow>,
    studies: map<Value, StudyRow>,
    series: map<Value, SeriesRow>,
    instances: map<Value, InstanceRow>,
    images: map<Value, ImageRow>,
    structureSets: map<Value, StructureSetRow>,
    rois: map<(Value, Value), RoiRow>)

  /** `update_or_create(key=k, defaults=v)` seen from outside: `k` now holds
      `v`, and every other row is as it was. */
  ghost predicate Upserted<K, V>(before: map<K, V>, after: map<K, V>, k: K, v: V) {
    && after.Keys == before.Keys + {k}
    && after[k] == v
    && forall j :: j in before && j != k ==> after[j] == before[j]
  }

  // ------------------------------------------------------------ modalities

  predicate IsImageModality(m: Value) {
    m == Str("CT") || m == Str("MR") || m == Str("PT") || m == Str("PET")
  }

  const RtStruct: Value := Str("RTSTRUCT")

  // ------------------------------------------------------------ row values

  function PatientRowOf(ds: Dataset): PatientRow {
    PatientRow(
      Render(Get(ds, "PatientName", Str(""))),
      ParseDicomDate(Get(ds, "PatientBirthDate", Null)),
      MapPatientSex(Get(ds, "PatientSex", Null)))
  }

  function StudyRowOf(ds: Dataset, patient: Value): StudyRow {
    StudyRow(patient, Get(ds, "StudyDescription", Str("")), ParseDicomDate(Get(ds, "StudyDate", Null)))
  }

  function SeriesRowOf(ds: Dataset, study: Value): SeriesRow {
    SeriesRow(
      study,
      Get(ds, "FrameOfReferenceUID", Str("")),
      Get(ds, "SeriesDescription", Str("")),
      ParseDicomDate(Get(ds, "SeriesDate", Null)))
  }

  function InstanceRowOf(ds: Dataset, series: Value): InstanceRow {
    var spacing := Get(ds, "PixelSpacing", Str(""));
    InstanceRow(series, Get(ds, "Modality", Str("")), if Truthy(spacing) then Render(spacing) else "")
  }

  /** `list(v) if v else None`, or the `TypeError` of `list(v)`. */
  function ListOrNone(v: Value): (r: Result<Option<seq<Value>>>)
    ensures r.Ok? <==> Listable(v)
    ensures r.Err? ==> r.msg == WrongType
    ensures r.Ok? ==> (r.value.Some? <==> Truthy(v))
    ensures r.Ok? && Truthy(v) ==> r.value.value == ListOf(v).value
  {
    if !Truthy(v) then Ok(None)
    else match ListOf(v)
      case Err(e) => Err(e)
      case Ok(xs) => Ok(Some(xs))
  }

  /** The image row of a record, or the `TypeError` raised by the first of
      its three geometry lists that is not a list. */
  function ImageRowOf(ds: Dataset): (r: Result<ImageRow>)
    ensures r.Ok? <==>
      && Listable(Get(ds, "PixelSpacing", Null))
      && Listable(Get(ds, "ImagePositionPatient", Null))
      && Listable(Get(ds, "ImageOrientationPatient", Null))
    ensures r.Err? ==> r.msg == WrongType
    ensures r.Ok? ==>
      && r.value.pixelSpacing == ListOrNone(Get(ds, "PixelSpacing", Null)).value
      && r.value.imagePosition == ListOrNone(Get(ds, "ImagePositionPatient", Null)).value
      && r.value.imageOrientation == ListOrNone(Get(ds, "ImageOrientationPatient", Null)).value
    ensures r.Ok? ==> r.value.sliceLocation == Get(ds, "SliceLocation", Null) && r.value.instanceNumber == Get(ds, "InstanceNumber", Null)
  {
    match ListOrNone(Get(ds, "PixelSpacing", Null))
    case Err(e) => Err(e)
    case Ok(spacing) =>
      match ListOrNone(Get(ds, "ImagePositionPatient", Null))
      case Err(e) => Err(e)
      case Ok(position) =>
        match ListOrNone(Get(ds, "ImageOrientationPatient", Null))
        case Err(e) => Err(e)
        case Ok(orientation) =>
          Ok(ImageRow(
            Get(ds, "SliceLocation", Null), spacing, Get(ds, "SliceThickness", Null),
            Get(ds, "PatientPosition", Str("")), position, orientation, Get(ds, "InstanceNumber", Null)))
  }

  /** The declared ROIs of a structure set. */
  function DeclaredRois(ds: Dataset): seq<Dataset> {
    SeqItems(Get(ds, "StructureSetROISequence", Multi([])))
  }

  /** The frame of reference named by the first referenced-frame item. */
  function ReferencedFrame(ds: Dataset): Value {
    match First(Get(ds, "ReferencedFrameOfReferenceSequence", Null))
    case Some(item) => Get(item, "FrameOfReferenceUID", Str(""))
    case None => Str("")
  }

  /** The structure-set row: the number of declared ROIs, the frame of
      reference of the first referenced-frame item, no template yet; or the
      `TypeError` of `len()` on either sequence holding a non-zero number. */
  function StructureSetRowOf(ds: Dataset): (r: Result<StructureSetRow>)
    ensures r.Err? <==>
      || LenFails(Get(ds, "StructureSetROISequence", Multi([])))
      || LenFails(Get(ds, "ReferencedFrameOfReferenceSequence", Null))
    ensures r.Err? ==> r.msg == WrongType
    ensures r.Ok? ==> r.value.numberOfRoi == |DeclaredRois(ds)| && r.value.template == None
    ensures r.Ok? && First(Get(ds, "ReferencedFrameOfReferenceSequence", Null)).None? ==>
      r.value.referencedFrameOfReference == Str("")
    ensures r.Ok? && First(Get(ds, "ReferencedFrameOfReferenceSequence", Null)).Some? ==>
      r.value.referencedFrameOfReference
        == Get(First(Get(ds, "ReferencedFrameOfReferenceSequence", Null)).value, "FrameOfReferenceUID", Str(""))
  {
    if LenFails(Get(ds, "StructureSetROISequence", Multi([])))
      || LenFails(Get(ds, "ReferencedFrameOfReferenceSequence", Null))
    then Err(WrongType)
    else Ok(StructureSetRow(|DeclaredRois(ds)|, ReferencedFrame(ds), None))
  }

  // ------------------------------------------------------------ contours

  function ContourData(c: Dataset): Value {
    Get(c, "ContourData", Multi([]))
  }

  function ContourImages(c: Dataset): Value {
    Get(c, "ContourImageSequence", Multi([]))
  }

  function ContourImage(c: Dataset): Option<Dataset> {
    First(ContourImages(c))
  }

  /** One contour item: its contour, nothing when its ContourData is empty,
      or the `TypeError` of `len()` on a ContourImageSequence that is a
      non-zero number or of `list()` on data that is not a list. The
      referenced SOP is the first ContourImageSequence item's UID, or the
      empty string when there is none. */
  function ContourOf(c: Dataset): (r: Result<Option<Contour>>)
    ensures r.Ok? <==> !LenFails(ContourImages(c)) && Listable(ContourData(c))
    ensures r.Err? ==> r.msg == WrongType
    ensures r == Ok(None) <==> !LenFails(ContourImages(c)) && !Truthy(ContourData(c))
    ensures r.Ok? && r.value.Some? ==>
      && r.value.value.points == ListOf(ContourData(c)).value
      && |r.value.value.points| > 0
    ensures r.Ok? && r.value.Some? && ContourImage(c).None? ==> r.value.value.referencedSop == Str("")
    ensures r.Ok? && r.value.Some? && ContourImage(c).Some? ==>
      r.value.value.referencedSop == Get(ContourImage(c).value, "ReferencedSOPInstanceUID", Str(""))
  {
    var sop := match ContourImage(c)
      case Some(image) => Get(image, "ReferencedSOPInstanceUID", Str(""))
      case None => Str("");
    if LenFails(ContourImages(c)) then Err(WrongType)
    else if !Truthy(ContourData(c)) then Ok(None)
    else match ListOf(ContourData(c))
      case Err(e) => Err(e)
      case Ok(points) => Ok(Some(Contour(points, sop)))
  }

  /** The contour of a kept item as a list of zero or one contours. */
  function KeptOne(k: Option<Contour>): seq<Contour> {
    if k.Some? then [k.value] else []
  }

  /** The contours of one ROIContourSequence item with data, in order; the
      first item whose data `list()` rejects aborts the whole loop. */
  function KeptContours(cs: seq<Dataset>): (r: Result<seq<Contour>>)
    ensures r.Ok? ==> |r.value| <= |cs|
    ensures r.Err? ==> r.msg == WrongType
  {
    if cs == [] then Ok([])
    else match ContourOf(cs[0])
      case Err(e) => Err(e)
      case Ok(k) =>
        match KeptContours(cs[1..])
        case Err(e) => Err(e)
        case Ok(rest) => Ok(KeptOne(k) + rest)
  }

  /** Two runs of a loop one after the other: the first error wins,
      otherwise the outputs are concatenated. */
  function Then<T>(a: Result<seq<T>>, b: Result<seq<T>>): Result<seq<T>> {
    match a
    case Err(e) => Err(e)
    case Ok(x) =>
      match b
      case Err(e) => Err(e)
      case Ok(y) => Ok(x + y)
  }

  /** The contour loop is a filter in order: the contours of `a + b` are
      those of `a` followed by those of `b`, and an error in `a` wins over
      anything in `b`. */
  lemma {:induction false} KeptContoursAppend(a: seq<Dataset>, b: seq<Dataset>)
    ensures KeptContours(a + b) == Then(KeptContours(a), KeptContours(b))
  {
    if a == [] {
      assert a + b == b;
      if KeptContours(b).Ok? {
        assert [] + KeptContours(b).value == KeptContours(b).value;
      }
    } else {
      assert (a + b)[0] == a[0];
      assert (a + b)[1..] == a[1..] + b;
      KeptContoursAppend(a[1..], b);
      match ContourOf(a[0])
      case Err(e) =>
      case Ok(k) =>
        match KeptContours(a[1..])
        case Err(e) =>
        case Ok(x) =>
          match KeptContours(b)
          case Err(e) =>
          case Ok(y) =>
            assert KeptOne(k) + (x + y) == (KeptOne(k) + x) + y;
    }
  }

  /** A single item contributes its contour when it has data, nothing when
      it has none, and its error when `list()` rejects its data. */
  lemma KeptContoursSingle(c: Dataset)
    ensures ContourOf(c).Err? ==> KeptContours([c]) == Err(WrongType)
    ensures ContourOf(c) == Ok(None) ==> KeptContours([c]) == Ok([])
    ensures ContourOf(c).Ok? && ContourOf(c).value.Some? ==> KeptContours([c]) == Ok([ContourOf(c).value.value])
  {
    assert [c][1..] == [];
    assert KeptContours([c][1..]) == Ok([]);
    if ContourOf(c).Ok? && ContourOf(c).value.Some? {
      assert KeptOne(ContourOf(c).value) + [] == [ContourOf(c).value.value];
    }
  }

  /** The loop succeeds exactly when every item's data is acceptable, and
      then exactly the contour items with data survive, each as its
      contour. */
  lemma {:induction false} KeptContoursMembers(cs: seq<Dataset>)
    ensures KeptContours(cs).Ok? <==> forall j :: 0 <= j < |cs| ==> ContourOf(cs[j]).Ok?
    ensures KeptContours(cs).Ok? ==>
      forall k :: k in KeptContours(cs).value <==> exists j :: 0 <= j < |cs| && ContourOf(cs[j]) == Ok(Some(k))
  {
    if cs != [] {
      KeptContoursMembers(cs[1..]);
      assert forall j :: 0 < j < |cs| ==> cs[1..][j - 1] == cs[j];
      if KeptContours(cs).Ok? {
        var r := KeptContours(cs).value;
        var rest := KeptContours(cs[1..]).value;
        forall k ensures k in r <==> exists j :: 0 <= j < |cs| && ContourOf(cs[j]) == Ok(Some(k)) {
          if k in r && ContourOf(cs[0]) != Ok(Some(k)) {
            assert k in rest;
            var j :| 0 <= j < |cs[1..]| && ContourOf(cs[1..][j]) == Ok(Some(k));
            assert cs[1..][j] == cs[j + 1];
          }
          if exists j :: 0 <= j < |cs| && ContourOf(cs[j]) == Ok(Some(k)) {
            var j :| 0 <= j < |cs| && ContourOf(cs[j]) == Ok(Some(k));
            if j > 0 {
              assert cs[1..][j - 1] == cs[j];
            }
          }
        }
      }
    }
  }

  function ContourRoiNumber(item: Dataset): Value {
    Get(item, "ReferencedROINumber", Null)
  }

  function ContourItems(item: Dataset): Value {
    Get(item, "ContourSequence", Multi([]))
  }

  /** The kept contours of one ROIContourSequence item, or the `TypeError`
      of iterating a ContourSequence that is a number. */
  function ItemContours(item: Dataset): (r: Result<seq<Contour>>)
    ensures NotAContainer(ContourItems(item)) ==> r == Err(WrongType)
    ensures !NotAContainer(ContourItems(item)) ==> r == KeptContours(SeqItems(ContourItems(item)))
    ensures r.Err? ==> r.msg == WrongType
  {
    if NotAContainer(ContourItems(item)) then Err(WrongType)
    else KeptContours(SeqItems(ContourItems(item)))
  }

  /** `roi_contour_map`: ROI number to contour list, filled in order so that
      a later item with the same number replaces an earlier one; the first
      contour whose data `list()` rejects aborts the loop. */
  function ContourMap(items: seq<Dataset>): (m: Result<map<Value, seq<Contour>>>)
    ensures m.Ok? <==> forall i :: 0 <= i < |items| ==> ItemContours(items[i]).Ok?
    ensures m.Err? ==> m.msg == WrongType
    ensures m.Ok? ==> forall n :: n in m.value <==> exists i :: 0 <= i < |items| && ContourRoiNumber(items[i]) == n
  {
    if items == [] then Ok(map[])
    else
      var last := items[|items| - 1];
      var init := items[..|items| - 1];
      assert forall i :: 0 <= i < |items| - 1 ==> init[i] == items[i];
      match ContourMap(init)
      case Err(e) => Err(e)
      case Ok(m) =>
        match ItemContours(last)
        case Err(e) => Err(e)
        case Ok(cs) => Ok(m[ContourRoiNumber(last) := cs])
  }

  /** The ROI number `n` maps to the contours of the LAST item naming it. */
  lemma {:induction false} ContourMapLastWins(items: seq<Dataset>, i: nat)
    requires i < |items| && ContourMap(items).Ok?
    requires forall j :: i < j < |items| ==> ContourRoiNumber(items[j]) != ContourRoiNumber(items[i])
    ensures ItemContours(items[i]).Ok?
    ensures ContourMap(items).value[ContourRoiNumber(items[i])] == ItemContours(items[i]).value
  {
    if i < |items| - 1 {
      var init := items[..|items| - 1];
      assert init[i] == items[i];
      forall j | i < j < |init|
        ensures ContourRoiNumber(init[j]) != ContourRoiNumber(init[i])
      {
        assert init[j] == items[j];
      }
      ContourMapLastWins(init, i);
    }
  }

  // ------------------------------------------------------------ ROIs

  function RoiNumber(roi: Dataset): Value {
    Get(roi, "ROINumber", Null)
  }

  /** The row a declared ROI gets: its name and the contours recorded for
      its number, or none. */
  function RoiRowOf(roi: Dataset, contours: map<Value, seq<Contour>>): RoiRow {
    var n := RoiNumber(roi);
    RoiRow(Get(roi, "ROIName", Str("")), if n in contours then contours[n] else [])
  }

  /** The ROI upsert loop, one `update_or_create` per declared ROI, in order. */
  function ApplyRois(
    rois: map<(Value, Value), RoiRow>, owner: Value, declared: seq<Dataset>, contours: map<Value, seq<Contour>>)
    : (r: map<(Value, Value), RoiRow>)
    ensures rois.Keys <= r.Keys
  {
    if declared == [] then rois
    else
      var last := declared[|declared| - 1];
      ApplyRois(rois, owner, declared[..|declared| - 1], contours)[(owner, RoiNumber(last)) := RoiRowOf(last, contours)]
  }

  /** The rows the loop writes, independent of what was stored before: one
      key per declared ROI number, all under the owning structure set. */
  function RoiWrites(owner: Value, declared: seq<Dataset>, contours: map<Value, seq<Contour>>)
    : (w: map<(Value, Value), RoiRow>)
    ensures forall k :: k in w <==> k.0 == owner && exists i :: 0 <= i < |declared| && RoiNumber(declared[i]) == k.1
  {
    if declared == [] then map[]
    else
      var last := declared[|declared| - 1];
      var init := declared[..|declared| - 1];
      assert forall i :: 0 <= i < |declared| - 1 ==> init[i] == declared[i];
      RoiWrites(owner, init, contours)[(owner, RoiNumber(last)) := RoiRowOf(last, contours)]
  }

  /** Updating a merged map is updating its right-hand side. */
  lemma MergeThenUpdate<K, V>(a: map<K, V>, b: map<K, V>, k: K, v: V)
    ensures (a + b)[k := v] == a + b[k := v]
  {
  }

  /** The loop overwrites exactly the written keys and leaves every other
      row alone. */
  lemma {:induction false} ApplyRoisIsOverwrite(
    rois: map<(Value, Value), RoiRow>, owner: Value, declared: seq<Dataset>, contours: map<Value, seq<Contour>>)
    ensures ApplyRois(rois, owner, declared, contours) == rois + RoiWrites(owner, declared, contours)
  {
    if declared != [] {
      var last := declared[|declared| - 1];
      var init := declared[..|declared| - 1];
      ApplyRoisIsOverwrite(rois, owner, init, contours);
      MergeThenUpdate(rois, RoiWrites(owner, init, contours), (owner, RoiNumber(last)), RoiRowOf(last, contours));
    }
  }

  /** Each declared ROI's row holds the contours recorded for its number
      (none when no contour item names it), under the key (owner, number). */
  lemma {:induction false} RoiRowsFollowContourMap(
    owner: Value, declared: seq<Dataset>, contours: map<Value, seq<Contour>>, i: nat)
    requires i < |declared|
    requires forall j :: i < j < |declared| ==> RoiNumber(declared[j]) != RoiNumber(declared[i])
    ensures var w := RoiWrites(owner, declared, contours);
      var n := RoiNumber(declared[i]);
      && (owner, n) in w
      && w[(owner, n)].name == Get(declared[i], "ROIName", Str(""))
      && w[(owner, n)].contours == (if n in contours then contours[n] else [])
  {
    if i < |declared| - 1 {
      var init := declared[..|declared| - 1];
      assert init[i] == declared[i];
      forall j | i < j < |init|
        ensures RoiNumber(init[j]) != RoiNumber(init[i])
      {
        assert init[j] == declared[j];
      }
      RoiRowsFollowContourMap(owner, init, contours, i);
    }
  }

  // ------------------------------------------------------------ the file

  /** The four hierarchy keys of a record. */
  datatype Keys = Keys(patient: Value, study: Value, series: Value, sop: Value)

  const PatientIdMissing := "PatientID is required but not found in DICOM file"
  const StudyUidMissing := "StudyInstanceUID is required but not found in DICOM file"
  const SeriesUidMissing := "SeriesInstanceUID is required but not found in DICOM file"
  const SopUidMissing := "SOPInstanceUID is required but not found in DICOM file"

  /** The four keys in the order the upserts need them; the first one
      missing raises its `ValueError`. */
  function RequiredKeys(ds: Dataset): (r: Result<Keys>)
    ensures r.Ok? <==>
      && Truthy(Get(ds, "PatientID", Null))
      && Truthy(Get(ds, "StudyInstanceUID", Null))
      && Truthy(Get(ds, "SeriesInstanceUID", Null))
      && Truthy(Get(ds, "SOPInstanceUID", Null))
    ensures !Truthy(Get(ds, "PatientID", Null)) ==> r == Err(PatientIdMissing)
    ensures Truthy(Get(ds, "PatientID", Null)) && !Truthy(Get(ds, "StudyInstanceUID", Null)) ==> r == Err(StudyUidMissing)
    ensures r.Ok? ==> r.value == Keys(
      Get(ds, "PatientID", Null), Get(ds, "StudyInstanceUID", Null),
      Get(ds, "SeriesInstanceUID", Null), Get(ds, "SOPInstanceUID", Null))
  {
    var patient := Get(ds, "PatientID", Null);
    var study := Get(ds, "StudyInstanceUID", Null);
    var series := Get(ds, "SeriesInstanceUID", Null);
    var sop := Get(ds, "SOPInstanceUID", Null);
    if !Truthy(patient) then Err(PatientIdMissing)
    else if !Truthy(study) then Err(StudyUidMissing)
    else if !Truthy(series) then Err(SeriesUidMissing)
    else if !Truthy(sop) then Err(SopUidMissing)
    else Ok(Keys(patient, study, series, sop))
  }

  /** An update of one key is an upsert of it. */
  lemma UpdateUpserts<K, V>(m: map<K, V>, k: K, v: V)
    ensures Upserted(m, m[k := v], k, v)
  {
  }

  /** The four hierarchy upserts, parents first, each row pointing at the
      key of its parent. */
  function UpsertHierarchy(ds: Dataset, k: Keys, st: Store): (r: Store)
    ensures Upserted(st.patients, r.patients, k.patient, PatientRowOf(ds))
    ensures Upserted(st.studies, r.studies, k.study, StudyRowOf(ds, k.patient))
    ensures Upserted(st.series, r.series, k.series, SeriesRowOf(ds, k.study))
    ensures Upserted(st.instances, r.instances, k.sop, InstanceRowOf(ds, k.series))
    ensures r.images == st.images && r.structureSets == st.structureSets && r.rois == st.rois
  {
    UpdateUpserts(st.patients, k.patient, PatientRowOf(ds));
    UpdateUpserts(st.studies, k.study, StudyRowOf(ds, k.patient));
    UpdateUpserts(st.series, k.series, SeriesRowOf(ds, k.study));
    UpdateUpserts(st.instances, k.sop, InstanceRowOf(ds, k.series));
    st.(
      patients := st.patients[k.patient := PatientRowOf(ds)],
      studies := st.studies[k.study := StudyRowOf(ds, k.patient)],
      series := st.series[k.series := SeriesRowOf(ds, k.study)],
      instances := st.instances[k.sop := InstanceRowOf(ds, k.series)])
  }

  /** The contour map of a structure-set record, or the `TypeError` of
      iterating a ROIContourSequence that is a number. */
  function ContoursOf(ds: Dataset): (r: Result<map<Value, seq<Contour>>>)
    ensures NotAContainer(Get(ds, "ROIContourSequence", Multi([]))) ==> r == Err(WrongType)
    ensures !NotAContainer(Get(ds, "ROIContourSequence", Multi([]))) ==>
      r == ContourMap(SeqItems(Get(ds, "ROIContourSequence", Multi([]))))
    ensures r.Err? ==> r.msg == WrongType
  {
    if NotAContainer(Get(ds, "ROIContourSequence", Multi([]))) then Err(WrongType)
    else ContourMap(SeqItems(Get(ds, "ROIContourSequence", Multi([]))))
  }

  /** The payload of a record raises: a geometry list of an image that
      `list()` rejects; for a structure set, a `len()` in its row, a loop
      over its contours or its contour data, or the loop over its declared
      ROIs, meeting a value of the wrong kind. */
  predicate PayloadFails(ds: Dataset) {
    var modality := Get(ds, "Modality", Null);
    || (IsImageModality(modality) && ImageRowOf(ds).Err?)
    || (modality == RtStruct && StructurePayloadFails(ds))
  }

  predicate StructurePayloadFails(ds: Dataset) {
    || StructureSetRowOf(ds).Err?
    || ContoursOf(ds).Err?
    || NotAContainer(Get(ds, "StructureSetROISequence", Multi([])))
  }

  /** The modality payload of instance `sop`: image information for an
      image, the structure set and its ROIs for RTSTRUCT, nothing otherwise;
      or the error that rolls the whole block back. */
  function UpsertPayload(ds: Dataset, sop: Value, st: Store): (r: Result<Store>)
    ensures r.Err? <==> PayloadFails(ds)
    ensures r.Err? ==> r.msg == WrongType
    ensures r.Ok? ==> r.value.patients == st.patients && r.value.studies == st.studies
    ensures r.Ok? ==> r.value.series == st.series && r.value.instances == st.instances
    ensures r.Ok? && IsImageModality(Get(ds, "Modality", Null)) ==>
      && Upserted(st.images, r.value.images, sop, ImageRowOf(ds).value)
      && r.value.structureSets == st.structureSets && r.value.rois == st.rois
    ensures r.Ok? && Get(ds, "Modality", Null) == RtStruct ==>
      && Upserted(st.structureSets, r.value.structureSets, sop, StructureSetRowOf(ds).value)
      && r.value.images == st.images
      && r.value.rois == st.rois + RoiWrites(sop, DeclaredRois(ds), ContoursOf(ds).value)
    ensures !IsImageModality(Get(ds, "Modality", Null)) && Get(ds, "Modality", Null) != RtStruct ==> r == Ok(st)
  {
    var modality := Get(ds, "Modality", Null);
    if IsImageModality(modality) then
      match ImageRowOf(ds)
      case Err(e) => Err(e)
      case Ok(row) =>
        UpdateUpserts(st.images, sop, row);
        Ok(st.(images := st.images[sop := row]))
    else if modality == RtStruct then
      match StructureSetRowOf(ds)
      case Err(e) => Err(e)
      case Ok(row) =>
        match ContoursOf(ds)
        case Err(e) => Err(e)
        case Ok(contours) =>
          if NotAContainer(Get(ds, "StructureSetROISequence", Multi([]))) then Err(WrongType)
          else
            UpdateUpserts(st.structureSets, sop, row);
            ApplyRoisIsOverwrite(st.rois, sop, DeclaredRois(ds), contours);
            Ok(st.(
              structureSets := st.structureSets[sop := row],
              rois := ApplyRois(st.rois, sop, DeclaredRois(ds), contours)))
    else Ok(st)
  }

  /** The atomic block of `process_single_dicom_file`: every upsert of the
      file, or (on a missing key or a payload that raises) an error and no
      change at all. */
  function ReconcileFile(ds: Dataset, st: Store): (r: Result<Store>)
    ensures r.Err? <==> RequiredKeys(ds).Err? || PayloadFails(ds)
    ensures RequiredKeys(ds).Err? ==> r == Err(RequiredKeys(ds).msg)
    ensures RequiredKeys(ds).Ok? && PayloadFails(ds) ==> r == Err(WrongType)
    ensures r.Ok? ==>
      var k := RequiredKeys(ds).value;
      && Upserted(st.patients, r.value.patients, k.patient, PatientRowOf(ds))
      && Upserted(st.studies, r.value.studies, k.study, StudyRowOf(ds, k.patient))
      && Upserted(st.series, r.value.series, k.series, SeriesRowOf(ds, k.study))
      && Upserted(st.instances, r.value.instances, k.sop, InstanceRowOf(ds, k.series))
    ensures r.Ok? && IsImageModality(Get(ds, "Modality", Null)) ==>
      && Upserted(st.images, r.value.images, RequiredKeys(ds).value.sop, ImageRowOf(ds).value)
      && r.value.structureSets == st.structureSets && r.value.rois == st.rois
    ensures r.Ok? && Get(ds, "Modality", Null) == RtStruct ==>
      var sop := RequiredKeys(ds).value.sop;
      && Upserted(st.structureSets, r.value.structureSets, sop, StructureSetRowOf(ds).value)
      && r.value.structureSets[sop].template == None
      && r.value.images == st.images
      && r.value.rois == st.rois + RoiWrites(sop, DeclaredRois(ds), ContoursOf(ds).value)
    ensures r.Ok? && !IsImageModality(Get(ds, "Modality", Null)) && Get(ds, "Modality", Null) != RtStruct ==>
      r.value.images == st.images && r.value.structureSets == st.structureSets && r.value.rois == st.rois
  {
    match RequiredKeys(ds)
    case Err(e) => Err(e)
    case Ok(k) => UpsertPayload(ds, k.sop, UpsertHierarchy(ds, k, st))
  }

  /** ROI rows of other structure sets survive reconciling a structure set. */
  lemma OtherRoisKept(ds: Dataset, st: Store, key: (Value, Value))
    requires ReconcileFile(ds, st).Ok? && Get(ds, "Modality", Null) == RtStruct
    requires key in st.rois && key.0 != RequiredKeys(ds).value.sop
    ensures key in ReconcileFile(ds, st).value.rois
    ensures ReconcileFile(ds, st).value.rois[key] == st.rois[key]
  {
  }

  /** Reconciling a record a second time changes nothing: one row per key
      at every level, holding the values of the (identical) last run. */
  lemma ReconcileIdempotent(ds: Dataset, st: Store)
    requires ReconcileFile(ds, st).Ok?
    ensures ReconcileFile(ds, ReconcileFile(ds, st).value) == ReconcileFile(ds, st)
  {
    var k := RequiredKeys(ds).value;
    var h := UpsertHierarchy(ds, k, st);
    assert ReconcileFile(ds, st) == UpsertPayload(ds, k.sop, h);
    var once := UpsertPayload(ds, k.sop, h).value;
    HierarchyTwice(ds, k, st);
    HierarchySettled(ds, k, h, once);
    PayloadTwice(ds, k.sop, once, h);
    assert ReconcileFile(ds, once) == UpsertPayload(ds, k.sop, UpsertHierarchy(ds, k, once));
  }

  /** The hierarchy upserts are idempotent. */
  lemma HierarchyTwice(ds: Dataset, k: Keys, st: Store)
    ensures UpsertHierarchy(ds, k, UpsertHierarchy(ds, k, st)) == UpsertHierarchy(ds, k, st)
  {
    UpdateTwice(st.patients, k.patient, PatientRowOf(ds));
    UpdateTwice(st.studies, k.study, StudyRowOf(ds, k.patient));
    UpdateTwice(st.series, k.series, SeriesRowOf(ds, k.study));
    UpdateTwice(st.instances, k.sop, InstanceRowOf(ds, k.series));
  }

  /** The hierarchy upserts change nothing on a store whose four hierarchy
      maps already hold their results. */
  lemma HierarchySettled(ds: Dataset, k: Keys, h: Store, once: Store)
    requires h == UpsertHierarchy(ds, k, h)
    requires once.patients == h.patients && once.studies == h.studies
    requires once.series == h.series && once.instances == h.instances
    ensures UpsertHierarchy(ds, k, once) == once
  {
  }

  /** Running the payload upserts on their own output changes nothing. */
  lemma PayloadTwice(ds: Dataset, sop: Value, once: Store, h: Store)
    requires UpsertPayload(ds, sop, h) == Ok(once)
    ensures UpsertPayload(ds, sop, once) == Ok(once)
  {
    var modality := Get(ds, "Modality", Null);
    if IsImageModality(modality) {
      ImagePayloadTwice(ds, sop, once, h);
    } else if modality == RtStruct {
      StructurePayloadTwice(ds, sop, once, h);
    }
  }

  lemma ImagePayloadTwice(ds: Dataset, sop: Value, once: Store, h: Store)
    requires IsImageModality(Get(ds, "Modality", Null))
    requires UpsertPayload(ds, sop, h) == Ok(once)
    ensures UpsertPayload(ds, sop, once) == Ok(once)
  {
    var row := ImageRowOf(ds).value;
    ImagePayload(ds, sop, h);
    ImagePayload(ds, sop, once);
    UpdateTwice(h.images, sop, row);
  }

  lemma StructurePayloadTwice(ds: Dataset, sop: Value, once: Store, h: Store)
    requires Get(ds, "Modality", Null) == RtStruct
    requires UpsertPayload(ds, sop, h) == Ok(once)
    ensures UpsertPayload(ds, sop, once) == Ok(once)
  {
    var row := StructureSetRowOf(ds).value;
    var w := RoiWrites(sop, DeclaredRois(ds), ContoursOf(ds).value);
    StructurePayload(ds, sop, h);
    StructurePayload(ds, sop, once);
    UpdateTwice(h.structureSets, sop, row);
    MergeTwice(h.rois, w);
  }

  lemma UpdateTwice<K, V>(m: map<K, V>, k: K, v: V)
    ensures m[k := v][k := v] == m[k := v]
  {
  }

  lemma MergeTwice<K, V>(m: map<K, V>, w: map<K, V>)
    ensures (m + w) + w == m + w
  {
  }

  /** The image payload as one update of the image map. */
  lemma ImagePayload(ds: Dataset, sop: Value, st: Store)
    requires IsImageModality(Get(ds, "Modality", Null)) && ImageRowOf(ds).Ok?
    ensures UpsertPayload(ds, sop, st) == Ok(st.(images := st.images[sop := ImageRowOf(ds).value]))
  {
  }

  /** The structure-set payload as one update of the structure-set map and
      one merge of the ROI writes. */
  lemma StructurePayload(ds: Dataset, sop: Value, st: Store)
    requires Get(ds, "Modality", Null) == RtStruct && !StructurePayloadFails(ds)
    ensures UpsertPayload(ds, sop, st) == Ok(st.(
      structureSets := st.structureSets[sop := StructureSetRowOf(ds).value],
      rois := st.rois + RoiWrites(sop, DeclaredRois(ds), ContoursOf(ds).value)))
  {
    ApplyRoisIsOverwrite(st.rois, sop, DeclaredRois(ds), ContoursOf(ds).value);
  }

  /** Referential integrity of the store: every row's parent exists, and
      every payload row belongs to an instance (the foreign keys of the
      schema). */
  ghost predicate Linked(st: Store) {
    && (forall u :: u in st.studies ==> st.studies[u].patient in st.patients)
    && (forall u :: u in st.series ==> st.series[u].study in st.studies)
    && (forall u :: u in st.instances ==> st.instances[u].series in st.series)
    && st.images.Keys <= st.instances.Keys
    && st.structureSets.Keys <= st.instances.Keys
    && (forall key :: key in st.rois ==> key.0 in st.structureSets)
  }

  /** A file's upserts never leave a dangling reference behind. */
  lemma ReconcileKeepsLinks(ds: Dataset, st: Store)
    requires Linked(st) && ReconcileFile(ds, st).Ok?
    ensures Linked(ReconcileFile(ds, st).value)
  {
    var k := RequiredKeys(ds).value;
    HierarchyKeepsLinks(ds, k, st);
    PayloadKeepsLinks(ds, k.sop, UpsertHierarchy(ds, k, st));
  }

  lemma HierarchyKeepsLinks(ds: Dataset, k: Keys, st: Store)
    requires Linked(st)
    ensures Linked(UpsertHierarchy(ds, k, st))
    ensures k.sop in UpsertHierarchy(ds, k, st).instances
  {
    var r := UpsertHierarchy(ds, k, st);
    forall u | u in r.studies
      ensures r.studies[u].patient in r.patients
    {
      if u != k.study {
        assert r.studies[u] == st.studies[u];
      }
    }
    forall u | u in r.series
      ensures r.series[u].study in r.studies
    {
      if u != k.series {
        assert r.series[u] == st.series[u];
      }
    }
    forall u | u in r.instances
      ensures r.instances[u].series in r.series
    {
      if u != k.sop {
        assert r.instances[u] == st.instances[u];
      }
    }
  }

  lemma PayloadKeepsLinks(ds: Dataset, sop: Value, st: Store)
    requires Linked(st) && sop in st.instances && UpsertPayload(ds, sop, st).Ok?
    ensures Linked(UpsertPayload(ds, sop, st).value)
  {
    var r := UpsertPayload(ds, sop, st).value;
    if Get(ds, "Modality", Null) == RtStruct {
      var w := RoiWrites(sop, DeclaredRois(ds), ContoursOf(ds).value);
      forall key | key in r.rois
        ensures key.0 in r.structureSets
      {
        if key in w {
          assert key.0 == sop;
        }
      }
    }
  }
}

=== FILE: sanitize.dfy ===
/** `sanitize_path_component`: turning an arbitrary tag value into one safe
    directory or file name. */
module PathSafety {
  import opened Text
  import opened Tags

  /** Longest result kept (the source's 200-character cap). */
  const MaxLength: nat := 200

  /** `\w` of the replacement pattern, read as ASCII `[A-Za-z0-9_]`. */
  predicate IsWordChar(c: char) {
    ('a' <= c <= 'z') || ('A' <= c <= 'Z') || ('0' <= c <= '9') || c == '_'
  }

  /** Characters the pattern `[^\w\.\-]` leaves in place. */
  predicate IsKeptChar(c: char) {
    IsWordChar(c) || c == '.' || c == '-'
  }

  /** Characters the second `strip('._')` removes. */
  predicate IsDotOrUnderscore(c: char) {
    c == '.' || c == '_'
  }

  /** Python `str.isspace()`: the characters a bare `strip()` removes. */
  predicate IsPySpace(c: char) {
    var n := c as int;
    n == 32 || (9 <= n <= 13) || (28 <= n <= 31) || n == 0x85 || n == 0xA0
    || n == 0x1680 || (0x2000 <= n <= 0x200A) || n == 0x2028 || n == 0x2029
    || n == 0x202F || n == 0x205F || n == 0x3000
  }

  /** The two character sets the sanitiser strips from the ends. */
  datatype StripSet = Whitespace | DotsAndUnderscores

  predicate InSet(c: char, k: StripSet) {
    match k
    case Whitespace => IsPySpace(c)
    case DotsAndUnderscores => IsDotOrUnderscore(c)
  }

  /** `s` without its leading characters in `p`. */
  function DropLeading(s: string, p: StripSet): (r: string)
    ensures |r| <= |s|
    ensures r == [] || !InSet(r[0], p)
  {
    if s != [] && InSet(s[0], p) then DropLeading(s[1..], p) else s
  }

  /** `s` without its trailing characters in `p`. */
  function DropTrailing(s: string, p: StripSet): (r: string)
    ensures |r| <= |s|
    ensures r == [] || !InSet(r[|r| - 1], p)
  {
    if s != [] && InSet(s[|s| - 1], p) then DropTrailing(s[..|s| - 1], p) else s
  }

  /** What `DropLeading` keeps is a suffix, what `DropTrailing` keeps a
      prefix, of its argument. */
  lemma DropsKeepInfix(s: string, p: StripSet)
    ensures DropLeading(s, p) == s[|s| - |DropLeading(s, p)|..]
    ensures DropTrailing(s, p) == s[..|DropTrailing(s, p)|]
  {
    DropLeadingSuffix(s, p);
    DropTrailingPrefix(s, p);
  }

  lemma {:induction false} DropLeadingSuffix(s: string, p: StripSet)
    ensures DropLeading(s, p) == s[|s| - |DropLeading(s, p)|..]
  {
    if s != [] && InSet(s[0], p) {
      var t := s[1..];
      DropLeadingSuffix(t, p);
      assert DropLeading(s, p) == DropLeading(t, p);
      assert t[|t| - |DropLeading(t, p)|..] == s[|s| - |DropLeading(t, p)|..];
    } else {
      assert s[0..] == s;
    }
  }

  lemma {:induction false} DropTrailingPrefix(s: string, p: StripSet)
    ensures DropTrailing(s, p) == s[..|DropTrailing(s, p)|]
  {
    if s != [] && InSet(s[|s| - 1], p) {
      var t := s[..|s| - 1];
      DropTrailingPrefix(t, p);
      assert DropTrailing(s, p) == DropTrailing(t, p);
      assert t[..|DropTrailing(t, p)|] == s[..|DropTrailing(t, p)|];
    } else {
      assert s[..|s|] == s;
    }
  }

  /** Python `s.strip(chars)` for the character set `p`. */
  function Strip(s: string, p: StripSet): (r: string)
    ensures r == [] || (!InSet(r[0], p) && !InSet(r[|r| - 1], p))
  {
    DropsKeepInfix(DropLeading(s, p), p);
    DropTrailing(DropLeading(s, p), p)
  }

  /** `re.sub(r'[^\w\.\-]', '_', s)`. */
  function ReplaceUnsafe(s: string): (r: string)
    ensures |r| == |s|
    ensures forall i :: 0 <= i < |r| ==> IsKeptChar(r[i])
  {
    if s == [] then [] else [if IsKeptChar(s[0]) then s[0] else '_'] + ReplaceUnsafe(s[1..])
  }

  /** The stripped, replaced and trimmed text, before the length cap. */
  function Cleaned(s: string): string {
    Strip(ReplaceUnsafe(Strip(s, Whitespace)), DotsAndUnderscores)
  }

  /** What is left after cleaning holds only kept characters and neither
      starts nor ends with a dot or underscore. */
  lemma CleanedShape(s: string)
    ensures var c := Cleaned(s);
      && (forall i :: 0 <= i < |c| ==> IsKeptChar(c[i]))
      && (c == [] || (!IsDotOrUnderscore(c[0]) && !IsDotOrUnderscore(c[|c| - 1])))
  {
    var a := ReplaceUnsafe(Strip(s, Whitespace));
    StripKeepsKept(a, DotsAndUnderscores);
    assert Cleaned(s) == Strip(a, DotsAndUnderscores);
  }

  predicate AllKept(s: string) {
    forall i :: 0 <= i < |s| ==> IsKeptChar(s[i])
  }

  /** Stripping a string of kept characters leaves only kept characters. */
  lemma StripKeepsKept(a: string, p: StripSet)
    requires AllKept(a)
    ensures AllKept(Strip(a, p))
  {
    DropLeadingKept(a, p);
    DropTrailingKept(DropLeading(a, p), p);
  }

  lemma {:induction false} DropLeadingKept(a: string, p: StripSet)
    requires AllKept(a)
    ensures AllKept(DropLeading(a, p))
  {
    if a != [] && InSet(a[0], p) {
      var t := a[1..];
      assert AllKept(t) by {
        forall i | 0 <= i < |t| ensures IsKeptChar(t[i]) {
          assert t[i] == a[i + 1];
        }
      }
      DropLeadingKept(t, p);
    }
  }

  lemma {:induction false} DropTrailingKept(a: string, p: StripSet)
    requires AllKept(a)
    ensures AllKept(DropTrailing(a, p))
  {
    if a != [] && InSet(a[|a| - 1], p) {
      var t := a[..|a| - 1];
      assert AllKept(t) by {
        forall i | 0 <= i < |t| ensures IsKeptChar(t[i]) {
          assert t[i] == a[i];
        }
      }
      DropTrailingKept(t, p);
    }
  }

  /** A single path component that cannot escape its parent directory: a
      non-empty run of word characters, dots and hyphens, at most 200 long,
      never starting with a dot or underscore (so never `.` or `..`). */
  predicate IsSafeComponent(r: string) {
    && 0 < |r| <= MaxLength
    && (forall i :: 0 <= i < |r| ==> IsKeptChar(r[i]))
    && !IsDotOrUnderscore(r[0])
  }

  /** A safe component that also does not end in a dot or underscore, which
      is what an untruncated sanitiser result looks like. */
  predicate IsTrimmedComponent(r: string) {
    IsSafeComponent(r) && !IsDotOrUnderscore(r[|r| - 1])
  }

  /** `sanitize_path_component(value, default)`. */
  function SanitizePathComponent(v: Value, default: string): (r: string)
    ensures !Truthy(v) ==> r == default
    ensures r == default || IsSafeComponent(r)
    ensures default != "" ==> r != ""
    ensures r != default && |r| < MaxLength ==> IsTrimmedComponent(r)
  {
    if !Truthy(v) then default
    else
      CleanedShape(Render(v));
      CappedShape(Cleaned(Render(v)), default);
      Capped(Cleaned(Render(v)), default)
  }

  /** The cap and the final fallback to the default. */
  function Capped(t: string, default: string): string {
    var u := if |t| > MaxLength then t[..MaxLength] else t;
    if u == "" then default else u
  }

  /** Capping a cleaned text keeps it a safe component, and a trimmed one
      when nothing was cut. */
  lemma CappedShape(t: string, default: string)
    requires forall i :: 0 <= i < |t| ==> IsKeptChar(t[i])
    requires t == [] || (!IsDotOrUnderscore(t[0]) && !IsDotOrUnderscore(t[|t| - 1]))
    ensures t == [] ==> Capped(t, default) == default
    ensures t != [] ==> IsSafeComponent(Capped(t, default))
    ensures t != [] && |t| <= MaxLength ==> Capped(t, default) == t && IsTrimmedComponent(t)
    ensures t != [] && |t| > MaxLength ==> Capped(t, default) == t[..MaxLength]
  {
  }

  /** The result is the default when the value is falsy or nothing is left
      after stripping; otherwise it is the cleaned text, cut to the
      cap. In particular only a result cut by the cap can end in `.` or `_`. */
  lemma SanitizeCases(v: Value, default: string)
    ensures !Truthy(v) || Cleaned(Render(v)) == "" ==> SanitizePathComponent(v, default) == default
    ensures Truthy(v) && Cleaned(Render(v)) != "" ==>
      var c, r := Cleaned(Render(v)), SanitizePathComponent(v, default);
      && StartsWith(c, r)
      && |r| == (if |c| > MaxLength then MaxLength else |c|)
      && (|c| <= MaxLength ==> IsTrimmedComponent(r))
  {
    if Truthy(v) && Cleaned(Render(v)) != "" {
      var c := Cleaned(Render(v));
      CleanedShape(Render(v));
      CappedShape(c, default);
      assert SanitizePathComponent(v, default) == Capped(c, default);
    }
  }

  /** A component that is already safe and trimmed passes through unchanged,
      so sanitising is idempotent on every untruncated result. */
  lemma {:induction false} SafeComponentIsFixed(s: string, default: string)
    requires IsTrimmedComponent(s)
    ensures SanitizePathComponent(Str(s), default) == s
  {
    assert Cleaned(s) == s by {
      assert Strip(s, Whitespace) == s by {
        KeptIsNotSpace(s[0]);
        KeptIsNotSpace(s[|s| - 1]);
      }
      ReplaceKeepsKept(s);
      assert Strip(s, DotsAndUnderscores) == s;
    }
    assert Capped(s, default) == s;
    assert Render(Str(s)) == s;
  }

  lemma {:induction false} ReplaceKeepsKept(s: string)
    requires forall i :: 0 <= i < |s| ==> IsKeptChar(s[i])
    ensures ReplaceUnsafe(s) == s
  {
    if s != [] {
      ReplaceKeepsKept(s[1..]);
    }
  }

  lemma KeptIsNotSpace(c: char)
    requires IsKeptChar(c)
    ensures !IsPySpace(c)
  {
  }

  /** Re-sanitising an untruncated result gives it back. */
  lemma SanitizeIdempotent(v: Value, default: string)
    requires SanitizePathComponent(v, default) != default
    requires |SanitizePathComponent(v, default)| < MaxLength
    ensures var r := SanitizePathComponent(v, default);
      SanitizePathComponent(Str(r), default) == r
  {
    SafeComponentIsFixed(SanitizePathComponent(v, default), default);
  }

  /** A traversal attempt collapses to a single harmless name. */
  lemma TraversalIsNeutralised()
    ensures SanitizePathComponent(Str("../../etc"), "unknown_patient") == "etc"
  {
    TraversalCleaned();
    assert Capped("etc", "unknown_patient") == "etc";
  }

  lemma TraversalCleaned()
    ensures Cleaned("../../etc") == "etc"
  {
    NoSpaceToStrip();
    TraversalReplaced();
    SeparatorsStripped();
  }

  lemma NoSpaceToStrip()
    ensures Strip("../../etc", Whitespace) == "../../etc"
  {
    var s := "../../etc";
    assert !IsPySpace(s[0]) && !IsPySpace(s[|s| - 1]);
    assert DropLeading(s, Whitespace) == s;
    assert DropTrailing(s, Whitespace) == s;
  }

  lemma SeparatorsStripped()
    ensures Strip(".._.._etc", DotsAndUnderscores) == "etc"
  {
    LeadingSeparatorsDropped();
    assert DropTrailing("etc", DotsAndUnderscores) == "etc";
  }

  lemma TraversalReplaced()
    ensures ReplaceUnsafe("../../etc") == ".._.._etc"
  {
    ReplacedCharwise("../../etc", ".._.._etc");
  }

  /** The substitution is characterwise: `t` is its result exactly when
      every character of `s` is kept or becomes `_` in place. */
  lemma ReplacedCharwise(s: string, t: string)
    requires |s| == |t|
    requires forall i :: 0 <= i < |s| ==> t[i] == if IsKeptChar(s[i]) then s[i] else '_'
    ensures ReplaceUnsafe(s) == t
  {
    forall i | 0 <= i < |s| ensures ReplaceUnsafe(s)[i] == t[i] {
      ReplaceAt(s, i);
    }
  }

  /** Each character is kept or becomes `_`, in place. */
  lemma {:induction false} ReplaceAt(s: string, i: nat)
    requires i < |s|
    ensures ReplaceUnsafe(s)[i] == if IsKeptChar(s[i]) then s[i] else '_'
  {
    if i > 0 {
      ReplaceAt(s[1..], i - 1);
    }
  }

  lemma LeadingSeparatorsDropped()
    ensures DropLeading(".._.._etc", DotsAndUnderscores) == "etc"
  {
    DropLeadingRun(".._.._etc", DotsAndUnderscores, 6);
    assert ".._.._etc"[6..] == "etc";
  }

  /** Dropping a leading run of `k` characters of the set, followed by one
      outside it (or by the end), leaves exactly the rest. */
  lemma {:induction false} DropLeadingRun(s: string, p: StripSet, k: nat)
    requires k <= |s|
    requires forall i :: 0 <= i < k ==> InSet(s[i], p)
    requires k == |s| || !InSet(s[k], p)
    ensures DropLeading(s, p) == s[k..]
  {
    if k > 0 {
      var t := s[1..];
      forall i | 0 <= i < k - 1 ensures InSet(t[i], p) {
        assert t[i] == s[i + 1];
      }
      DropLeadingRun(t, p, k - 1);
      assert t[k - 1..] == s[k..];
    }
  }
}

=== FILE: tags.dfy ===
/** The tag reader: a decoded DICOM record as an immutable map from tag
    keyword to value, the accessors the ingestion code uses on it, and the
    two value normalisers (dates and patient sex). */
module Tags {
  import opened Wrappers
  import opened Text

  /** One element value. `Null` is Python `None`; `Multi` a multi-valued
      element (`MultiValue`); `Sq` a sequence of nested items (VR SQ). */
  datatype Value =
    | Null
    | Str(s: string)
    | Int(i: int)
    | Multi(items: seq<Value>)
    | Sq(datasets: seq<Dataset>)

  /** A decoded record: tag keyword (`PatientID`, `ROIContourSequence`, ...)
      to value. A keyword that is not a key is an absent attribute. */
  datatype Dataset = Dataset(tags: map<string, Value>)

  /** Python truthiness of a value (`if value:`). */
  predicate Truthy(v: Value) {
    match v
    case Null => false
    case Str(s) => s != ""
    case Int(i) => i != 0
    case Multi(xs) => xs != []
    case Sq(ds) => ds != []
  }

  /** A stored value that `get_dicom_value` does not replace by its default. */
  predicate IsSet(v: Value) {
    v != Null && v != Str("")
  }

  /** `get_dicom_value(dataset, tag, default)`: the stored value, unless the
      attribute is absent, `None` or the empty string. */
  function Get(ds: Dataset, tag: string, default: Value): (r: Value)
    ensures tag in ds.tags && IsSet(ds.tags[tag]) ==> r == ds.tags[tag]
    ensures (tag !in ds.tags || !IsSet(ds.tags[tag])) ==> r == default
    ensures IsSet(r) || r == default
  {
    if tag in ds.tags && IsSet(ds.tags[tag]) then ds.tags[tag] else default
  }

  /** Plain `getattr(ds, tag, None)`: the stored value as is, `None` when the
      attribute is absent. */
  function Attr(ds: Dataset, tag: string): Value {
    if tag in ds.tags then ds.tags[tag] else Null
  }

  /** The items of a sequence value; any other value reads as no items. */
  function SeqItems(v: Value): seq<Dataset> {
    if v.Sq? then v.datasets else []
  }

  /** The first item of a non-empty sequence value, and nothing for any other
      value. In the source `value[0]` raises `IndexError` on an empty value,
      gives an item without DICOM attributes for a text or multi-value, and
      raises `TypeError` on a number or `None`; the callers that index model
      that last case themselves before asking for the first item. */
  function First(v: Value): Option<Dataset> {
    if v.Sq? && |v.datasets| > 0 then Some(v.datasets[0]) else None
  }

  /** The one text the model gives every `TypeError` the source can raise on
      a value of the wrong kind: `list()`, `len()`, iteration or indexing of
      a number or `None`. */
  const WrongType := "unsupported operation for this value type"

  /** A value that `for x in v` and `v[0]` reject with a `TypeError`: a
      number or `None`. */
  predicate NotAContainer(v: Value) {
    v.Int? || v.Null?
  }

  /** A value on which `len(v) if v else 0` raises a `TypeError`: a non-zero
      number (`None` and zero are falsy and never reach `len`). */
  predicate LenFails(v: Value) {
    Truthy(v) && NotAContainer(v)
  }

  /** A value that `list(v) if v else None` accepts: an empty one, a
      multi-valued element, or a text. */
  predicate Listable(v: Value) {
    !Truthy(v) || v.Multi? || v.Str?
  }

  /** `list(value)` of a multi-valued element (geometry, contour points): its
      elements; a text gives its characters; a number, `None` or a nested
      sequence raises. */
  function ListOf(v: Value): (r: Result<seq<Value>>)
    ensures r.Ok? <==> v.Multi? || v.Str?
    ensures r.Err? ==> r.msg == WrongType
    ensures v.Multi? ==> r.value == v.items
    ensures v.Str? ==> |r.value| == |v.s| && forall i :: 0 <= i < |v.s| ==> r.value[i] == Str([v.s[i]])
  {
    match v
    case Multi(xs) => Ok(xs)
    case Str(s) => Ok(Characters(s))
    case _ => Err(WrongType)
  }

  /** Iterating a string: its one-character strings. */
  function Characters(s: string): (r: seq<Value>)
    ensures |r| == |s| && forall i :: 0 <= i < |s| ==> r[i] == Str([s[i]])
  {
    if s == [] then [] else [Str([s[0]])] + Characters(s[1..])
  }

  /** `str(value)` for the values the source renders into text. */
  function Render(v: Value): string {
    match v
    case Null => "None"
    case Str(s) => s
    case Int(i) => IntText(i)
    case _ => ""
  }

  // ---------------------------------------------------------------- dates

  datatype Date = Date(year: int, month: int, day: int)

  predicate IsLeap(y: int) {
    (y % 4 == 0 && y % 100 != 0) || y % 400 == 0
  }

  function DaysInMonth(y: int, m: int): int {
    if m == 2 then (if IsLeap(y) then 29 else 28)
    else if m == 4 || m == 6 || m == 9 || m == 11 then 30
    else 31
  }

  /** A date Python's `datetime.date` accepts. */
  predicate ValidDate(d: Date) {
    1 <= d.year <= 9999 && 1 <= d.month <= 12 && 1 <= d.day <= DaysInMonth(d.year, d.month)
  }

  function Digits2(n: int): string
    requires 0 <= n < 100
  {
    [DigitChar(n / 10), DigitChar(n % 10)]
  }

  function Digits4(n: int): string
    requires 0 <= n < 10000
  {
    Digits2(n / 100) + Digits2(n % 100)
  }

  /** The DICOM DA text `YYYYMMDD` of a date. */
  function DateText(d: Date): (s: string)
    requires ValidDate(d)
    ensures |s| == 8 && AllDigits(s)
  {
    Digits4(d.year) + Digits2(d.month) + Digits2(d.day)
  }

  function Value2(s: string): int
    requires |s| == 2 && AllDigits(s)
  {
    10 * DigitValue(s[0]) + DigitValue(s[1])
  }

  /** The date an eight-digit text spells field by field (not yet checked
      for validity). */
  function DateOf8(s: string): Date
    requires |s| == 8 && AllDigits(s)
  {
    Date(100 * Value2(s[..2]) + Value2(s[2..4]), Value2(s[4..6]), Value2(s[6..]))
  }

  /** `datetime.strptime(s, '%Y%m%d').date()` on eight digits, or `None`
      when the text is not a date. */
  function ParseDate8(s: string): (r: Option<Date>)
    ensures r.Some? ==> ValidDate(r.value) && s == DateText(r.value)
  {
    if |s| == 8 && AllDigits(s) && ValidDate(DateOf8(s)) then
      DateOf8Text(s);
      Some(DateOf8(s))
    else None
  }

  /** Writing back the date an eight-digit text spells gives the text. */
  lemma DateOf8Text(s: string)
    requires |s| == 8 && AllDigits(s) && ValidDate(DateOf8(s))
    ensures DateText(DateOf8(s)) == s
  {
    var a, b, c, e := s[..2], s[2..4], s[4..6], s[6..];
    Digits2Inverse(a);
    Digits2Inverse(b);
    Digits2Inverse(c);
    Digits2Inverse(e);
    var year := 100 * Value2(a) + Value2(b);
    assert year / 100 == Value2(a) && year % 100 == Value2(b);
    assert Digits4(year) == a + b;
    assert s == a + b + c + e;
  }

  lemma Digits2Inverse(s: string)
    requires |s| == 2 && AllDigits(s)
    ensures 0 <= Value2(s) < 100 && Digits2(Value2(s)) == s
  {
    var a, b := DigitValue(s[0]), DigitValue(s[1]);
    assert (10 * a + b) / 10 == a && (10 * a + b) % 10 == b;
  }

  lemma Value2Inverse(n: int)
    requires 0 <= n < 100
    ensures Value2(Digits2(n)) == n
  {
  }

  /** Reading back the text of a valid date gives the date. */
  lemma DateRoundTrip(d: Date)
    requires ValidDate(d)
    ensures ParseDate8(DateText(d)) == Some(d)
  {
    var s := DateText(d);
    assert s[..2] == Digits2(d.year / 100);
    assert s[2..4] == Digits2(d.year % 100);
    assert s[4..6] == Digits2(d.month);
    assert s[6..] == Digits2(d.day);
    Value2Inverse(d.year / 100);
    Value2Inverse(d.year % 100);
    Value2Inverse(d.month);
    Value2Inverse(d.day);
  }

  /** `parse_dicom_date`: no date for an empty value, never an exception,
      and a date only for text that spells one. */
  function ParseDicomDate(v: Value): (r: Option<Date>)
    ensures !Truthy(v) ==> r == None
    ensures r.Some? ==> ValidDate(r.value) && Render(v) == DateText(r.value)
  {
    if !Truthy(v) then None
    else match v
      case Str(s) => ParseDate8(s)
      case Int(i) => ParseDate8(IntText(i))
      case _ => None
  }

  /** `datetime.strptime(value, '%Y%m%d')` guarded by a bare `except` on a
      value that is not known to be text (training path, no `str()` call). */
  function ParseDateText(v: Value): (r: Option<Date>)
    ensures !v.Str? ==> r == None
    ensures r.Some? ==> ValidDate(r.value) && v == Str(DateText(r.value))
  {
    if v.Str? && Truthy(v) then ParseDate8(v.s) else None
  }

  // ---------------------------------------------------------------- sex

  /** `GenderChoices`: stored as 'male', 'female', 'other'. */
  datatype Gender = Male | Female | Other

  /** `map_patient_sex`: the upper-cased DICOM code M, F or O. */
  function MapPatientSex(v: Value): (r: Option<Gender>)
    ensures r == Some(Male) <==> v == Str("M") || v == Str("m")
    ensures r == Some(Female) <==> v == Str("F") || v == Str("f")
    ensures r == Some(Other) <==> v == Str("O") || v == Str("o")
    ensures !Truthy(v) ==> r == None
  {
    if !Truthy(v) then None
    else match v
      case Str(s) =>
        if s == "M" || s == "m" then Some(Male)
        else if s == "F" || s == "f" then Some(Female)
        else if s == "O" || s == "o" then Some(Other)
        else None
      case _ => None
  }
}

=== FILE: text.dfy ===
/** String helpers shared by the model: decimal rendering of integers
    (Python `str(int)`), prefix/suffix/substring tests. */
module Text {

  predicate IsDigit(c: char) {
    '0' <= c <= '9'
  }

  predicate AllDigits(s: string) {
    forall i :: 0 <= i < |s| ==> IsDigit(s[i])
  }

  function DigitChar(d: nat): (c: char)
    requires d < 10
    ensures IsDigit(c)
  {
    (('0' as int) + d) as char
  }

  function DigitValue(c: char): nat
    requires IsDigit(c)
  {
    (c as int) - ('0' as int)
  }

  /** Python `str(n)` for a non-negative integer: no sign, no leading zeros. */
  function Decimal(n: nat): (s: string)
    ensures 1 <= |s| && AllDigits(s)
    decreases n
  {
    if n < 10 then [DigitChar(n)] else Decimal(n / 10) + [DigitChar(n % 10)]
  }

  /** The number a string of decimal digits denotes. */
  function DigitsValue(s: string): nat
    requires AllDigits(s)
  {
    if s == [] then 0 else DigitsValue(s[..|s| - 1]) * 10 + DigitValue(s[|s| - 1])
  }

  /** Reading back a rendered number gives the number. */
  lemma {:induction false} DecimalRoundTrip(n: nat)
    ensures DigitsValue(Decimal(n)) == n
    decreases n
  {
    if n >= 10 {
      var s := Decimal(n / 10) + [DigitChar(n % 10)];
      assert s[..|s| - 1] == Decimal(n / 10);
      DecimalRoundTrip(n / 10);
    }
  }

  /** Distinct numbers render to distinct strings. */
  lemma DecimalInjective(a: nat, b: nat)
    ensures Decimal(a) == Decimal(b) ==> a == b
  {
    DecimalRoundTrip(a);
    DecimalRoundTrip(b);
  }

  /** Python `str(i)` for any integer. */
  function IntText(i: int): string {
    if i < 0 then "-" + Decimal(-i) else Decimal(i)
  }

  predicate StartsWith(s: string, prefix: string) {
    |prefix| <= |s| && s[..|prefix|] == prefix
  }

  /** A prefix of a prefix is a prefix. */
  lemma StartsWithTrans(a: string, b: string, c: string)
    requires StartsWith(a, b) && StartsWith(b, c)
    ensures StartsWith(a, c)
  {
    assert a[..|c|] == a[..|b|][..|c|];
  }

  predicate EndsWith(s: string, suffix: string) {
    |suffix| <= |s| && s[|s| - |suffix|..] == suffix
  }

  /** Python `needle in s` for strings. */
  predicate Contains(s: string, needle: string) {
    StartsWith(s, needle) || (s != [] && Contains(s[1..], needle))
  }

  /** `c` does not occur in `s`. */
  predicate Excludes(s: string, c: char) {
    forall i :: 0 <= i < |s| ==> s[i] != c
  }
}

/** The three `os.path` functions the source relies on, with POSIX
    semantics (`/` separator). */
module PosixPath {
  import opened Text

  /** `os.path.join(a, b)`: an absolute `b` discards `a`; otherwise one `/`
      separates them unless `a` is empty or already ends in `/`. */
  function Join(a: string, b: string): (r: string)
    ensures StartsWith(b, "/") ==> r == b
    ensures !StartsWith(b, "/") ==> EndsWith(r, b) && StartsWith(r, a)
  {
    if StartsWith(b, "/") then b
    else if a == "" || EndsWith(a, "/") then a + b
    else a + "/" + b
  }

  /** Joining onto a non-empty directory that does not end in `/` a
      relative name puts exactly one `/` between them. */
  lemma JoinAppends(a: string, b: string)
    requires a != "" && a[|a| - 1] != '/'
    requires b == "" || b[0] != '/'
    ensures Join(a, b) == a + "/" + b
  {
  }

  /** Index just past the last `/` of `p` (0 when there is none). */
  function TailStart(p: string): (k: nat)
    ensures k <= |p|
    ensures k > 0 ==> p[k - 1] == '/'
    ensures forall i :: k <= i < |p| ==> p[i] != '/'
  {
    if p == [] then 0
    else if p[|p| - 1] == '/' then |p|
    else TailStart(p[..|p| - 1])
  }

  /** `os.path.basename(p)`: everything after the last `/`. */
  function Basename(p: string): (r: string)
    ensures Excludes(r, '/')
    ensures EndsWith(p, r)
    ensures |r| < |p| ==> p[|p| - |r| - 1] == '/'
  {
    p[TailStart(p)..]
  }

  /** Index of the last `.` in `s`, if any. */
  function LastDot(s: string): (r: int)
    ensures -1 <= r < |s|
    ensures r >= 0 ==> s[r] == '.'
    ensures forall i :: r < i < |s| ==> s[i] != '.'
  {
    if s == [] then -1
    else if s[|s| - 1] == '.' then |s| - 1
    else LastDot(s[..|s| - 1])
  }

  /** True when some character before index `d` is not a dot. */
  predicate HasNonDotBefore(s: string, d: int)
    requires d <= |s|
  {
    exists i | 0 <= i < d :: s[i] != '.'
  }

  /** `os.path.splitext` of a name without `/`: the extension starts at the
      last dot, unless every character before that dot is itself a dot
      (".bashrc", "..x"), in which case there is no extension. */
  function SplitExt(name: string): (r: (string, string))
    ensures r.0 + r.1 == name
    ensures r.1 == "" || r.1[0] == '.'
    ensures r.1 != "" ==> Excludes(r.1[1..], '.') && HasNonDotBefore(name, |r.0|)
    ensures LastDot(name) >= 0 && HasNonDotBefore(name, LastDot(name)) ==>
      r == (name[..LastDot(name)], name[LastDot(name)..])
    ensures !(LastDot(name) >= 0 && HasNonDotBefore(name, LastDot(name))) ==> r == (name, "")
  {
    var d := LastDot(name);
    if d >= 0 && HasNonDotBefore(name, d) then (name[..d], name[d..]) else (name, "")
  }
}

=== FILE: training.dfy ===
/** The first two phases of training-archive preparation: classifying each
    file's metadata by modality, and bucketing the records of all files
    (image records grouped by series, in file order). */
module TrainingMeta {
  import opened Wrappers
  import opened Tags

  // ------------------------------------------------------------ records

  /** `ImageTypeChoices` of the training image row. */
  datatype ImageType = CT | MR | PT

  /** The image modalities of the training path (PET is not one of them). */
  function ImageTypeOf(m: Value): (r: Option<ImageType>)
    ensures r == Some(CT) <==> m == Str("CT")
    ensures r == Some(MR) <==> m == Str("MR")
    ensures r == Some(PT) <==> m == Str("PT")
  {
    if m == Str("CT") then Some(CT)
    else if m == Str("MR") then Some(MR)
    else if m == Str("PT") then Some(PT)
    else None
  }

  /** Metadata of an image file. `sop` is the file's SOPInstanceUID
      (`None` when absent), which the layout phase learns by reading the
      file again. */
  datatype ImageRec = ImageRec(
    path: string, imageType: ImageType, seriesUid: Value, patientId: Value,
    description: Value, date: Value, sop: Value)

  /** Metadata of a structure-set file. */
  datatype StructRec = StructRec(
    path: string, seriesUid: Value, referencedSeries: Value, roiNames: seq<Value>, sop: Value)

  /** Metadata of a plan file. */
  datatype PlanRec = PlanRec(path: string, seriesUid: Value, sop: Value, referencedStruct: Value)

  /** Metadata of a dose file; `sop` is `None` when the file has no
      SOPInstanceUID at all. */
  datatype DoseRec = DoseRec(path: string, seriesUid: Value, referencedPlan: Value, sop: Option<Value>)

  /** The dictionary `read_dicom_metadata` returns, by modality. */
  datatype Meta =
    | ImageMeta(image: ImageRec)
    | StructMeta(struct: StructRec)
    | PlanMeta(plan: PlanRec)
    | DoseMeta(dose: DoseRec)
    | OtherMeta(path: string, modality: Value)

  const RtStructModality: Value := Str("RTSTRUCT")
  const RtPlanModality: Value := Str("RTPLAN")
  const RtDoseModality: Value := Str("RTDOSE")

  // ------------------------------------------------------------ references

  /** `ds.keyword[0]` inside `except (AttributeError, IndexError)`: nothing
      for a missing attribute (`AttributeError`) or an empty value
      (`IndexError`); the first item of a sequence; nothing for the first
      character or element of a text or multi-value, which has no
      attributes to read next; the `TypeError`, which that handler does not
      catch, for a number or `None`. */
  function ItemZero(ds: Dataset, keyword: string): (r: Result<Option<Dataset>>)
    ensures r.Err? <==> keyword in ds.tags && NotAContainer(ds.tags[keyword])
    ensures r.Err? ==> r.msg == WrongType
    ensures r.Ok? ==> r.value == First(Attr(ds, keyword))
  {
    if keyword in ds.tags && NotAContainer(ds.tags[keyword]) then Err(WrongType)
    else Ok(First(Attr(ds, keyword)))
  }

  /** `ds.seqTag[0].tag`, `None` when the sequence is absent or empty or its
      first item lacks the tag, or the `TypeError` of indexing a number or
      `None`. */
  function FirstItemAttr(ds: Dataset, seqTag: string, tag: string): (r: Result<Value>)
    ensures r.Err? <==> seqTag in ds.tags && NotAContainer(ds.tags[seqTag])
    ensures r.Ok? && First(Attr(ds, seqTag)).None? ==> r.value == Null
    ensures r.Ok? && First(Attr(ds, seqTag)).Some? ==> r.value == Attr(First(Attr(ds, seqTag)).value, tag)
  {
    match ItemZero(ds, seqTag)
    case Err(e) => Err(e)
    case Ok(None) => Ok(Null)
    case Ok(Some(item)) => Ok(Attr(item, tag))
  }

  /** The referenced series of a structure set: frame of reference, then
      referenced study, then referenced series, first item at each level;
      `None` when a level is missing or empty, the `TypeError` when a level
      holds a number or `None`. */
  function ReferencedSeries(ds: Dataset): (r: Result<Value>)
    ensures ItemZero(ds, "ReferencedFrameOfReferenceSequence").Err? ==> r.Err?
    ensures ItemZero(ds, "ReferencedFrameOfReferenceSequence") == Ok(None) ==> r == Ok(Null)
    ensures ItemZero(ds, "ReferencedFrameOfReferenceSequence").Ok? && First(Attr(ds, "ReferencedFrameOfReferenceSequence")).Some? ==>
      var frame := First(Attr(ds, "ReferencedFrameOfReferenceSequence")).value;
      && (ItemZero(frame, "RTReferencedStudySequence").Err? ==> r.Err?)
      && (ItemZero(frame, "RTReferencedStudySequence") == Ok(None) ==> r == Ok(Null))
      && (ItemZero(frame, "RTReferencedStudySequence").Ok? && First(Attr(frame, "RTReferencedStudySequence")).Some? ==>
            var study := First(Attr(frame, "RTReferencedStudySequence")).value;
            r == FirstItemAttr(study, "RTReferencedSeriesSequence", "SeriesInstanceUID"))
    ensures r.Err? ==> r.msg == WrongType
  {
    match ItemZero(ds, "ReferencedFrameOfReferenceSequence")
    case Err(e) => Err(e)
    case Ok(None) => Ok(Null)
    case Ok(Some(frame)) =>
      match ItemZero(frame, "RTReferencedStudySequence")
      case Err(e) => Err(e)
      case Ok(None) => Ok(Null)
      case Ok(Some(study)) => FirstItemAttr(study, "RTReferencedSeriesSequence", "SeriesInstanceUID")
  }

  /** The ROIName of every declared ROI that has one, in order. */
  function RoiNames(rois: seq<Dataset>): (r: seq<Value>)
    ensures |r| <= |rois|
  {
    if rois == [] then []
    else (if "ROIName" in rois[0].tags then [rois[0].tags["ROIName"]] else []) + RoiNames(rois[1..])
  }

  /** A name is listed exactly when some declared ROI carries it. */
  lemma {:induction false} RoiNamesMembers(rois: seq<Dataset>, v: Value)
    ensures v in RoiNames(rois) <==> exists i :: 0 <= i < |rois| && "ROIName" in rois[i].tags && rois[i].tags["ROIName"] == v
  {
    if rois != [] {
      RoiNamesMembers(rois[1..], v);
      if exists i :: 0 <= i < |rois| && "ROIName" in rois[i].tags && rois[i].tags["ROIName"] == v {
        var i :| 0 <= i < |rois| && "ROIName" in rois[i].tags && rois[i].tags["ROIName"] == v;
        if i > 0 {
          assert rois[1..][i - 1] == rois[i];
        }
      }
      if v in RoiNames(rois[1..]) {
        var i :| 0 <= i < |rois[1..]| && "ROIName" in rois[1..][i].tags && rois[1..][i].tags["ROIName"] == v;
        assert rois[1..][i] == rois[i + 1];
      }
    }
  }

  /** Collecting names is a filter in order: the names of `a + b` are those
      of `a` followed by those of `b`, and one ROI contributes its name
      when it has one. */
  lemma {:induction false} RoiNamesAppend(a: seq<Dataset>, b: seq<Dataset>)
    ensures RoiNames(a + b) == RoiNames(a) + RoiNames(b)
    ensures |a| == 1 ==> RoiNames(a) == if "ROIName" in a[0].tags then [a[0].tags["ROIName"]] else []
  {
    if a != [] {
      assert (a + b)[0] == a[0];
      assert (a + b)[1..] == a[1..] + b;
      RoiNamesAppend(a[1..], b);
      var head := if "ROIName" in a[0].tags then [a[0].tags["ROIName"]] else [];
      assert head + (RoiNames(a[1..]) + RoiNames(b)) == (head + RoiNames(a[1..])) + RoiNames(b);
      if |a| == 1 {
        assert a[1..] == [];
        assert head + [] == head;
      }
    } else {
      assert a + b == b;
    }
  }

  // ------------------------------------------------------------ reading

  /** The SOP instance UID a re-read of the file sees. */
  function SopOf(ds: Dataset): Value {
    Attr(ds, "SOPInstanceUID")
  }

  /** The `TypeError` that makes `read_dicom_metadata` give up on a record
      (its outer `except Exception`): a reference sequence, or the declared
      ROI sequence of a structure set, holding a number or `None`. */
  predicate MetadataRaises(ds: Dataset)
    requires "Modality" in ds.tags
  {
    var modality := ds.tags["Modality"];
    if ImageTypeOf(modality).Some? then false
    else if modality == RtStructModality then
      || ReferencedSeries(ds).Err?
      || ("StructureSetROISequence" in ds.tags && NotAContainer(ds.tags["StructureSetROISequence"]))
    else if modality == RtPlanModality then
      FirstItemAttr(ds, "ReferencedStructureSetSequence", "ReferencedSOPInstanceUID").Err?
    else if modality == RtDoseModality then
      FirstItemAttr(ds, "ReferencedRTPlanSequence", "ReferencedSOPInstanceUID").Err?
    else false
  }

  /** `read_dicom_metadata`: `read` is what reading the file gave (`None` when
      the reader raised). */
  function ReadMetadata(path: string, read: Option<Dataset>): (r: Option<Meta>)
    ensures r.None? <==> read.None? || "Modality" !in read.value.tags || MetadataRaises(read.value)
    ensures r.Some? ==> ModalityOf(r.value) == read.value.tags["Modality"] && PathOf(r.value) == path
    ensures r.Some? ==> (r.value.ImageMeta? <==> ImageTypeOf(ModalityOf(r.value)).Some?)
    ensures r.Some? ==> (r.value.StructMeta? <==> ModalityOf(r.value) == RtStructModality)
    ensures r.Some? ==> (r.value.PlanMeta? <==> ModalityOf(r.value) == RtPlanModality)
    ensures r.Some? ==> (r.value.DoseMeta? <==> ModalityOf(r.value) == RtDoseModality)
    ensures r.Some? && r.value.StructMeta? ==> r.value.struct.referencedSeries == ReferencedSeries(read.value).value
    ensures r.Some? && r.value.PlanMeta? ==>
      r.value.plan.referencedStruct
        == FirstItemAttr(read.value, "ReferencedStructureSetSequence", "ReferencedSOPInstanceUID").value
    ensures r.Some? && r.value.DoseMeta? ==>
      r.value.dose.referencedPlan == FirstItemAttr(read.value, "ReferencedRTPlanSequence", "ReferencedSOPInstanceUID").value
    ensures r.Some? && r.value.ImageMeta? ==>
      var ds := read.value;
      r.value.image == ImageRec(
        path, ImageTypeOf(ds.tags["Modality"]).value, Attr(ds, "SeriesInstanceUID"), Attr(ds, "PatientID"),
        Attr(ds, "SeriesDescription"), Attr(ds, "SeriesDate"), Attr(ds, "SOPInstanceUID"))
    ensures r.Some? && r.value.StructMeta? ==>
      && r.value.struct.seriesUid == Attr(read.value, "SeriesInstanceUID")
      && r.value.struct.roiNames == RoiNames(SeqItems(Attr(read.value, "StructureSetROISequence")))
      && r.value.struct.sop == Attr(read.value, "SOPInstanceUID")
    ensures r.Some? && r.value.PlanMeta? ==>
      r.value.plan.seriesUid == Attr(read.value, "SeriesInstanceUID") && r.value.plan.sop == Attr(read.value, "SOPInstanceUID")
    ensures r.Some? && r.value.DoseMeta? ==>
      && r.value.dose.seriesUid == Attr(read.value, "SeriesInstanceUID")
      && (r.value.dose.sop.Some? <==> "SOPInstanceUID" in read.value.tags)
      && (r.value.dose.sop.Some? ==> r.value.dose.sop.value == read.value.tags["SOPInstanceUID"])
  {
    match read
    case None => None
    case Some(ds) =>
      if "Modality" !in ds.tags then None
      else
        var modality := ds.tags["Modality"];
        var series := Attr(ds, "SeriesInstanceUID");
        match ImageTypeOf(modality)
        case Some(t) =>
          Some(ImageMeta(ImageRec(
            path, t, series, Attr(ds, "PatientID"), Attr(ds, "SeriesDescription"),
            Attr(ds, "SeriesDate"), SopOf(ds))))
        case None =>
          if modality == RtStructModality then
            match ReferencedSeries(ds)
            case Err(_) => None
            case Ok(referenced) =>
              if "StructureSetROISequence" in ds.tags && NotAContainer(ds.tags["StructureSetROISequence"]) then None
              else
                Some(StructMeta(StructRec(
                  path, series, referenced,
                  RoiNames(SeqItems(Attr(ds, "StructureSetROISequence"))), SopOf(ds))))
          else if modality == RtPlanModality then
            match FirstItemAttr(ds, "ReferencedStructureSetSequence", "ReferencedSOPInstanceUID")
            case Err(_) => None
            case Ok(referenced) => Some(PlanMeta(PlanRec(path, series, SopOf(ds), referenced)))
          else if modality == RtDoseModality then
            match FirstItemAttr(ds, "ReferencedRTPlanSequence", "ReferencedSOPInstanceUID")
            case Err(_) => None
            case Ok(referenced) =>
              Some(DoseMeta(DoseRec(
                path, series, referenced,
                if "SOPInstanceUID" in ds.tags then Some(ds.tags["SOPInstanceUID"]) else None)))
          else Some(OtherMeta(path, modality))
  }

  function PathOf(m: Meta): string {
    match m
    case ImageMeta(r) => r.path
    case StructMeta(r) => r.path
    case PlanMeta(r) => r.path
    case DoseMeta(r) => r.path
    case OtherMeta(p, _) => p
  }

  /** The `modality` entry of a record. */
  function ModalityOf(m: Meta): Value {
    match m
    case ImageMeta(r) => match r.imageType { case CT => Str("CT") case MR => Str("MR") case PT => Str("PT") }
    case StructMeta(_) => RtStructModality
    case PlanMeta(_) => RtPlanModality
    case DoseMeta(_) => RtDoseModality
    case OtherMeta(_, m) => m
  }

  // ------------------------------------------------------------ image groups

  /** Image records grouped by series UID, groups in order of first
      appearance (a Python dict of lists). */
  type Groups = seq<(Value, seq<ImageRec>)>

  /** No key occurs twice in an association list. */
  predicate DistinctKeys<V>(gs: seq<(Value, V)>) {
    forall i, j :: 0 <= i < j < |gs| ==> gs[i].0 != gs[j].0
  }

  /** The keys of an association list. */
  function KeysOf<V>(gs: seq<(Value, V)>): set<Value> {
    set i | 0 <= i < |gs| :: gs[i].0
  }

  /** The group of `key`, or no records. */
  function Lookup(gs: Groups, key: Value): seq<ImageRec> {
    if gs == [] then []
    else if gs[0].0 == key then gs[0].1
    else Lookup(gs[1..], key)
  }

  /** `groups[key].append(m)` on a default dict of lists. */
  function AddToGroup(gs: Groups, key: Value, m: ImageRec): (r: Groups)
    ensures |r| == |gs| || |r| == |gs| + 1
  {
    if gs == [] then [(key, [m])]
    else if gs[0].0 == key then [(key, gs[0].1 + [m])] + gs[1..]
    else [gs[0]] + AddToGroup(gs[1..], key, m)
  }

  /** Appending to a group touches that group only, and only at its end. */
  lemma {:induction false} AddToGroupLookup(gs: Groups, key: Value, m: ImageRec, k: Value)
    ensures Lookup(AddToGroup(gs, key, m), k) == Lookup(gs, k) + (if k == key then [m] else [])
  {
    if gs != [] && gs[0].0 != key {
      AddToGroupLookup(gs[1..], key, m, k);
      assert AddToGroup(gs, key, m)[1..] == AddToGroup(gs[1..], key, m);
    }
    if gs != [] && gs[0].0 == key {
      assert AddToGroup(gs, key, m)[1..] == gs[1..];
    }
  }

  /** Appending keeps the keys distinct and adds `key` to them. */
  lemma {:induction false} AddToKeysOf(gs: Groups, key: Value, m: ImageRec)
    requires DistinctKeys(gs)
    ensures DistinctKeys(AddToGroup(gs, key, m))
    ensures KeysOf(AddToGroup(gs, key, m)) == KeysOf(gs) + {key}
  {
    if gs == [] {
      assert KeysOf(AddToGroup(gs, key, m)) == {key} by {
        assert AddToGroup(gs, key, m)[0].0 == key;
      }
    } else {
      var g, t := gs[0], gs[1..];
      assert gs == [g] + t;
      DistinctCons(g, t);
      KeysCons(g, t);
      if g.0 != key {
        var rest := AddToGroup(t, key, m);
        AddToKeysOf(t, key, m);
        assert AddToGroup(gs, key, m) == [g] + rest;
        DistinctCons(g, rest);
        KeysCons(g, rest);
      } else {
        var h := (key, g.1 + [m]);
        assert AddToGroup(gs, key, m) == [h] + t;
        DistinctCons(h, t);
        KeysCons(h, t);
      }
    }
  }

  /** Keys of a list with one more entry in front. */
  lemma KeysCons<V>(g: (Value, V), gs: seq<(Value, V)>)
    ensures KeysOf([g] + gs) == {g.0} + KeysOf(gs)
  {
    var r := [g] + gs;
    forall v | v in KeysOf(r) ensures v in {g.0} + KeysOf(gs) {
      var i :| 0 <= i < |r| && r[i].0 == v;
      if i > 0 { assert gs[i - 1] == r[i]; }
    }
    forall v | v in {g.0} + KeysOf(gs) ensures v in KeysOf(r) {
      if v == g.0 {
        assert r[0].0 == v;
      } else {
        var i :| 0 <= i < |gs| && gs[i].0 == v;
        assert r[i + 1] == gs[i];
      }
    }
  }

  /** A list with one more entry in front keeps distinct keys exactly when
      the new key is not already there. */
  lemma DistinctCons<V>(g: (Value, V), gs: seq<(Value, V)>)
    ensures DistinctKeys([g] + gs) <==> DistinctKeys(gs) && g.0 !in KeysOf(gs)
  {
    var r := [g] + gs;
    if DistinctKeys(r) {
      forall i, j | 0 <= i < j < |gs| ensures gs[i].0 != gs[j].0 {
        assert r[i + 1] == gs[i] && r[j + 1] == gs[j];
      }
      forall i | 0 <= i < |gs| ensures gs[i].0 != g.0 {
        assert r[0] == g && r[i + 1] == gs[i];
      }
    }
    if DistinctKeys(gs) && g.0 !in KeysOf(gs) {
      forall i, j | 0 <= i < j < |r| ensures r[i].0 != r[j].0 {
        assert r[j] == gs[j - 1];
        if i > 0 {
          assert r[i] == gs[i - 1];
        }
      }
    }
  }

  /** A list with distinct keys has as many keys as entries. */
  lemma {:induction false} DistinctKeysCount<V>(gs: seq<(Value, V)>)
    requires DistinctKeys(gs)
    ensures |KeysOf(gs)| == |gs|
  {
    if gs != [] {
      DistinctKeysCount(gs[1..]);
      KeysCons(gs[0], gs[1..]);
      assert [gs[0]] + gs[1..] == gs;
    }
  }

  // ------------------------------------------------------------ buckets

  /** The four lists `organize_dicom_data` returns. */
  datatype Buckets = Buckets(images: Groups, structs: seq<StructRec>, plans: seq<PlanRec>, doses: seq<DoseRec>)

  /** One record into its bucket: an image only when it has a series UID,
      other modalities nowhere. */
  function Place(b: Buckets, m: Meta): Buckets {
    match m
    case ImageMeta(r) => if Truthy(r.seriesUid) then b.(images := AddToGroup(b.images, r.seriesUid, r)) else b
    case StructMeta(r) => b.(structs := b.structs + [r])
    case PlanMeta(r) => b.(plans := b.plans + [r])
    case DoseMeta(r) => b.(doses := b.doses + [r])
    case OtherMeta(_, _) => b
  }

  /** A file as the archive walk yields it: its path and what reading it gave. */
  datatype FileRead = FileRead(path: string, read: Option<Dataset>)

  /** `organize_dicom_data`: every file read in order, unreadable files and
      files without a modality dropped. */
  function OrganizeDicomData(files: seq<FileRead>): Buckets {
    if files == [] then Buckets([], [], [], [])
    else
      var b := OrganizeDicomData(files[..|files| - 1]);
      var f := files[|files| - 1];
      match ReadMetadata(f.path, f.read)
      case None => b
      case Some(m) => Place(b, m)
  }

  // ---- the reference definition: one filter per bucket

  /** The records of the readable files, in file order. */
  function Records(files: seq<FileRead>): seq<Meta> {
    if files == [] then []
    else
      var f := files[|files| - 1];
      Records(files[..|files| - 1]) + (match ReadMetadata(f.path, f.read) case Some(m) => [m] case None => [])
  }

  function ImagesIn(ms: seq<Meta>): seq<ImageRec> {
    if ms == [] then []
    else ImagesIn(ms[..|ms| - 1]) + (match ms[|ms| - 1] case ImageMeta(r) => [r] case _ => [])
  }

  function StructsIn(ms: seq<Meta>): seq<StructRec> {
    if ms == [] then []
    else StructsIn(ms[..|ms| - 1]) + (match ms[|ms| - 1] case StructMeta(r) => [r] case _ => [])
  }

  function PlansIn(ms: seq<Meta>): seq<PlanRec> {
    if ms == [] then []
    else PlansIn(ms[..|ms| - 1]) + (match ms[|ms| - 1] case PlanMeta(r) => [r] case _ => [])
  }

  function DosesIn(ms: seq<Meta>): seq<DoseRec> {
    if ms == [] then []
    else DosesIn(ms[..|ms| - 1]) + (match ms[|ms| - 1] case DoseMeta(r) => [r] case _ => [])
  }

  /** The image records with a series UID, grouped by it. */
  function GroupBySeries(rs: seq<ImageRec>): Groups {
    if rs == [] then []
    else
      var r := rs[|rs| - 1];
      var gs := GroupBySeries(rs[..|rs| - 1]);
      if Truthy(r.seriesUid) then AddToGroup(gs, r.seriesUid, r) else gs
  }

  /** The image records of one series, in file order. */
  function OfSeries(rs: seq<ImageRec>, key: Value): seq<ImageRec> {
    if rs == [] then []
    else OfSeries(rs[..|rs| - 1], key) + (if rs[|rs| - 1].seriesUid == key then [rs[|rs| - 1]] else [])
  }

  /** The buckets the reference definition gives for a record list. */
  function Partition(ms: seq<Meta>): Buckets {
    Buckets(GroupBySeries(ImagesIn(ms)), StructsIn(ms), PlansIn(ms), DosesIn(ms))
  }

  /** Placing one more record extends the partition by that record. */
  lemma PlaceExtendsPartition(ms: seq<Meta>, m: Meta)
    ensures Place(Partition(ms), m) == Partition(ms + [m])
  {
    var ms' := ms + [m];
    assert ms'[..|ms'| - 1] == ms && ms'[|ms'| - 1] == m;
    match m
    case ImageMeta(r) =>
      var images := ImagesIn(ms');
      assert images == ImagesIn(ms) + [r];
      assert images[..|images| - 1] == ImagesIn(ms);
      assert StructsIn(ms') == StructsIn(ms) + [];
      assert PlansIn(ms') == PlansIn(ms) + [];
      assert DosesIn(ms') == DosesIn(ms) + [];
    case StructMeta(r) =>
      assert ImagesIn(ms') == ImagesIn(ms) + [] == ImagesIn(ms);
      assert StructsIn(ms') == StructsIn(ms) + [r];
      assert PlansIn(ms') == PlansIn(ms) + [];
      assert DosesIn(ms') == DosesIn(ms) + [];
    case PlanMeta(r) =>
      assert ImagesIn(ms') == ImagesIn(ms) + [] == ImagesIn(ms);
      assert StructsIn(ms') == StructsIn(ms) + [];
      assert PlansIn(ms') == PlansIn(ms) + [r];
      assert DosesIn(ms') == DosesIn(ms) + [];
    case DoseMeta(r) =>
      assert ImagesIn(ms') == ImagesIn(ms) + [] == ImagesIn(ms);
      assert StructsIn(ms') == StructsIn(ms) + [];
      assert PlansIn(ms') == PlansIn(ms) + [];
      assert DosesIn(ms') == DosesIn(ms) + [r];
    case OtherMeta(_, _) =>
      assert ImagesIn(ms') == ImagesIn(ms) + [] == ImagesIn(ms);
      assert StructsIn(ms') == StructsIn(ms) + [];
      assert PlansIn(ms') == PlansIn(ms) + [];
      assert DosesIn(ms') == DosesIn(ms) + [];
  }

  /** Bucketing is a stable partition of the readable records: each bucket
      is the subsequence of records of its modality, and the image groups
      depend on the image records alone. */
  lemma {:induction false} OrganizeIsPartition(files: seq<FileRead>)
    ensures OrganizeDicomData(files) == Partition(Records(files))
  {
    if files != [] {
      var init := files[..|files| - 1];
      OrganizeIsPartition(init);
      var f := files[|files| - 1];
      match ReadMetadata(f.path, f.read)
      case None =>
        assert Records(files) == Records(init) + [];
        assert Records(files) == Records(init);
      case Some(m) =>
        PlaceExtendsPartition(Records(init), m);
    }
  }

  /** The groups have distinct keys, each a series UID that is set. */
  lemma {:induction false} GroupBySeriesShape(rs: seq<ImageRec>)
    ensures DistinctKeys(GroupBySeries(rs))
    ensures forall k :: k in KeysOf(GroupBySeries(rs)) ==> Truthy(k)
  {
    if rs != [] {
      var init := rs[..|rs| - 1];
      var r := rs[|rs| - 1];
      GroupBySeriesShape(init);
      if Truthy(r.seriesUid) {
        AddToKeysOf(GroupBySeries(init), r.seriesUid, r);
      }
    }
  }

  /** Each image group holds exactly the records of its series, in file
      order; groups exist exactly for the series that have records. */
  lemma {:induction false} GroupBySeriesContents(rs: seq<ImageRec>, key: Value)
    requires Truthy(key)
    ensures Lookup(GroupBySeries(rs), key) == OfSeries(rs, key)
    ensures key in KeysOf(GroupBySeries(rs)) <==> OfSeries(rs, key) != []
  {
    if rs != [] {
      var init := rs[..|rs| - 1];
      var r := rs[|rs| - 1];
      GroupBySeriesContents(init, key);
      GroupBySeriesShape(init);
      if Truthy(r.seriesUid) {
        AddToGroupLookup(GroupBySeries(init), r.seriesUid, r, key);
        AddToKeysOf(GroupBySeries(init), r.seriesUid, r);
      } else {
        assert r.seriesUid != key;
      }
    }
  }

  /** Files whose records agree kind by kind bucket identically: the order in
      which images, structure sets, plans and doses are interleaved in the
      archive does not matter. */
  lemma InterleavingIrrelevant(a: seq<FileRead>, b: seq<FileRead>)
    requires ImagesIn(Records(a)) == ImagesIn(Records(b))
    requires StructsIn(Records(a)) == StructsIn(Records(b))
    requires PlansIn(Records(a)) == PlansIn(Records(b))
    requires DosesIn(Records(a)) == DosesIn(Records(b))
    ensures OrganizeDicomData(a) == OrganizeDicomData(b)
  {
    OrganizeIsPartition(a);
    OrganizeIsPartition(b);
  }
}

=== FILE: training_store.dfy ===
/** The save stages of training-archive preparation and the pipeline that
    orders the phases: extract, bucket every file, lay out the organised
    copies, then save image series, structure sets (with their ROI names)
    and plan/dose pairs, each stage seeing what the previous one saved.
    The database is a value of type `TStore`. */
module TrainingStore {
  import opened Wrappers
  import opened Text
  import opened Tags
  import opened TrainingMeta
  import opened Linkage
  import opened Dicts

  // ------------------------------------------------------------ rows

  /** `TrainingImage`, keyed by series UID. */
  datatype TImage = TImage(
    archive: int, numberOfImages: nat, patientId: Value, description: Value,
    date: Option<Date>, imageType: ImageType, paths: seq<string>)

  /** `TrainingRTStructureSetFile`, keyed by its own series UID. */
  datatype TStruct = TStruct(referencedImage: Value, path: string)

  /** `TrainingRTPlanAndDoseFile`, keyed by (dose series UID, plan series UID). */
  datatype TPair = TPair(structureSet: Value, dosePath: string, planPath: string)

  /** The four training tables; an ROI row is (structure-set series UID, ROI name). */
  datatype TStore = TStore(
    images: map<Value, TImage>,
    structs: map<Value, TStruct>,
    rois: set<(Value, Value)>,
    pairs: map<(Value, Value), TPair>)

  /** Every row points at a row that exists. */
  predicate TLinked(st: TStore) {
    && (forall k :: k in st.structs ==> st.structs[k].referencedImage in st.images)
    && (forall r :: r in st.rois ==> r.0 in st.structs)
    && (forall k :: k in st.pairs ==> st.pairs[k].structureSet in st.structs)
  }

  // ------------------------------------------------------------ images

  /** The series with at least one record. */
  function NonEmptyKeys(gs: Groups): set<Value> {
    set i | 0 <= i < |gs| && gs[i].1 != [] :: gs[i].0
  }

  /** The original paths of a group's files. */
  function PathsOf(rs: seq<ImageRec>): (r: seq<string>)
    ensures |r| == |rs|
    ensures forall i :: 0 <= i < |rs| ==> r[i] == rs[i].path
  {
    seq(|rs|, i requires 0 <= i < |rs| => rs[i].path)
  }

  /** The row of one series: its size, the first image's patient,
      description, date and type, and the organised paths when the series
      was laid out. */
  function ImageRowOf(archiveId: int, key: Value, rs: seq<ImageRec>, organised: map<Value, seq<string>>): (r: TImage)
    requires rs != []
    ensures r.archive == archiveId
    ensures r.numberOfImages == |rs|
    ensures r.patientId == rs[0].patientId && r.description == rs[0].description && r.imageType == rs[0].imageType
    ensures r.date == ParseDateText(rs[0].date)
    ensures r.paths == (if key in organised then organised[key] else PathsOf(rs))
  {
    TImage(archiveId, |rs|, rs[0].patientId, rs[0].description, ParseDateText(rs[0].date), rs[0].imageType,
      if key in organised then organised[key] else PathsOf(rs))
  }

  /** `save_image_data_to_db`: one upsert per non-empty series; returns the
      new table and the series it saved. */
  function SaveImages(archiveId: int, gs: Groups, organised: map<Value, seq<string>>, images: map<Value, TImage>)
    : (r: (map<Value, TImage>, set<Value>))
    ensures r.1 == NonEmptyKeys(gs)
    ensures r.0.Keys == images.Keys + r.1
    ensures forall k :: k in images && k !in r.1 ==> r.0[k] == images[k]
  {
    if gs == [] then (images, {})
    else
      var init := gs[..|gs| - 1];
      var g := gs[|gs| - 1];
      var prev := SaveImages(archiveId, init, organised, images);
      assert NonEmptyKeys(gs) == NonEmptyKeys(init) + (if g.1 != [] then {g.0} else {}) by {
        assert forall i :: 0 <= i < |init| ==> init[i] == gs[i];
      }
      if g.1 == [] then prev
      else (prev.0[g.0 := ImageRowOf(archiveId, g.0, g.1, organised)], prev.1 + {g.0})
  }

  /** With distinct series keys, each saved series' row is built from its
      own group. */
  lemma {:induction false} SaveImagesRow(archiveId: int, gs: Groups, organised: map<Value, seq<string>>, images: map<Value, TImage>, i: nat)
    requires DistinctKeys(gs) && i < |gs| && gs[i].1 != []
    ensures SaveImages(archiveId, gs, organised, images).0[gs[i].0] == ImageRowOf(archiveId, gs[i].0, gs[i].1, organised)
  {
    if i < |gs| - 1 {
      var init := gs[..|gs| - 1];
      assert init[i] == gs[i];
      assert gs[|gs| - 1].0 != gs[i].0;
      SaveImagesRow(archiveId, init, organised, images, i);
    }
  }

  // ------------------------------------------------------------ structure sets

  /** `created_rtstructs`: structure-set series UID to the copy its row
      points at (path and the SOP UID a re-read of that path finds), in
      order of first insertion. */
  type Created = seq<(Value, StructCopy)>

  /** `created[key] = copy` on a Python dict: a present key keeps its place. */
  function Remember(created: Created, key: Value, c: StructCopy): (r: Created)
    ensures KeysOf(r) == KeysOf(created) + {key}
    ensures DistinctKeys(created) ==> DistinctKeys(r)
  {
    if created == [] then
      KeysCons((key, c), created);
      assert [(key, c)] + created == [(key, c)];
      [(key, c)]
    else if created[0].0 == key then
      assert created == [created[0]] + created[1..];
      KeysCons(created[0], created[1..]);
      KeysCons((key, c), created[1..]);
      DistinctCons(created[0], created[1..]);
      DistinctCons((key, c), created[1..]);
      [(key, c)] + created[1..]
    else
      var rest := Remember(created[1..], key, c);
      assert created == [created[0]] + created[1..];
      KeysCons(created[0], created[1..]);
      KeysCons(created[0], rest);
      DistinctCons(created[0], created[1..]);
      DistinctCons(created[0], rest);
      [created[0]] + rest
  }

  /** A key already present keeps its place and takes the new copy, every
      other entry stays as it was; a new key goes at the end. */
  lemma {:induction false} RememberPlaces(created: Created, key: Value, c: StructCopy)
    ensures key !in KeysOf(created) ==> Remember(created, key, c) == created + [(key, c)]
    ensures DistinctKeys(created) && key in KeysOf(created) ==>
      && |Remember(created, key, c)| == |created|
      && forall i :: 0 <= i < |created| ==>
           Remember(created, key, c)[i] == (if created[i].0 == key then (key, c) else created[i])
  {
    if created != [] {
      var tail := created[1..];
      assert created == [created[0]] + tail;
      KeysCons(created[0], tail);
      DistinctCons(created[0], tail);
      var r := Remember(created, key, c);
      if created[0].0 == key {
        if DistinctKeys(created) {
          forall i | 0 < i < |created| ensures created[i].0 != key {
            assert created[i] == tail[i - 1];
            assert tail[i - 1].0 in KeysOf(tail);
          }
        }
      } else {
        RememberPlaces(tail, key, c);
        var rest := Remember(tail, key, c);
        assert r == [created[0]] + rest;
        if key !in KeysOf(created) {
          assert [created[0]] + (tail + [(key, c)]) == created + [(key, c)];
        }
        if DistinctKeys(created) && key in KeysOf(created) {
          forall i | 0 < i < |created|
            ensures r[i] == (if created[i].0 == key then (key, c) else created[i])
          {
            assert r[i] == rest[i - 1] && created[i] == tail[i - 1];
          }
        }
      }
    }
  }

  /** A structure set is saved when both series UIDs are set and its
      referenced series was just saved or was already in the store. */
  predicate Linkable(s: StructRec, saved: set<Value>, images: map<Value, TImage>) {
    Truthy(s.referencedSeries) && Truthy(s.seriesUid) && (s.referencedSeries in saved || s.referencedSeries in images)
  }

  /** The path a saved structure-set row records, and the SOP UID found
      there: the organised copy when there is one, else the original file. */
  function StructCopyFor(s: StructRec, organised: map<Value, StructCopy>): StructCopy {
    if s.seriesUid in organised then organised[s.seriesUid] else StructCopy(s.path, s.sop)
  }

  /** The ROI rows a structure set's names call for. */
  function RoiRows(s: StructRec): set<(Value, Value)> {
    set n | n in s.roiNames :: (s.seriesUid, n)
  }

  /** The series UIDs of the linkable structure sets. */
  function LinkedSeries(ss: seq<StructRec>, saved: set<Value>, images: map<Value, TImage>): set<Value> {
    if ss == [] then {}
    else
      var s := ss[|ss| - 1];
      LinkedSeries(ss[..|ss| - 1], saved, images) + (if Linkable(s, saved, images) then {s.seriesUid} else {})
  }

  /** The ROI rows of the linkable structure sets. */
  function LinkedRois(ss: seq<StructRec>, saved: set<Value>, images: map<Value, TImage>): set<(Value, Value)> {
    if ss == [] then {}
    else
      var s := ss[|ss| - 1];
      LinkedRois(ss[..|ss| - 1], saved, images) + (if Linkable(s, saved, images) then RoiRows(s) else {})
  }

  /** A series is saved exactly when some linkable structure set has it. */
  lemma {:induction false} LinkedSeriesMembers(ss: seq<StructRec>, saved: set<Value>, images: map<Value, TImage>, k: Value)
    ensures k in LinkedSeries(ss, saved, images) <==>
      exists i :: 0 <= i < |ss| && Linkable(ss[i], saved, images) && ss[i].seriesUid == k
  {
    if ss != [] {
      var init := ss[..|ss| - 1];
      LinkedSeriesMembers(init, saved, images, k);
      if exists i :: 0 <= i < |ss| && Linkable(ss[i], saved, images) && ss[i].seriesUid == k {
        var i :| 0 <= i < |ss| && Linkable(ss[i], saved, images) && ss[i].seriesUid == k;
        if i < |ss| - 1 {
          assert init[i] == ss[i];
        }
      }
      if k in LinkedSeries(init, saved, images) {
        var i :| 0 <= i < |init| && Linkable(init[i], saved, images) && init[i].seriesUid == k;
        assert ss[i] == init[i];
      }
    }
  }

  /** An ROI row is saved exactly when some linkable structure set of that
      series names it; a name repeated anywhere gives one row. */
  lemma {:induction false} LinkedRoisMembers(ss: seq<StructRec>, saved: set<Value>, images: map<Value, TImage>, k: Value, n: Value)
    ensures (k, n) in LinkedRois(ss, saved, images) <==>
      exists i :: 0 <= i < |ss| && Linkable(ss[i], saved, images) && ss[i].seriesUid == k && n in ss[i].roiNames
  {
    if ss != [] {
      var init := ss[..|ss| - 1];
      LinkedRoisMembers(init, saved, images, k, n);
      if exists i :: 0 <= i < |ss| && Linkable(ss[i], saved, images) && ss[i].seriesUid == k && n in ss[i].roiNames {
        var i :| 0 <= i < |ss| && Linkable(ss[i], saved, images) && ss[i].seriesUid == k && n in ss[i].roiNames;
        if i < |ss| - 1 {
          assert init[i] == ss[i];
        } else {
          assert (k, n) in RoiRows(ss[i]);
        }
      }
      if (k, n) in LinkedRois(init, saved, images) {
        var i :| 0 <= i < |init| && Linkable(init[i], saved, images) && init[i].seriesUid == k && n in init[i].roiNames;
        assert ss[i] == init[i];
      }
    }
  }

  /** `save_rtstruct_data_to_db`: the structure sets in order, each linked
      one upserted with its ROI names (a name already present adds no row). */
  function SaveStructs(ss: seq<StructRec>, saved: set<Value>, organised: map<Value, StructCopy>, st: TStore)
    : (r: (TStore, Created))
    ensures r.0.images == st.images && r.0.pairs == st.pairs
    ensures KeysOf(r.1) == LinkedSeries(ss, saved, st.images)
    ensures DistinctKeys(r.1)
    ensures r.0.structs.Keys == st.structs.Keys + KeysOf(r.1)
    ensures forall k :: k in st.structs && k !in KeysOf(r.1) ==> r.0.structs[k] == st.structs[k]
    ensures forall k :: k in KeysOf(r.1) ==> r.0.structs[k].referencedImage in saved + st.images.Keys
    ensures r.0.rois == st.rois + LinkedRois(ss, saved, st.images)
  {
    if ss == [] then (st, [])
    else
      var s := ss[|ss| - 1];
      var prev := SaveStructs(ss[..|ss| - 1], saved, organised, st);
      if Linkable(s, saved, st.images) then
        var row := TStruct(s.referencedSeries, StructCopyFor(s, organised).path);
        (prev.0.(structs := prev.0.structs[s.seriesUid := row], rois := prev.0.rois + RoiRows(s)),
         Remember(prev.1, s.seriesUid, StructCopyFor(s, organised)))
      else prev
  }

  /** A saved structure set's row and the copy recorded for it come from the
      last linked record with its series UID. */
  lemma {:induction false} SaveStructsLastWins(ss: seq<StructRec>, saved: set<Value>, organised: map<Value, StructCopy>, st: TStore, i: nat)
    requires i < |ss| && Linkable(ss[i], saved, st.images)
    requires forall j :: i < j < |ss| && Linkable(ss[j], saved, st.images) ==> ss[j].seriesUid != ss[i].seriesUid
    ensures var structs := SaveStructs(ss, saved, organised, st).0.structs;
      && ss[i].seriesUid in structs
      && structs[ss[i].seriesUid] == TStruct(ss[i].referencedSeries, StructCopyFor(ss[i], organised).path)
  {
    LinkedSeriesMembers(ss, saved, st.images, ss[i].seriesUid);
    if i < |ss| - 1 {
      var init := ss[..|ss| - 1];
      assert init[i] == ss[i];
      forall j | i < j < |init| && Linkable(init[j], saved, st.images)
        ensures init[j].seriesUid != init[i].seriesUid
      {
        assert init[j] == ss[j];
      }
      SaveStructsLastWins(init, saved, organised, st, i);
    }
  }

  // ------------------------------------------------------------ plan/dose pairs

  /** The first remembered structure set whose copy has SOP UID `sop`
      (the loop over `created_rtstructs` that re-reads each path). */
  function FindStruct(created: Created, sop: Value): (r: Option<Value>)
    ensures r.Some? <==> exists i :: 0 <= i < |created| && created[i].1.sop == sop
    ensures r.Some? ==> r.value in KeysOf(created)
  {
    if created == [] then None
    else if created[0].1.sop == sop then Some(created[0].0)
    else
      assert forall i :: 0 < i < |created| ==> created[i] == created[1..][i - 1];
      KeysCons(created[0], created[1..]);
      FindStruct(created[1..], sop)
  }

  /** The structure set found is the earliest one with that SOP UID. */
  lemma {:induction false} FindStructIsFirst(created: Created, sop: Value, i: nat)
    requires i < |created| && created[i].1.sop == sop
    requires forall j :: 0 <= j < i ==> created[j].1.sop != sop
    ensures FindStruct(created, sop) == Some(created[i].0)
  {
    if i > 0 {
      forall j | 0 <= j < i - 1 ensures created[1..][j].1.sop != sop {
        assert created[1..][j] == created[j + 1];
      }
      FindStructIsFirst(created[1..], sop, i - 1);
    }
  }

  /** The structure set a dose reaches through its plan, when every link of
      the dose → plan → structure-set chain holds. */
  function ChainOf(d: DoseRec, plans: map<Value, PlanRec>, created: Created): (r: Option<(PlanRec, Value)>)
    ensures r.Some? <==>
      && PlanOf(d, plans).Some?
      && Truthy(PlanOf(d, plans).value.referencedStruct)
      && FindStruct(created, PlanOf(d, plans).value.referencedStruct).Some?
    ensures r.Some? ==>
      && r.value.0 == plans[d.referencedPlan]
      && Some(r.value.1) == FindStruct(created, r.value.0.referencedStruct)
  {
    match PlanOf(d, plans)
    case None => None
    case Some(p) =>
      if !Truthy(p.referencedStruct) then None
      else match FindStruct(created, p.referencedStruct)
        case None => None
        case Some(k) => Some((p, k))
  }

  /** The key of a pair row. */
  function PairKey(d: DoseRec, p: PlanRec): (Value, Value) {
    (d.seriesUid, p.seriesUid)
  }

  /** The keys of the pair rows the doses `ds` produce: one per dose whose
      chain holds. */
  function PairKeys(plans: seq<PlanRec>, ds: seq<DoseRec>, created: Created): set<(Value, Value)> {
    set i | 0 <= i < |ds| && ChainOf(ds[i], PlansBySop(plans), created).Some? ::
      PairKey(ds[i], ChainOf(ds[i], PlansBySop(plans), created).value.0)
  }

  /** The pair row a dose writes: the structure set found through its plan,
      and the organised dose and plan copies when the layout made them,
      else the original files. */
  function PairRowOf(d: DoseRec, chain: (PlanRec, Value), planPaths: map<Value, string>, dosePaths: map<Value, string>): TPair {
    var p := chain.0;
    TPair(chain.1,
      if d.seriesUid in dosePaths then dosePaths[d.seriesUid] else d.path,
      if p.seriesUid in planPaths then planPaths[p.seriesUid] else p.path)
  }

  /** The upsert a dose makes, if its chain holds: the row's key and value. */
  function PairWrite(plans: seq<PlanRec>, created: Created, planPaths: map<Value, string>, dosePaths: map<Value, string>, d: DoseRec)
    : Option<((Value, Value), TPair)>
  {
    match ChainOf(d, PlansBySop(plans), created)
    case None => None
    case Some(chain) => Some((PairKey(d, chain.0), PairRowOf(d, chain, planPaths, dosePaths)))
  }

  /** The upserts of the doses `ds`, in order. */
  function PairWrites(plans: seq<PlanRec>, ds: seq<DoseRec>, created: Created,
                      planPaths: map<Value, string>, dosePaths: map<Value, string>)
    : (ws: seq<Option<((Value, Value), TPair)>>)
    ensures |ws| == |ds| && forall i :: 0 <= i < |ds| ==> ws[i] == PairWrite(plans, created, planPaths, dosePaths, ds[i])
  {
    seq(|ds|, i requires 0 <= i < |ds| => PairWrite(plans, created, planPaths, dosePaths, ds[i]))
  }

  /** The upserts of the doses `ds`, in order, when none of them raises:
      one per dose whose chain holds, with the organised plan and dose paths
      when they exist. */
  function WritePairs(plans: seq<PlanRec>, ds: seq<DoseRec>, created: Created,
                     planPaths: map<Value, string>, dosePaths: map<Value, string>,
                     pairs: map<(Value, Value), TPair>): (r: map<(Value, Value), TPair>)
    ensures r.Keys == pairs.Keys + PairKeys(plans, ds, created)
    ensures forall k :: k in r && k !in pairs ==> r[k].structureSet in KeysOf(created)
    ensures forall k :: k in pairs && r[k] != pairs[k] ==> r[k].structureSet in KeysOf(created)
  {
    var ws := PairWrites(plans, ds, created, planPaths, dosePaths);
    var r := Apply(pairs, ws);
    PairKeysAreWrites(plans, ds, created, planPaths, dosePaths);
    forall k | k in r && (k !in pairs || r[k] != pairs[k]) ensures r[k].structureSet in KeysOf(created) {
      var i :| 0 <= i < |ws| && ws[i] == Some((k, r[k]));
      PairWriteShape(plans, created, planPaths, dosePaths, ds[i]);
    }
    r
  }

  /** The keys the writes touch are the pair keys. */
  lemma PairKeysAreWrites(plans: seq<PlanRec>, ds: seq<DoseRec>, created: Created,
                          planPaths: map<Value, string>, dosePaths: map<Value, string>)
    ensures var ws := PairWrites(plans, ds, created, planPaths, dosePaths);
      forall k :: k in PairKeys(plans, ds, created) <==> exists i :: 0 <= i < |ws| && ws[i].Some? && ws[i].value.0 == k
  {
    var ws := PairWrites(plans, ds, created, planPaths, dosePaths);
    forall k ensures k in PairKeys(plans, ds, created) <==> exists i :: 0 <= i < |ws| && ws[i].Some? && ws[i].value.0 == k {
      if k in PairKeys(plans, ds, created) {
        var i :| 0 <= i < |ds| && ChainOf(ds[i], PlansBySop(plans), created).Some?
          && k == PairKey(ds[i], ChainOf(ds[i], PlansBySop(plans), created).value.0);
        PairWriteShape(plans, created, planPaths, dosePaths, ds[i]);
      }
      if exists i :: 0 <= i < |ws| && ws[i].Some? && ws[i].value.0 == k {
        var i :| 0 <= i < |ws| && ws[i].Some? && ws[i].value.0 == k;
        PairWriteShape(plans, created, planPaths, dosePaths, ds[i]);
      }
    }
  }

  /** A pair row holds what the LAST dose with its key wrote: the structure
      set its chain reaches, and the organised copies when the layout made
      them, else the original files. */
  lemma WritePairsLastWins(plans: seq<PlanRec>, ds: seq<DoseRec>, created: Created,
                          planPaths: map<Value, string>, dosePaths: map<Value, string>,
                          pairs: map<(Value, Value), TPair>, i: nat)
    requires i < |ds| && PairWrite(plans, created, planPaths, dosePaths, ds[i]).Some?
    requires forall j :: i < j < |ds| && PairWrite(plans, created, planPaths, dosePaths, ds[j]).Some? ==>
      PairWrite(plans, created, planPaths, dosePaths, ds[j]).value.0 != PairWrite(plans, created, planPaths, dosePaths, ds[i]).value.0
    ensures var w := PairWrite(plans, created, planPaths, dosePaths, ds[i]).value;
      var r := WritePairs(plans, ds, created, planPaths, dosePaths, pairs);
      && w.0 in r
      && r[w.0] == w.1
  {
    ApplyLastWins(pairs, PairWrites(plans, ds, created, planPaths, dosePaths), i);
  }

  /** The row a dose writes is keyed by (dose series, plan series) and
      points at the structure set found through its plan, with the
      organised copies when the layout made them, else the originals. */
  lemma PairWriteShape(plans: seq<PlanRec>, created: Created, planPaths: map<Value, string>, dosePaths: map<Value, string>, d: DoseRec)
    ensures PairWrite(plans, created, planPaths, dosePaths, d).Some? <==> ChainOf(d, PlansBySop(plans), created).Some?
    ensures PairWrite(plans, created, planPaths, dosePaths, d).Some? ==>
      var chain := ChainOf(d, PlansBySop(plans), created).value;
      var w := PairWrite(plans, created, planPaths, dosePaths, d).value;
      && w.0 == (d.seriesUid, chain.0.seriesUid)
      && w.1.structureSet == chain.1
      && w.1.dosePath == (if d.seriesUid in dosePaths then dosePaths[d.seriesUid] else d.path)
      && w.1.planPath == (if chain.0.seriesUid in planPaths then planPaths[chain.0.seriesUid] else chain.0.path)
    ensures NullKeyed(plans, created, d) <==>
      PairWrite(plans, created, planPaths, dosePaths, d).Some?
      && (PairWrite(plans, created, planPaths, dosePaths, d).value.0.0.Null?
          || PairWrite(plans, created, planPaths, dosePaths, d).value.0.1.Null?)
  {
  }

  /** A fixed stand-in for the `IntegrityError` the database raises for a
      pair row whose dose or plan series UID is `None` (both key columns
      are NOT NULL); the real text depends on the backend and names the
      column. */
  const NullSeriesUid := "NOT NULL constraint failed: series instance UID"

  /** A dose whose chain holds but whose pair key has a `None` part: its
      upsert raises. */
  predicate NullKeyed(plans: seq<PlanRec>, created: Created, d: DoseRec) {
    match ChainOf(d, PlansBySop(plans), created)
    case None => false
    case Some(chain) => d.seriesUid.Null? || chain.0.seriesUid.Null?
  }

  /** Some dose of `ds` makes an upsert that raises. */
  predicate PairsRaise(plans: seq<PlanRec>, created: Created, ds: seq<DoseRec>) {
    exists i :: 0 <= i < |ds| && NullKeyed(plans, created, ds[i])
  }

  /** The position of the first dose whose upsert raises, or `|ds|` when
      none does. */
  function FirstNullKeyed(plans: seq<PlanRec>, ds: seq<DoseRec>, created: Created): (n: nat)
    ensures n <= |ds|
    ensures forall j :: 0 <= j < n ==> !NullKeyed(plans, created, ds[j])
    ensures n < |ds| ==> NullKeyed(plans, created, ds[n])
  {
    if ds == [] then 0
    else if NullKeyed(plans, created, ds[0]) then 0
    else
      assert forall j :: 1 <= j < |ds| ==> ds[j] == ds[1..][j - 1];
      1 + FirstNullKeyed(plans, ds[1..], created)
  }

  /** `save_rtplan_rtdose_data_to_db`: the upserts of the doses in order,
      until the first dose whose pair key has a `None` series UID raises the
      database's `IntegrityError`; the rows written before it stay. */
  function SavePairs(plans: seq<PlanRec>, ds: seq<DoseRec>, created: Created,
                     planPaths: map<Value, string>, dosePaths: map<Value, string>,
                     pairs: map<(Value, Value), TPair>): (r: (map<(Value, Value), TPair>, Option<string>))
    ensures r.1.Some? <==> PairsRaise(plans, created, ds)
    ensures r.1.Some? ==> r.1.value == NullSeriesUid
    ensures r.0 == WritePairs(plans, ds[..FirstNullKeyed(plans, ds, created)], created, planPaths, dosePaths, pairs)
    ensures r.1.None? ==> r.0 == WritePairs(plans, ds, created, planPaths, dosePaths, pairs)
    ensures forall k :: k in r.0 && k !in pairs ==> !k.0.Null? && !k.1.Null?
    ensures forall k :: k in r.0 && k !in pairs ==> r.0[k].structureSet in KeysOf(created)
    ensures forall k :: k in pairs && r.0[k] != pairs[k] ==> r.0[k].structureSet in KeysOf(created)
  {
    var n := FirstNullKeyed(plans, ds, created);
    assert forall j :: 0 <= j < n ==> ds[..n][j] == ds[j];
    WrittenKeysSet(plans, ds[..n], created, planPaths, dosePaths, pairs);
    assert n == |ds| ==> ds[..n] == ds;
    (WritePairs(plans, ds[..n], created, planPaths, dosePaths, pairs), if n < |ds| then Some(NullSeriesUid) else None)
  }

  /** Doses none of whose upserts raise write no key with a `None` part. */
  lemma WrittenKeysSet(plans: seq<PlanRec>, ds: seq<DoseRec>, created: Created,
                       planPaths: map<Value, string>, dosePaths: map<Value, string>,
                       pairs: map<(Value, Value), TPair>)
    requires forall j :: 0 <= j < |ds| ==> !NullKeyed(plans, created, ds[j])
    ensures forall k :: k in WritePairs(plans, ds, created, planPaths, dosePaths, pairs) && k !in pairs ==>
      !k.0.Null? && !k.1.Null?
  {
    forall k | k in WritePairs(plans, ds, created, planPaths, dosePaths, pairs) && k !in pairs
      ensures !k.0.Null? && !k.1.Null?
    {
      var i :| 0 <= i < |ds| && ChainOf(ds[i], PlansBySop(plans), created).Some?
        && k == PairKey(ds[i], ChainOf(ds[i], PlansBySop(plans), created).value.0);
      assert !NullKeyed(plans, created, ds[i]);
    }
  }

  // ------------------------------------------------------------ the pipeline

  /** What a successful run reports. */
  datatype Report = Report(imagesCount: nat, rtstructsCount: nat, totalFilesProcessed: nat, organizedPath: string)

  const NoFiles := "No files found in the archive"

  /** The stages after bucketing, on the buckets `b` of `fileCount` files. */
  function RunStages(archiveId: int, organizedBase: string, b: Buckets, fileCount: nat, st: TStore): (r: (Result<Report>, TStore))
  {
    match OrganizeFilesByStructure(organizedBase, archiveId, b)
    case Err(e) => (Err(e), st)
    case Ok(layout) =>
      var imagesSaved := SaveImages(archiveId, b.images, layout.imagePaths, st.images);
      var st1 := st.(images := imagesSaved.0);
      var structsSaved := SaveStructs(b.structs, imagesSaved.1, layout.structCopies, st1);
      var st2 := structsSaved.0;
      var pairs := SavePairs(b.plans, b.doses, structsSaved.1, layout.planPaths, layout.dosePaths, st2.pairs);
      (if pairs.1.Some? then Err(pairs.1.value) else Ok(Report(|imagesSaved.1|, |structsSaved.1|, fileCount, layout.root)),
       st2.(pairs := pairs.0))
  }

  /** `process_training_data_archive`: `extracted` is the archive's file
      listing with what reading each file gave, or the extraction error. */
  function ProcessTrainingDataArchive(archiveId: int, organizedBase: string, extracted: Result<seq<FileRead>>, st: TStore)
    : (r: (Result<Report>, TStore))
    ensures extracted.Err? ==> r == (Err("Failed to extract archive: " + extracted.msg), st)
    ensures extracted == Ok([]) ==> r == (Err(NoFiles), st)
    ensures r.0.Ok? ==> extracted.Ok? && r.0.value.totalFilesProcessed == |extracted.value| > 0
    ensures r.0.Ok? ==> r.0.value.organizedPath == OrganizedRoot(organizedBase, archiveId)
    ensures extracted.Ok? && extracted.value != [] && LayoutRaises(OrganizeDicomData(extracted.value)) ==>
      r == (Err(WrongType), st)
    ensures r.0.Err? && extracted.Ok? && extracted.value != [] && !LayoutRaises(OrganizeDicomData(extracted.value)) ==>
      r.0.msg == NullSeriesUid
  {
    match extracted
    case Err(e) => (Err("Failed to extract archive: " + e), st)
    case Ok(files) =>
      if files == [] then (Err(NoFiles), st)
      else
        RunStages(archiveId, organizedBase, OrganizeDicomData(files), |files|, st)
  }

  // ------------------------------------------------------------ pipeline properties

  /** Every ROI row saved belongs to a structure set saved. */
  lemma {:induction false} LinkedRoisOwners(ss: seq<StructRec>, saved: set<Value>, images: map<Value, TImage>)
    ensures forall r :: r in LinkedRois(ss, saved, images) ==> r.0 in LinkedSeries(ss, saved, images)
  {
    if ss != [] {
      LinkedRoisOwners(ss[..|ss| - 1], saved, images);
    }
  }

  /** The stages keep every row pointing at a row that exists. */
  lemma RunStagesKeepsLinks(archiveId: int, organizedBase: string, b: Buckets, fileCount: nat, st: TStore)
    requires TLinked(st)
    ensures TLinked(RunStages(archiveId, organizedBase, b, fileCount, st).1)
  {
    if LayoutRaises(b) {
      return;
    }
    var layout := LayoutOf(organizedBase, archiveId, b);
    var imagesSaved := SaveImages(archiveId, b.images, layout.imagePaths, st.images);
    var st1 := st.(images := imagesSaved.0);
    var structsSaved := SaveStructs(b.structs, imagesSaved.1, layout.structCopies, st1);
    LinkedRoisOwners(b.structs, imagesSaved.1, st1.images);
    assert TLinked(structsSaved.0);
  }

  /** `process_training_data_archive` keeps every row pointing at a row
      that exists, whatever the archive holds. */
  lemma ProcessKeepsLinks(archiveId: int, organizedBase: string, extracted: Result<seq<FileRead>>, st: TStore)
    requires TLinked(st)
    ensures TLinked(ProcessTrainingDataArchive(archiveId, organizedBase, extracted, st).1)
  {
    if extracted.Ok? && extracted.value != [] {
      RunStagesKeepsLinks(archiveId, organizedBase, OrganizeDicomData(extracted.value), |extracted.value|, st);
    }
  }

  /** A group that `AddToGroup` builds or extends is never empty. */
  lemma {:induction false} AddToGroupNonEmpty(gs: Groups, key: Value, m: ImageRec)
    requires forall i :: 0 <= i < |gs| ==> gs[i].1 != []
    ensures forall i :: 0 <= i < |AddToGroup(gs, key, m)| ==> AddToGroup(gs, key, m)[i].1 != []
  {
    if gs != [] && gs[0].0 != key {
      AddToGroupNonEmpty(gs[1..], key, m);
      var r := AddToGroup(gs, key, m);
      forall i | 0 <= i < |r| ensures r[i].1 != [] {
        if i > 0 {
          assert r[i] == AddToGroup(gs[1..], key, m)[i - 1];
        }
      }
    }
  }

  /** The buckets of an archive hold no empty image group. */
  lemma {:induction false} OrganizedGroupsNonEmpty(files: seq<FileRead>)
    ensures forall i :: 0 <= i < |OrganizeDicomData(files).images| ==> OrganizeDicomData(files).images[i].1 != []
  {
    if files != [] {
      var init := files[..|files| - 1];
      var f := files[|files| - 1];
      OrganizedGroupsNonEmpty(init);
      match ReadMetadata(f.path, f.read)
      case None =>
      case Some(m) =>
        if m.ImageMeta? && Truthy(m.image.seriesUid) {
          AddToGroupNonEmpty(OrganizeDicomData(init).images, m.image.seriesUid, m.image);
        }
    }
  }

  /** Phase order: because every image series of the archive is saved before
      any structure set is, a structure set whose two series UIDs are set
      and whose referenced series is among the archive's images is saved,
      wherever its file sits in the archive, unless laying out the archive
      raises, in which case nothing is saved. */
  lemma StructsFollowArchiveImages(archiveId: int, organizedBase: string, files: seq<FileRead>, st: TStore, s: StructRec)
    requires files != []
    requires s in OrganizeDicomData(files).structs
    requires Truthy(s.referencedSeries) && Truthy(s.seriesUid)
    requires s.referencedSeries in KeysOf(OrganizeDicomData(files).images)
    ensures LayoutRaises(OrganizeDicomData(files)) ==> ProcessTrainingDataArchive(archiveId, organizedBase, Ok(files), st).1 == st
    ensures !LayoutRaises(OrganizeDicomData(files)) ==>
      s.seriesUid in ProcessTrainingDataArchive(archiveId, organizedBase, Ok(files), st).1.structs
  {
    var b := OrganizeDicomData(files);
    if LayoutRaises(b) {
      return;
    }
    var layout := LayoutOf(organizedBase, archiveId, b);
    var imagesSaved := SaveImages(archiveId, b.images, layout.imagePaths, st.images);
    OrganizedGroupsNonEmpty(files);
    assert s.referencedSeries in imagesSaved.1;
    var i :| 0 <= i < |b.structs| && b.structs[i] == s;
    LinkedSeriesMembers(b.structs, imagesSaved.1, st.(images := imagesSaved.0).images, s.seriesUid);
  }

  /** A run over a non-empty archive fails exactly when laying it out
      raises the `TypeError` (nothing saved) or, failing that, when some
      dose's pair key has a `None` series UID. */
  lemma ReportOutcome(archiveId: int, organizedBase: string, files: seq<FileRead>, st: TStore)
    requires files != []
    ensures var r := ProcessTrainingDataArchive(archiveId, organizedBase, Ok(files), st);
      var b := OrganizeDicomData(files);
      && (LayoutRaises(b) ==> r == (Err(WrongType), st))
      && (!LayoutRaises(b) ==> (r.0.Err? <==> PairsRaise(b.plans, StructsCreated(archiveId, organizedBase, b, st), b.doses)))
      && (!LayoutRaises(b) && r.0.Err? ==> r.0.msg == NullSeriesUid)
  {
    var b := OrganizeDicomData(files);
    var r := ProcessTrainingDataArchive(archiveId, organizedBase, Ok(files), st);
    var run := RunStages(archiveId, organizedBase, b, |files|, st);
    assert r.0 == run.0;
    RunStagesOutcome(archiveId, organizedBase, b, |files|, st);
  }

  /** The counts a successful run reports are the number of distinct image
      series with a series UID and the number of distinct structure sets
      saved. */
  lemma ReportCounts(archiveId: int, organizedBase: string, files: seq<FileRead>, st: TStore)
    requires files != []
    ensures var r := ProcessTrainingDataArchive(archiveId, organizedBase, Ok(files), st);
      var b := OrganizeDicomData(files);
      var saved := KeysOf(b.images);
      r.0.Ok? ==>
        && r.0.value.imagesCount == |saved|
        && r.0.value.rtstructsCount == |LinkedSeries(b.structs, saved, SaveImages(archiveId, b.images,
             LayoutOf(organizedBase, archiveId, b).imagePaths, st.images).0)|
  {
    var b := OrganizeDicomData(files);
    var layout := LayoutOf(organizedBase, archiveId, b);
    var imagesSaved := SaveImages(archiveId, b.images, layout.imagePaths, st.images);
    OrganizedGroupsNonEmpty(files);
    assert imagesSaved.1 == KeysOf(b.images);
    var structsSaved := SaveStructs(b.structs, imagesSaved.1, layout.structCopies, st.(images := imagesSaved.0));
    DistinctKeysCount(structsSaved.1);
    assert StructsCreated(archiveId, organizedBase, b, st) == structsSaved.1;
    assert ImagesSaved(archiveId, organizedBase, b, st) == imagesSaved.1;
    RunStagesOutcome(archiveId, organizedBase, b, |files|, st);
    assert ProcessTrainingDataArchive(archiveId, organizedBase, Ok(files), st).0 == RunStages(archiveId, organizedBase, b, |files|, st).0;
  }

  /** The series the image stage saves. */
  function ImagesSaved(archiveId: int, organizedBase: string, b: Buckets, st: TStore): set<Value> {
    var layout := LayoutOf(organizedBase, archiveId, b);
    SaveImages(archiveId, b.images, layout.imagePaths, st.images).1
  }

  /** The structure sets the structure-set stage remembers. */
  function StructsCreated(archiveId: int, organizedBase: string, b: Buckets, st: TStore): Created {
    var layout := LayoutOf(organizedBase, archiveId, b);
    var imagesSaved := SaveImages(archiveId, b.images, layout.imagePaths, st.images);
    SaveStructs(b.structs, imagesSaved.1, layout.structCopies, st.(images := imagesSaved.0)).1
  }

  /** The stages fail with the `TypeError`, saving nothing, exactly when
      laying out the buckets raises; otherwise they fail exactly when a
      dose's pair key has a `None` series UID, and else report what the
      image and structure-set stages saved. */
  lemma RunStagesOutcome(archiveId: int, organizedBase: string, b: Buckets, fileCount: nat, st: TStore)
    ensures var r := RunStages(archiveId, organizedBase, b, fileCount, st);
      var created := StructsCreated(archiveId, organizedBase, b, st);
      && (LayoutRaises(b) ==> r == (Err(WrongType), st))
      && (r.0.Err? <==> LayoutRaises(b) || PairsRaise(b.plans, created, b.doses))
      && (!LayoutRaises(b) && r.0.Err? ==> r.0.msg == NullSeriesUid)
      && (r.0.Ok? ==> r.0.value.imagesCount == |ImagesSaved(archiveId, organizedBase, b, st)|)
      && (r.0.Ok? ==> r.0.value.rtstructsCount == |created| && r.0.value.totalFilesProcessed == fileCount)
  {
    if LayoutRaises(b) {
      return;
    }
    var layout := LayoutOf(organizedBase, archiveId, b);
    var imagesSaved := SaveImages(archiveId, b.images, layout.imagePaths, st.images);
    var structsSaved := SaveStructs(b.structs, imagesSaved.1, layout.structCopies, st.(images := imagesSaved.0));
    var pairs := SavePairs(b.plans, b.doses, structsSaved.1, layout.planPaths, layout.dosePaths, structsSaved.0.pairs);
    assert RunStages(archiveId, organizedBase, b, fileCount, st).0
      == if pairs.1.Some? then Err(pairs.1.value) else Ok(Report(|imagesSaved.1|, |structsSaved.1|, fileCount, layout.root));
  }

  /** The whole run depends on the archive's files only through the records
      of each kind: interleaving images, structure sets, plans and doses
      differently gives the same report and the same store. */
  lemma ProcessInterleavingIrrelevant(archiveId: int, organizedBase: string, a: seq<FileRead>, b: seq<FileRead>, st: TStore)
    requires |a| == |b|
    requires ImagesIn(Records(a)) == ImagesIn(Records(b))
    requires StructsIn(Records(a)) == StructsIn(Records(b))
    requires PlansIn(Records(a)) == PlansIn(Records(b))
    requires DosesIn(Records(a)) == DosesIn(Records(b))
    ensures ProcessTrainingDataArchive(archiveId, organizedBase, Ok(a), st)
         == ProcessTrainingDataArchive(archiveId, organizedBase, Ok(b), st)
  {
    InterleavingIrrelevant(a, b);
  }
}

=== FILE: wrappers.dfy ===
/** Optional values and results with an error message: Python's `None`
    and raised exceptions, made explicit. */
module Wrappers {

  /** A value that may be absent (Python `None`). */
  datatype Option<T> = None | Some(value: T) {

    /** The value, or `default` when absent (`d.get(k, default)`). */
    function GetOr(default: T): T {
      match this
      case Some(v) => v
      case None => default
    }
  }

  /** The outcome of a step that may raise: its value, or the text of the
      exception it raised (`str(e)`). */
  datatype Result<T> = Ok(value: T) | Err(msg: string)
}
